=== FILE: README.md ===
# Horse hoof–pastern angle analysis, modelled in Dafny

The system measures how well a horse's hoof lines up with its pastern. It
does this from a side photograph of each leg. A keypoint network finds four
points on the limb:

- P1, the top of the pastern;
- P2, the bottom of the pastern;
- P3, the top of the hoof wall;
- P4, the toe.

The detector (`HPAPredictor.predict`) works in these steps:

1. It tries four fixed horizontal crop zones.
2. It keeps the zone whose detection scores best under a sanity heuristic.
3. It rejects detections with low confidence.
4. It shifts the two pastern points by a facing-dependent offset.
5. It mirrors the points so that the toe lies to the right.
6. It folds the pastern and hoof directions into 0–90° "clinical" angles and reports their difference, the HPA deviation.

The v2 API turns each leg's measurement into:

- a half-point score from 1 to 10;
- banded clinical texts (condition, notes, recommendation);
- a confidence grade.

It then aggregates the scored legs into one figure and one narrative. The
narrative follows the worst leg. A failed leg never blocks the others.

Around this sit the dataset scripts for the COCO keypoint annotation files:

- a loader for CVAT exports;
- a rebuild of bounding boxes from keypoints;
- a train/validation split;
- a sync of refined annotations into split files;
- an area/`iscrowd` normaliser;
- a two-pass pre-annotation generator.

The Dafny project models all of this as pure functions over exact reals and
integers. Several parts are not modelled and are passed in as function-typed
parameters instead:

- the keypoint network (`Predictor.KeypointOracle`, `PreAnnotations.Detector`);
- `atan2` in degrees (`Geometry.Atan2Degrees`, known only to lie in [-180, 180]);
- image decoding (`Predictor.Decoder`, `PreAnnotations.Reader`);
- the HTTP fetch and per-leg inference of the API (`Routes.Fetcher`, `Routes.LegInference`);
- `random.shuffle`, whose result is given as a permutation (`SplitDataset.IsPermutation`).

Files are passed in already loaded, as `Coco.CocoFile` records. A key the
scripts look up with `.get` or test with `in` is an `Option` field. The
exceptions the scripts raise become `Coco.CocoError` values, such as
`MissingKey("images")`.

Modules:

| file | module | models |
|---|---|---|
| wrappers.dfy | Wrappers | `Option` and `Result` |
| numerics.dfy | Numerics | `abs`, `min`, `max`, float `%`, `int()`, `round` (half to even) |
| stats.dfy | Stats | `sum`, `min`, `max` of a list; permutation invariance |
| geometry.dfy | Geometry | src/geomatry/* and the API's `angle_from_vertical`, `clinical_angle` |
| anatomy.dfy | Anatomy | `apply_anatomical_offset`, direction normalisation (mirroring) |
| predictor.dfy | Predictor | `HPAPredictor.predict` |
| evaluation.dfy | Evaluation | evaluate_hpa_accuracy.py |
| scoring.dfy | Scoring | `calculate_leg_score` |
| clinical.dfy | Clinical | `map_condition`, `map_clinical_notes`, `map_recommendation` |
| quality.dfy | Quality | `map_quality` |
| notes.dfy | Notes | `map_leg_notes` (legacy, unused by the route) |
| aggregator.dfy | Aggregator | `aggregate_scan` |
| routes.dfy | Routes | `analyze_v2` |
| coco.dfy | Coco | the annotation-file records, `{k: x for x in xs}` indexing |
| cvat_parser.dfy | CvatParser | `load_cvat_keypoints` |
| fix_bbox.dfy | FixBbox | `fix_coco_bboxes` |
| split_dataset.dfy | SplitDataset | `split_dataset` |
| sync_annotations.dfy | SyncAnnotations | `sync_annotations` |
| normalize_coco.dfy | NormalizeCoco | normalize_coco_points.py |
| file_selection.dfy | FileSelection | the file selection of generate_pre_annotations_hq.py |
| pre_annotations.dfy | PreAnnotations | the rest of generate_pre_annotations_hq.py |

## Model

| member | source | states |
|---|---|---|
| Numerics.Mod180 | src/geomatry/angles.py:36 | `x % 180` lies in [0, 180) and differs from x by a whole multiple of 180 |
| Numerics.Trunc | apis/logic.py:73-75 | `int(x)` truncates toward zero: within one below x for x ≥ 0, within one above for x < 0 |
| Numerics.RoundHalfEven | apis/v2/services/scoring.py:27 | `round(x)` is within 0.5 of x, and on a tie it is the even neighbour |
| Numerics.RoundHalfEvenUnique | apis/v2/services/scoring.py:27 | those two facts determine `round(x)`: any integer meeting them is the result |
| Numerics.RoundHalfEvenMonotone | apis/v2/services/quality.py:9 | `round` never reverses the order of two values |
| Numerics.RoundTenths | apis/v2/services/aggregator.py:28 | `round(x, 1)` is a whole number of tenths within 0.05 of x |
| Numerics.RoundHundredths | apis/logic.py:151-154 | `round(x, 2)` is a whole number of hundredths within 0.005 of x |
| Numerics.RoundHundredthsWithin | apis/logic.py:151-153 | rounding to two places keeps a value inside any interval with whole-number ends, so rounded angles stay in [0, 90] |
| Numerics.RoundHundredthsExact | generate_pre_annotations_hq.py:127 | `round(x, 2)` leaves a value that is already a whole number of hundredths unchanged |
| Stats.Mean | apis/v2/services/aggregator.py:27 | `sum(s) / len(s)` is the value whose len(s) copies add up to the sum |
| Stats.MeanBetween | apis/v2/services/aggregator.py:27 | the mean lies between the smallest and the largest element |
| Stats.MinOf | apis/v2/services/aggregator.py:26 | `min(s)` is an element of s no larger than any other |
| Stats.MaxOf | generate_pre_annotations_hq.py:78 | `max(s)` is an element of s no smaller than any other |
| Stats.SumPermutation | apis/v2/services/aggregator.py:27 | the sum of a list does not depend on its order |
| Stats.MinPermutation | apis/v2/services/aggregator.py:26 | the minimum of a list does not depend on its order |
| Geometry.Vector | src/geomatry/vectors.py:4-6 | `vector(p1, p2)` is the displacement that carries p1 onto p2 |
| Geometry.VectorToSelfIsZero | src/geomatry/vectors.py:4-6 | `vector(p, p)` is the zero vector |
| Geometry.VectorReversed | src/geomatry/vectors.py:4-6 | `vector(p2, p1)` is the negation of `vector(p1, p2)` |
| Geometry.Normalize | src/geomatry/vectors.py:14-19 | `normalize` raises "Cannot normalize zero-length vector" exactly for the zero vector; otherwise the result times the magnitude is v |
| Geometry.PasternVector | src/geomatry/vectors.py:35-39 | the overriding `pastern_vector` raises exactly when P1 == P2; otherwise it carries P1 onto P2 |
| Geometry.HoofWallVector | src/geomatry/vectors.py:29-33 | `hoof_wall_vector` carries P3 onto P4 and never raises, even for coincident points |
| Geometry.AngleFromVertical | src/geomatry/angles.py:18-28 | `angle_from_vertical(v)` is atan2 applied to (-v.x, -v.y) |
| Geometry.AnatomicalAngle | src/geomatry/angles.py:30-39 | `anatomical_angle` lies in [0, 90] for every real input |
| Geometry.AnatomicalAngleEven | src/geomatry/angles.py:36-39 | `anatomical_angle(-a) == anatomical_angle(a)`: direction is removed |
| Geometry.AnatomicalAnglePeriodic | src/geomatry/angles.py:36-39 | `anatomical_angle(a + 180) == anatomical_angle(a)`: reversing a vector changes nothing |
| Geometry.AnatomicalAngleIdentityOnRange | src/geomatry/angles.py:36-39 | the fold is the identity on [0, 90] |
| Geometry.AnatomicalAngleIdempotent | src/geomatry/angles.py:36-39 | folding twice equals folding once |
| Geometry.AnatomicalAngleIsNearest | src/geomatry/angles.py:36-39 | the fold is at most the distance from a to any multiple of 180 |
| Geometry.NearestHalfTurn | src/geomatry/angles.py:36-39 | some multiple of 180 is exactly that far from a, so the fold is the distance to the nearest multiple |
| Geometry.ClinicalAngle | apis/logic.py:19-23 | `clinical_angle` lies in [0, 90] |
| Geometry.ClinicalIsGroundOfAnatomical | src/geomatry/conversion.py:1-9 | `vertical_to_ground_angle(anatomical_angle(a))` equals the API's `clinical_angle(a)` |
| Geometry.VerticalToGround | src/geomatry/conversion.py:1-9 | the ground angle and the vertical angle add up to 90 |
| Geometry.VerticalToGroundExample | src/geomatry/conversion.py:7-9 | 33° from the vertical is 57° from the ground, as the docstring says |
| Geometry.VerticalToGroundProperties | src/geomatry/conversion.py:9 | the conversion maps [0, 90] into itself, reverses order and is its own inverse |
| Geometry.ClinicalAngleOfReversedVector | apis/logic.py:13-23 | when atan2 answers half a turn apart for v and -v, both get the same clinical angle |
| Anatomy.FacingDirection | apis/logic.py:26-27 | the direction is -1 exactly when P3 lies left of P2, and +1 otherwise |
| Anatomy.ApplyAnatomicalOffset | apis/logic.py:25-31 | only P1.x moves, by dir·0.0125·W, and P2.x, by dir·0.005·W; P3, P4 and every y are unchanged |
| Anatomy.MirrorAboutInvolution | apis/logic.py:130-133 | reflecting every x about the same vertical line twice restores the points |
| Anatomy.NormalizeDirection | apis/logic.py:130-133 | afterwards P1.x ≤ P4.x; P1 and P4 swap their x; P2 and P3 are reflected; every y is kept; points already in order are untouched |
| Anatomy.NormalizeDirectionIdempotent | evaluate_hpa_accuracy.py:30-34 | normalising a second time is a no-op |
| Predictor.Zones | apis/logic.py:72-77 | the four zones in order: Floor-Scan [int(0.4h), h], Anatomy-Scan [int(0.2h), int(0.8h)], Top-Anatomy [0, int(0.6h)], Global-Scan [0, h], each inside [0, h] |
| Predictor.CropBox | apis/logic.py:84-88 | each crop spans its zone's rows and satisfies 0 ≤ x1 ≤ x2 ≤ W; it is centred (x1 + x2 = W) and min(W, 192/256 of the zone height) wide |
| Predictor.MeanScore | apis/logic.py:100 | `np.mean(scores)` is the mean of the four scores, so it lies between the lowest and the highest |
| Predictor.IsSane | apis/logic.py:94-98 | a detection is sane exactly when the pastern top is at least 10 px above the hoof-wall top |
| Predictor.ZoneQuality | apis/logic.py:94-102 | quality is ten times the mean score, less 8 when P1 is not at least 10 px above P3 |
| Predictor.SelectBest | apis/logic.py:79-107 | the chosen zone has maximal quality, and every earlier zone has strictly less |
| Predictor.SelectBestIsFirstMaximum | apis/logic.py:104-107 | the choice is exactly the earliest index of maximal quality, so ties go to the zone tried first |
| Predictor.EvaluateZones | apis/logic.py:83-102 | the network runs once per zone, in zone order, on that zone's crop box |
| Predictor.CorrectKeypoints | apis/logic.py:127-133 | after the offset and the mirroring, P1.x ≤ P4.x and every y is unchanged |
| Predictor.ApiAngles | apis/logic.py:135-140 | the pastern angle is taken from P2→P1 and the hoof angle from P4→P3; both lie in [0, 90], and the deviation is their absolute difference |
| Predictor.PassesConfidenceGate | apis/logic.py:126 | the gate passes exactly when the lowest of the four scores exceeds 0.10 |
| Predictor.PredictImage | apis/logic.py:109-157 | the best zone is always reported; the result is measured iff all four winning scores exceed 0.10; the angles are those of the corrected winning keypoints, rounded to two places and within [0, 90] |
| Predictor.Predict | apis/logic.py:59-70 | an empty buffer gives "Empty image buffer provided"; an undecodable one gives "Could not decode image"; otherwise the prediction on the decoded image |
| Evaluation.CalculateHpaMetrics | evaluate_hpa_accuracy.py:26-41 | the script normalises a copy of the points with no offset and takes P1→P2 and P3→P4; the angles lie in [0, 90] and the deviation is their difference |
| Evaluation.EvaluationAgreesWithApiGeometry | evaluate_hpa_accuracy.py:36-41 | when atan2 answers half a turn apart for reversed vectors, the script's angles equal the API's angles on the same normalised points |
| Evaluation.MakeRow | evaluate_hpa_accuracy.py:90-130 | every error in a report row is non-negative and within 0.005 of the true absolute difference; each of the six GT and predicted angle columns is within 0.005 of the angle it reports |
| Evaluation.AccurateIffWithinTolerance | evaluate_hpa_accuracy.py:120-148 | a row passes the 3° test exactly when its unrounded deviation error is at most 3.005, since the test is made on the value rounded to two places |
| Evaluation.CountAccurate | evaluate_hpa_accuracy.py:146-148 | the count of rows with deviation error ≤ 3.0 is at most the row count; it equals the row count iff every row is accurate, and is 0 iff none is |
| Evaluation.CountAccurateConcat | evaluate_hpa_accuracy.py:148 | the count over two lists of rows is the sum of their counts |
| Evaluation.CountAccurateCountsRows | evaluate_hpa_accuracy.py:148 | the count is the number of positions whose row has a deviation error ≤ 3.0 |
| Evaluation.PercentBounds | evaluate_hpa_accuracy.py:149 | a count out of a positive total, as a percentage, lies in [0, 100] and is 100 iff the count is the total |
| Evaluation.Mean | evaluate_hpa_accuracy.py:143-144 | the average times the row count is the column's sum |
| Evaluation.Percent | evaluate_hpa_accuracy.py:149 | the percentage times the total is 100 times the count; it lies in [0, 100] and is 100 iff the count is the total |
| Evaluation.Summarize | evaluate_hpa_accuracy.py:141-149 | with no rows the script fails; otherwise the total is the row count, the accurate count is that of CountAccurate, the success rate is its percentage of the total (in [0, 100], 100 iff every row is within tolerance), and each average error is the mean of its column |
| Evaluation.SummarizeFigures | evaluate_hpa_accuracy.py:141-149 | the success rate is the number of rows within tolerance over the row count, times 100, and each average error is its column's sum over the row count |
| Scoring.PenaltySteps | apis/v2/services/scoring.py:14-21 | the steps are non-negative: one per degree when the pastern is steeper, one per 1.5 degrees the other way |
| Scoring.RawScore | apis/v2/services/scoring.py:23 | the unrounded score is at most 10 and is 10 exactly for equal angles; it loses half a point per degree of steeper pastern and per 1.5 degrees of steeper hoof |
| Scoring.LegScore | apis/v2/services/scoring.py:3-30 | the score is a half-point in [1, 10], within 0.25 of max(1, raw score), and a whole number on a tie |
| Scoring.LegScoreAligned | apis/v2/services/scoring.py:14-30 | equal pastern and hoof angles score 10 |
| Scoring.LegScoreExamples | apis/v2/services/scoring.py:18-27 | diff +2 scores 9.0 and diff -2 scores 9.5; the ties +0.5 and +1.5 round to even, giving 10.0 and 9.0 |
| Scoring.LegScoreAsymmetry | apis/v2/services/scoring.py:18-23 | a diff of -1.5k scores the same as a diff of +k |
| Scoring.LegScoreMonotone | apis/v2/services/scoring.py:18-30 | more penalty steps never score higher |
| Scoring.LegScoreFloor | apis/v2/services/scoring.py:23-30 | a diff of at least +18, or at most -27, scores the minimum 1.0 |
| Clinical.BandOf | apis/v2/services/clinical.py:16-23 | the bands are ≥ 9 Optimal, [6, 9) Acceptable, [2, 6) Poor and < 2 Critical, each stated both ways |
| Clinical.MapCondition | apis/v2/services/clinical.py:3-23 | None iff the score is None; otherwise the condition text of the score's band |
| Clinical.MapClinicalNotes | apis/v2/services/clinical.py:26-42 | None iff the score is None; otherwise the notes text of the score's band |
| Clinical.MapRecommendation | apis/v2/services/clinical.py:45-61 | None iff the score is None; otherwise the recommendation text of the score's band |
| Clinical.ConditionTextsDistinct | apis/v2/services/clinical.py:16-23 | the four condition texts are pairwise distinct |
| Clinical.MappersAgree | apis/v2/services/clinical.py:16-61 | two scores get the same condition iff they share a band, and then also the same notes and recommendation |
| Clinical.BandMonotone | apis/v2/services/clinical.py:16-23 | a higher score never lands in a worse band |
| Clinical.HalfStepsFallToLowerBand | apis/v2/services/clinical.py:16-23 | 8.5 is Acceptable, 5.5 Poor, 1.5 Critical and 9.0 Optimal |
| Quality.MapQuality | apis/v2/services/quality.py:1-10 | the grade is an integer in [1, 10]; it equals round(10c) when that lies in [1, 10], is 1 when 10c ≤ 1 and 10 when 10c ≥ 10 |
| Quality.MapQualityNearest | apis/v2/services/quality.py:9-10 | no grade from 1 to 10 lies nearer to 10c |
| Quality.MapQualityMonotone | apis/v2/services/quality.py:9-10 | a higher confidence never gets a lower grade |
| Quality.MapQualityExamples | apis/v2/services/quality.py:9-10 | confidence 1.0 grades 10, 0.0 grades 1, 0.25 grades 2 (the tie goes to even) and 0.35 grades 4 |
| Notes.LegacyLevel | apis/v2/services/notes.py:13-20 | the level is 0 iff score > 7, 1 iff 5 ≤ score ≤ 7, 2 iff 3 ≤ score < 5, and 3 iff score < 3 |
| Notes.MapLegNotes | apis/v2/services/notes.py:3-20 | every score gets exactly the note of its level |
| Notes.LegacyLevelMonotone | apis/v2/services/notes.py:13-20 | a higher score never gets a more worrying note |
| Notes.LegacyNotesBoundaries | apis/v2/services/notes.py:13-20 | 7.0 is not yet "healthy" while 7.5 is; 5.0 and 3.0 belong to the band above; 2.5 needs an immediate checkup |
| Notes.LegacyTableConflictsWithClinical | apis/v2/services/notes.py:13-20 | the unused legacy table disagrees with the clinical bands: at 5 and at 8 the two give different verdicts |
| Aggregator.OutlookOf | apis/v2/services/aggregator.py:31-45 | the worst leg decides: exactly 1 is severe, else ≤ 5 is a concern, else ≥ 9 is excellent, else fair |
| Aggregator.Narrative | apis/v2/services/aggregator.py:31-45 | the narrative text is the one for the outlook of the worst score |
| Aggregator.AggregateScan | apis/v2/services/aggregator.py:3-50 | no legs gives a None score and "No legs analyzed."; otherwise the score is the mean rounded to one place and the narrative follows the minimum |
| Aggregator.AggregateScanPermutation | apis/v2/services/aggregator.py:25-50 | permuting the leg scores changes neither score nor narrative |
| Aggregator.AggregateNarrative | apis/v2/services/aggregator.py:31-45 | for scores ≥ 1: severe iff some leg is 1; concern iff none is 1 and some is ≤ 5; excellent iff all are ≥ 9 |
| Aggregator.AggregateScanExample | apis/v2/services/aggregator.py:26-33 | scores [1, 8, 9] give 6.0 and the severe narrative |
| Aggregator.AggregateScanHalfPointIsConcern | apis/v2/services/aggregator.py:35-37 | a worst leg of 1.5 is a concern, not severe |
| Routes.Outcome | apis/v2/routes.py:33-93 | a missing or empty input means no input; a failed fetch is a download failure with its message; a raised or rejected inference is an inference failure, carrying the error text or none; a measured prediction is analysed with its angles and confidence |
| Routes.Report | apis/v2/routes.py:37-111 | no input leaves all five fields None; a failure fills only the note ("Download failed: …" / "Inference failed: …"); an analysed leg gets its leg score, the clinical texts of its band and the quality grade |
| Routes.ReportedScores | apis/v2/routes.py:84-115 | the aggregated list holds exactly the scores of the analysed legs, and no more entries than there are legs |
| Routes.ReportedScoresConcat | apis/v2/routes.py:107-115 | the list for two groups of legs is the concatenation of their lists, so the leg order is kept |
| Routes.LegsScoringSnoc | apis/v2/routes.py:107-115 | adding a leg adds its position to the legs scoring x exactly when it scores x |
| Routes.ReportedScoresMultiplicity | apis/v2/routes.py:107-115 | each score occurs in the aggregated list as often as there are legs reporting it |
| Routes.AnalyzeV2 | apis/v2/routes.py:14-127 | without a model it is a 503 error; otherwise each leg's report comes from that leg's outcome, the aggregate covers the scored legs, and the top-level quality is 1 |
| Routes.LegIsolation | apis/v2/routes.py:33-115 | a leg's report depends only on its own input; other legs' failures never change it |
| Routes.NothingScoredNothingAggregated | apis/v2/routes.py:117-123 | with no leg analysed the response has no score and the note "No legs analyzed." |
| Routes.ReportedNarrative | apis/v2/routes.py:115-118 | over reported scores, the narrative is severe iff some report carries a score of 1 |
| Routes.ResponseNarrative | apis/v2/routes.py:117-123 | with some leg analysed, the response narrative is the one for the worst reported score |
| Routes.SevereIffSomeLegAtMinimum | apis/v2/routes.py:100-123 | end to end, the response is severe iff some leg scored the minimum of 1 |
| Routes.EmptyImageReport | apis/v2/routes.py:66-71 | an empty downloaded image is reported as "Inference failed: Empty image buffer provided" |
| Coco.IndexBy | src/cvat/parser.py:30-33 | a dict built by id holds exactly the ids of the entries |
| Coco.IndexByLastWins | sync_annotations.py:21 | when two entries share an id, the later one is kept |
| Coco.ImageIds | sync_annotations.py:24 | the id set holds exactly the ids of the images |
| CvatParser.QuadOf | src/cvat/parser.py:51-55 | Pi is (kp[3(i-1)], kp[3(i-1)+1]); the visibility values are dropped |
| CvatParser.LoadKeypoints | src/cvat/parser.py:37-57 | the load fails iff some annotation lacks exactly twelve keypoint values, whether or not its image is listed |
| CvatParser.LoadKeypointsFirstError | src/cvat/parser.py:41-45 | the error names the count and image id of the first offending annotation |
| CvatParser.LoadKeypointsNames | src/cvat/parser.py:47-57 | a file name is in the result iff some annotation of a listed image names it; annotations of unlisted images are skipped |
| CvatParser.LoadKeypointsLastWins | src/cvat/parser.py:57 | a later annotation for the same file name overwrites an earlier one |
| CvatParser.LoadCvatKeypoints | src/cvat/parser.py:30-37 | missing "annotations" gives an empty result; a missing key counts as an empty list |
| CvatParser.LoadCvatKeypointsWithoutImages | src/cvat/parser.py:30-33 | without "images" no annotation names a file, so nothing loads |
| FixBbox.Triples | fix_bbox_from_keypoints.py:31-32 | the flat list is read as (x, y, v) triples in order |
| FixBbox.VisibleOf | fix_bbox_from_keypoints.py:33-35 | exactly the points with v > 0 are kept |
| FixBbox.Tight | fix_bbox_from_keypoints.py:49-50 | the box holds every point, each side touches one, and the minimum of each axis is at most its maximum |
| FixBbox.Expand | fix_bbox_from_keypoints.py:63-69 | the left and right sides move out by 0.12·W, the top by 0.08·H and the bottom by 0.05·H, so the box contains the one it widens and is 1.24·W by 1.13·H |
| FixBbox.Clamp | fix_bbox_from_keypoints.py:72-75 | a side is kept when it lies in [0, img_w - 1] × [0, img_h - 1] and is moved onto the edge of that range otherwise |
| FixBbox.ClampIsIntersection | fix_bbox_from_keypoints.py:72-75 | a point lies in the clamped box exactly when it lies in the box and on the image |
| FixBbox.BoxFor | fix_bbox_from_keypoints.py:49-86 | the keypoints are fitted exactly when they are more than one pixel high and the widened, clamped box is at least a quarter of the image high and more than a pixel wide and high; the fitted box is that widened, clamped box |
| FixBbox.BoxForContains | fix_bbox_from_keypoints.py:63-75 | a fitted box holds every one of its keypoints that lies in the image |
| FixBbox.BoxForRegion | fix_bbox_from_keypoints.py:49-75 | a point lies in a fitted box exactly when it is on the image and within 0.12·W left or right, 0.08·H above and 0.05·H below the keypoints' extremes |
| FixBbox.FitBox | fix_bbox_from_keypoints.py:25-86 | empty keypoints or num_keypoints 0 skip; a length not a multiple of three raises; fewer than two visible keypoints or an unknown image skip; otherwise the verdict is the box rule on the visible keypoints and that image |
| FixBbox.FitBoxProperties | fix_bbox_from_keypoints.py:30-86 | a fitted box holds every visible in-image keypoint and satisfies all the size and position bounds |
| FixBbox.Apply | fix_bbox_from_keypoints.py:88-94 | a skipped annotation is unchanged; a fitted one gets a four-entry bbox and an area; nothing else changes |
| FixBbox.ApplyWritesRoundedBox | fix_bbox_from_keypoints.py:88-94 | the written x, y, width and height are each within 0.005 of the fitted box's, and the area within 0.005 of width times height |
| FixBbox.WrittenBoxNonNegative | fix_bbox_from_keypoints.py:88-94 | a written bbox has no negative entry and a positive area |
| FixBbox.FixAnnotations | fix_bbox_from_keypoints.py:21-96 | the loop fails iff some annotation raises; each annotation gets its own verdict; fixed is the number of annotations given a box and skipped the number left alone |
| FixBbox.FixAnnotationsFirstError | fix_bbox_from_keypoints.py:24-32 | the error is that of the first annotation that raises |
| FixBbox.FitBoxIgnoresBox | fix_bbox_from_keypoints.py:25-55 | the verdict ignores the bbox and area it writes |
| FixBbox.FixAnnotationsIdempotent | fix_bbox_from_keypoints.py:24-96 | under such a rule, a second pass changes nothing |
| FixBbox.FitRuleIdempotent | fix_bbox_from_keypoints.py:24-96 | running the bbox fix twice gives the same annotations and counts |
| FixBbox.FixCocoBboxes | fix_bbox_from_keypoints.py:15-99 | missing "images" or "annotations" raise; only the annotations change, each rebuilt from its own keypoints; the printed fixed and skipped counts are the numbers of annotations the bbox rule fits and skips |
| SplitDataset.Pick | split_dataset.py:32 | the p-th picked image is the idx[p]-th image |
| SplitDataset.Shuffle | split_dataset.py:31-32 | the shuffle keeps the length and every image |
| SplitDataset.SliceIndex | split_dataset.py:38-39 | a slice bound is read as Python does: a negative bound counts from the end, and any bound is cut to [0, n] |
| SplitDataset.Scale | split_dataset.py:36 | n·x is non-negative for x ≥ 0, and at most n for x ≤ 1 |
| SplitDataset.ScaleIsProduct | split_dataset.py:36 | the repeated sum is the product n·x |
| SplitDataset.SplitPoint | split_dataset.py:35-36 | the split index lies in [0, n] |
| SplitDataset.AnnotationsOf | split_dataset.py:22-27 | an image's annotations are exactly those with its id, and never more than the file holds |
| SplitDataset.AnnotationsOfConcat | split_dataset.py:22-27 | the lookup distributes over concatenation, so an image's annotations keep the order they have in the file |
| SplitDataset.BuildAnnotations | split_dataset.py:41-52 | every collected annotation comes from the file and belongs to a listed image |
| SplitDataset.BuildDataset | split_dataset.py:41-52 | an output file carries the info, the categories and the given images, and exactly the annotations whose image it lists |
| SplitDataset.BuildAnnotationsMembers | split_dataset.py:41-52 | an output's annotations are exactly those whose image it lists |
| SplitDataset.BuildAnnotationsConcat | split_dataset.py:48-51 | collecting over two image lists one after the other is collecting over their concatenation |
| SplitDataset.SplitAt | split_dataset.py:38-68 | the split aborts exactly when the id sets of the two halves intersect, and then reports that intersection; otherwise train is the prefix and val the rest, each with its own images' annotations |
| SplitDataset.SplitAbortsIffIdCrossesCut | split_dataset.py:61-68 | the split aborts exactly when one id occurs both before and after the cut point |
| SplitDataset.SplitData | split_dataset.py:16-68 | missing keys raise, and an empty image list divides by zero; otherwise train + val is the shuffled list, train has int(n·ratio) images, info and categories are copied, and each half carries its own images' annotations; the overlap abort happens exactly when the halves' id sets intersect and reports that set |
| SplitDataset.ShuffleKeepsDuplicates | split_dataset.py:31-32 | a repeated id after the shuffle was already repeated before it |
| SplitDataset.SplitAbortsOnlyOnDuplicateIds | split_dataset.py:61-68 | the overlap abort fires only if the input has duplicate image ids |
| SplitDataset.SplitSizes | split_dataset.py:35-38 | for a ratio in [0, 1], train holds the first floor(n·ratio) shuffled images |
| SplitDataset.NegativeRatioExample | split_dataset.py:36-38 | ten images at ratio -0.5 give bound -5, which Python reads as 5 |
| SplitDataset.SplitAtPartitions | split_dataset.py:41-52 | without repeated ids, each annotation of a listed image goes to exactly one half; others go nowhere |
| SplitDataset.SplitPartitions | split_dataset.py:16-68 | with distinct ids the split succeeds, and each annotation of a listed image lands in exactly one file; annotations of unlisted images land in neither |
| SyncAnnotations.KeepListed | sync_annotations.py:27-31 | exactly the annotations of listed images are kept |
| SyncAnnotations.KeepListedConcat | sync_annotations.py:28-31 | filtering keeps the relative order |
| SyncAnnotations.KeepListedAll | sync_annotations.py:28-31 | when every annotation is listed, none is removed |
| SyncAnnotations.Take | sync_annotations.py:40-44 | `source.get(k, target[k])` prefers the source's value, and raises when the target lacks the key, even if the source has it |
| SyncAnnotations.Merge | sync_annotations.py:38-46 | the five geometry fields take the source value when present; attributes is replaced only if the source has it; nothing else changes; a target lacking a field raises |
| SyncAnnotations.SyncOneCases | sync_annotations.py:36-47 | an annotation whose image has no refined annotation is untouched; a matched one fails exactly when it lacks a field the merge reads; the id and image id are kept |
| SyncAnnotations.SyncAll | sync_annotations.py:34-47 | the loop fails iff some annotation raises; each annotation is merged if matched and unchanged otherwise; match_count counts the matches |
| SyncAnnotations.SyncAllFirstError | sync_annotations.py:36-46 | the error is that of the first annotation that raises |
| SyncAnnotations.Sync | sync_annotations.py:21-47 | missing keys raise; images are untouched; removed = original − kept; the kept annotations stay in order and are merged |
| SyncAnnotations.SyncUsesLastSourceAnnotation | sync_annotations.py:21 | with several source annotations for an image, the last one is merged in |
| SyncAnnotations.MergeIdempotent | sync_annotations.py:38-46 | merging the same source twice changes nothing more |
| SyncAnnotations.SyncAllIdempotent | sync_annotations.py:34-47 | a second merge pass over its own output changes nothing |
| SyncAnnotations.SyncIdempotent | sync_annotations.py:21-47 | a second run with the same source removes nothing and matches the same annotations |
| NormalizeCoco.LackingArea | normalize_coco_points.py:21 | exactly the annotations without an area are listed |
| NormalizeCoco.NormalizeOne | normalize_coco_points.py:20-26 | a missing area becomes bbox w·h, and a bbox that is absent or not four long raises; an existing area is kept; iscrowd is set to 0 only when absent; nothing else changes |
| NormalizeCoco.NormalizeAll | normalize_coco_points.py:18-26 | the loop fails iff some annotation raises; otherwise the order is kept, each annotation is normalised, and fixed counts the annotations lacking an area |
| NormalizeCoco.NormalizeAllFirstError | normalize_coco_points.py:20-23 | the error is that of the first annotation that raises |
| NormalizeCoco.Normalize | normalize_coco_points.py:18-29 | a file without annotations is written back unchanged; otherwise only the annotations change |
| NormalizeCoco.NormalizeOneIdempotent | normalize_coco_points.py:20-26 | normalising a normalised annotation changes nothing |
| NormalizeCoco.NormalizeAllIdempotent | normalize_coco_points.py:18-26 | a second pass changes nothing and fixes 0 |
| NormalizeCoco.NormalizeIdempotent | normalize_coco_points.py:18-29 | a second run writes the same file and reports 0 fixed |
| FileSelection.LexLeTotal | generate_pre_annotations_hq.py:38 | string order is total |
| FileSelection.LexLeTransitive | generate_pre_annotations_hq.py:38 | string order is transitive |
| FileSelection.LexLeAntisymmetric | generate_pre_annotations_hq.py:38 | string order is antisymmetric |
| FileSelection.Insert | generate_pre_annotations_hq.py:38 | insertion adds exactly the one name |
| FileSelection.InsertSorted | generate_pre_annotations_hq.py:38 | insertion into a sorted list keeps it sorted |
| FileSelection.SortLex | generate_pre_annotations_hq.py:38 | `sorted` gives an ascending permutation of its input |
| FileSelection.SortLexMembers | generate_pre_annotations_hq.py:38 | sorting neither adds nor drops a name |
| FileSelection.ParseInt | generate_pre_annotations_hq.py:39 | `int(s)` succeeds exactly on an optional sign followed by at least one digit and fails with the text otherwise; the value is the digits' decimal value, negated after a minus sign |
| FileSelection.ParseIntRejects | generate_pre_annotations_hq.py:39 | a text with a non-digit anywhere but a leading sign is not a number |
| FileSelection.DecimalString | generate_pre_annotations_hq.py:39 | `str(n)` of a natural number is a non-empty digit string |
| FileSelection.DigitsValueOfDecimal | generate_pre_annotations_hq.py:39 | the digits of `str(n)` read back as n |
| FileSelection.ParseIntDecimal | generate_pre_annotations_hq.py:39 | `int(str(n)) == n` for either sign |
| FileSelection.Candidates | generate_pre_annotations_hq.py:38 | exactly the listed names that start with "h" and end with ".jpeg" |
| FileSelection.SelectNew | generate_pre_annotations_hq.py:39 | fails iff some stem is not a number; otherwise keeps exactly the files whose number is ≥ 159 |
| FileSelection.SelectNewSorted | generate_pre_annotations_hq.py:39 | the filter keeps the sorted order |
| FileSelection.DistinctCountsOnce | generate_pre_annotations_hq.py:38 | a list without repeats holds each name at most once |
| FileSelection.CountsOnceDistinct | generate_pre_annotations_hq.py:38 | a list holding each name at most once has no repeats |
| FileSelection.CandidatesSubMultiset | generate_pre_annotations_hq.py:38 | the candidate filter adds no name and repeats none |
| FileSelection.SelectNewSubMultiset | generate_pre_annotations_hq.py:39 | the number filter adds no name and repeats none |
| FileSelection.SelectedOnce | generate_pre_annotations_hq.py:38-39 | from a listing without repeats, no file is selected twice |
| FileSelection.SelectFiles | generate_pre_annotations_hq.py:38-39 | the selection is sorted and holds exactly the listed h…jpeg names numbered ≥ 159, each once when the listing has no repeats; it fails iff some candidate's stem is not a number |
| FileSelection.SelectionThreshold | generate_pre_annotations_hq.py:39 | h158.jpeg is numbered 158 and h159.jpeg 159, so only the second is new |
| PreAnnotations.DownScale | generate_pre_annotations_hq.py:59 | the scale `512 / max(h, w)` is positive |
| PreAnnotations.LowResLongSide | generate_pre_annotations_hq.py:59-60 | in exact arithmetic, the low-resolution copy's long side is 512 and its other side at most that |
| PreAnnotations.ScaledSides | generate_pre_annotations_hq.py:59-60 | scaling by 512 over the long side makes the long side 512 and keeps the other in [0, 512] |
| PreAnnotations.ToGlobal | generate_pre_annotations_hq.py:76 | a low-resolution point times the scale gives back the point |
| PreAnnotations.Corners | generate_pre_annotations_hq.py:71 | the four keypoints in P1..P4 order |
| PreAnnotations.ToGlobalAll | generate_pre_annotations_hq.py:76 | every keypoint is scaled back to the full image |
| PreAnnotations.Extent | generate_pre_annotations_hq.py:77-78 | the min/max box holds every point, and each side touches one |
| PreAnnotations.CropRegion | generate_pre_annotations_hq.py:81-85 | each side of the crop is the extent's side moved out by a quarter of the extent's width or height, cut to [0, w] × [0, h]; where no cut applies the crop is 1.5 times the extent in that direction |
| PreAnnotations.CropRegionKeepsInside | generate_pre_annotations_hq.py:81-85 | every detected point that lies in the image lies in the crop region |
| PreAnnotations.ZoomWindow | generate_pre_annotations_hq.py:88 | the truncated crop starts inside the image and, when not empty, ends inside it |
| PreAnnotations.RefinementWindow | generate_pre_annotations_hq.py:76-88 | the second-pass crop starts inside the image and, when not empty, ends inside it |
| PreAnnotations.Place | generate_pre_annotations_hq.py:98-99 | a clamped point lies on a pixel of the image, and a point is unchanged iff it already did |
| PreAnnotations.PlaceAll | generate_pre_annotations_hq.py:97-100 | each point is shifted by the crop offset and clamped |
| PreAnnotations.SecondPass | generate_pre_annotations_hq.py:88-109 | refined iff the crop is > 10 px both ways and the network finds the limb; fallback to the pass-1 points iff the crop is too small; else the centre cluster; emitted points lie on the image |
| PreAnnotations.Locate | generate_pre_annotations_hq.py:65-121 | no pass-1 detection gives the centre cluster; otherwise the second pass decides; emitted detected points lie on the image |
| PreAnnotations.RefinedPointInsideCrop | generate_pre_annotations_hq.py:88-100 | a second-pass keypoint inside the crop is kept exactly, moved only by the crop offset |
| PreAnnotations.CropPointOnImage | generate_pre_annotations_hq.py:88-99 | a point inside a crop that lies in the image, moved by the crop's offset, lies on the image |
| PreAnnotations.RoundPoint | generate_pre_annotations_hq.py:100 | each coordinate is within 0.005 of its rounding |
| PreAnnotations.RoundAll | generate_pre_annotations_hq.py:100-108 | every point is rounded |
| PreAnnotations.CentrePoints | generate_pre_annotations_hq.py:112-121 | the centre cluster's four points lie ±100 from (w // 2, h // 2) in each coordinate |
| PreAnnotations.CentrePointsOnImage | generate_pre_annotations_hq.py:112-121 | the centre cluster lies on the image iff both sides are at least 201 pixels; it is never clamped |
| PreAnnotations.Flatten | generate_pre_annotations_hq.py:100-120 | each point is written as x, y and visibility 2 |
| PreAnnotations.KeypointList | generate_pre_annotations_hq.py:96-121 | every written keypoint list has twelve values |
| PreAnnotations.WrittenPoints | generate_pre_annotations_hq.py:96-121 | four points are written |
| PreAnnotations.NewImage | generate_pre_annotations_hq.py:52-55 | the image entry carries the id, file name and size |
| PreAnnotations.NewAnnotation | generate_pre_annotations_hq.py:124-131 | id, image id, category 1, num_keypoints 4, iscrowd 0, the written keypoints, bbox [0, 0, w, h], and area exactly w·h/10 |
| PreAnnotations.NewAnnotationLoads | generate_pre_annotations_hq.py:125-131 | a new annotation reads back through the CVAT loader as its four written points |
| PreAnnotations.NewAnnotationNormalized | generate_pre_annotations_hq.py:125-131 | the area normaliser leaves a new annotation unchanged |
| PreAnnotations.ProcessFiles | generate_pre_annotations_hq.py:43-131 | one image and one annotation per readable file; the image for file i gets id max+1+i and ids increase; annotation k gets id maxAnn+1+k |
| PreAnnotations.Readable | generate_pre_annotations_hq.py:45-46 | the readable files are at most all of them |
| PreAnnotations.ProcessFilesPlacesReadable | generate_pre_annotations_hq.py:43-55 | every readable file gets its entry, with id max+1+i, after those of the readable files before it; unreadable files leave gaps |
| PreAnnotations.MaxId | generate_pre_annotations_hq.py:35-36 | the max id is 0 for an empty list; otherwise it is an upper bound that some entry attains |
| PreAnnotations.Generate | generate_pre_annotations_hq.py:29-131 | missing keys raise; it fails iff file selection fails; the existing entries are kept as a prefix, and as many images as annotations are added |
| PreAnnotations.GenerateNewEntries | generate_pre_annotations_hq.py:35-131 | each new image is a selected file with an id above every existing id, and the ids increase; annotation ids run on from the largest existing one, each pointing at the new image at the same position |
| PreAnnotations.PreAnnotatedBatch | generate_pre_annotations_hq.py:43-131 | one image per readable file, every readable file's entry among them, and with each image the annotation of the keypoints the two passes locate on it |
| PreAnnotations.GenerateAppendsBatch | generate_pre_annotations_hq.py:29-131 | what a successful run appends is the loop's batch over the selected files |
| PreAnnotations.GenerateAppendsEveryReadableFile | generate_pre_annotations_hq.py:35-55 | a successful run adds one image per readable selected file, the i-th file of the selection with id max_img_id + 1 + i, and as many annotations |
| PreAnnotations.GenerateAnnotatesLocatedKeypoints | generate_pre_annotations_hq.py:43-131 | each added annotation belongs to the added image at the same position and holds the keypoints the two passes locate on that image |

## Left out

- Image decoding and encoding, resizing, cropping pixels, drawing (circles,
  lines, text) and the base64 output of `predict` are not modelled. An image
  is its size plus opaque bytes, and crops are described by their boxes.
- `atan2`, `acos` (`angle_between`), `sqrt` (`magnitude`) and the keypoint
  network are parameters, because they are foreign numeric or neural code.
  `angle_between` is not modelled because nothing in the pipeline calls it.
- Geometry.Normalize: the magnitude is passed in, because `sqrt` is not
  modelled. The model assumes only that it is non-negative and zero exactly
  for the zero vector, so it does not state that the result has unit length.
- Binary floating point and float32 arrays: every value is an exact real.
  `int(h * 0.4)` and similar are floors of exact products. `round` is exact
  half-to-even, so ties that a binary float would miss are still treated as
  ties.
- FastAPI, httpx, asyncio and the thread pool: the route is modelled as the
  merge of per-leg outcomes that are given as inputs. The order in which
  threads finish does not affect the response.
- The pydantic schemas: they only name the response fields.
- File I/O, JSON and CSV reading and writing, argparse, `os.listdir`
  (the listing is an input), existence checks and the printing itself: the
  progress lines every 50 images and the summaries. The counts the scripts
  print are modelled as fields of their results.
- Required fields read with `[...]`, such as `id`, `image_id`, `width`,
  `height` and `file_name`, are non-optional fields of the records, so the
  KeyError when one is missing is not modelled.
- The extra image fields the pre-annotator writes (license, flickr_url,
  coco_url, date_captured), and the per-annotation `segmentation` list, are
  not kept in `Coco.Image`. The segmentation is kept as opaque JSON text.
- JSON `null` values, and keypoint lists holding non-numbers, are not
  modelled.
- FileSelection.ParseInt: Python's `int()` also accepts surrounding
  whitespace, underscores between digits and non-ASCII digits. The model
  accepts only an optional sign followed by ASCII digits, and treats every
  other stem as a failure.
- Clinical.MappersAgree: states that equal conditions imply equal notes and
  recommendations (one direction). The converse follows from BandOf but is
  not stated separately.
- SplitDataset.Shuffle: its contract states length and membership. The
  positional permutation is in Pick's contract and the IsPermutation
  precondition.
- Evaluation.Summarize: the per-image loop of the evaluation script
  (first-annotation lookup, skipped unreadable images, network call) is not
  modelled. The summary is stated over the rows it produces.
- The ground-truth keypoint reshape of the evaluation script and the debug
  images are left out, because they are NumPy plumbing and drawing.
- Geometry.ClinicalAngle: only its range is stated. Its relation to the
  vertical-referenced fold is in ClinicalIsGroundOfAnatomical.
- The v1 route (apis/routes/v1/analyze.py), apis/main.py, the demo, the
  training configuration and the print-only test scripts are outside the
  modelled core.

=== FILE: aggregator.dfy ===
/** `aggregate_scan(leg_scores)`: one figure and one narrative for the whole
    horse. The figure is the mean of the legs' scores; the narrative follows the
    worst leg alone. */
module Aggregator {
  import opened Wrappers
  import opened Numerics
  import opened Stats

  /** The overall outlook, in the order the narrative checks are made. */
  datatype Outlook = Severe | Concern | Excellent | Fair

  const NoLegsNotes := "No legs analyzed."

  function OutlookText(o: Outlook): string {
    match o
    case Severe =>
      "Severe issue detected in at least one leg. Immediate veterinary and farrier evaluation recommended."
    case Concern =>
      "Overall leg health is fair, but one or more legs show concerning misalignment. Corrective hoof care is advised. Veterinary review recommended if discomfort is present."
    case Excellent =>
      "Excellent overall hoof\U{2013}pastern alignment across all legs. No action needed beyond routine maintenance."
    case Fair =>
      "Overall leg alignment is acceptable. Continue regular hoof care and routine monitoring."
  }

  /** The outlook for a worst-leg score: exactly 1 is severe, up to 5 a concern,
      from 9 excellent, anything else fair. */
  function OutlookOf(minScore: real): (o: Outlook)
    ensures o == Severe <==> minScore == 1.0
    ensures o == Concern <==> minScore != 1.0 && minScore <= 5.0
    ensures o == Excellent <==> minScore >= 9.0
    ensures o == Fair <==> 5.0 < minScore < 9.0
  {
    if minScore == 1.0 then Severe
    else if minScore <= 5.0 then Concern
    else if minScore >= 9.0 then Excellent
    else Fair
  }

  /** The narrative branch of `aggregate_scan` for a given worst-leg score. */
  function Narrative(minScore: real): (notes: string)
    ensures notes == OutlookText(OutlookOf(minScore))
  {
    if minScore == 1.0 then OutlookText(Severe)
    else if minScore <= 5.0 then OutlookText(Concern)
    else if minScore >= 9.0 then OutlookText(Excellent)
    else OutlookText(Fair)
  }

  /** The aggregate: `scanScore` (None when no leg was analysed) and `notes`. */
  datatype Scan = Scan(scanScore: Option<real>, notes: string)

  /** `aggregate_scan(leg_scores)`. */
  function AggregateScan(legScores: seq<real>): (r: Scan)
    ensures r.scanScore.None? <==> |legScores| == 0
    ensures |legScores| == 0 ==> r.notes == NoLegsNotes
    ensures |legScores| > 0 ==> r.scanScore == Some(RoundTenths(Mean(legScores)))
    ensures |legScores| > 0 ==> r.notes == OutlookText(OutlookOf(MinOf(legScores)))
  {
    if |legScores| == 0 then Scan(None, "No legs analyzed.")
    else
      var minScore := MinOf(legScores);
      var avgScore := RoundTenths(Sum(legScores) / |legScores| as real);
      Scan(Some(avgScore), Narrative(minScore))
  }

  /** The aggregate ignores the order of the legs. */
  lemma AggregateScanPermutation(s: seq<real>, t: seq<real>)
    requires multiset(s) == multiset(t)
    ensures AggregateScan(s) == AggregateScan(t)
  {
    assert |s| == |multiset(s)| == |multiset(t)| == |t|;
    if |s| > 0 {
      SumPermutation(s, t);
      MinPermutation(s, t);
    }
  }

  /** For legs scored from 1 up, as the leg score always is, the narrative reads
      as its comments say: severe iff some leg scores 1, otherwise a concern iff
      some leg scores 5 or less, otherwise excellent iff every leg scores 9 or
      more. */
  lemma AggregateNarrative(s: seq<real>)
    requires |s| > 0
    requires forall i :: 0 <= i < |s| ==> s[i] >= 1.0
    ensures OutlookOf(MinOf(s)) == Severe <==> exists i :: 0 <= i < |s| && s[i] == 1.0
    ensures OutlookOf(MinOf(s)) == Concern <==>
              (forall i :: 0 <= i < |s| ==> s[i] != 1.0) && exists i :: 0 <= i < |s| && s[i] <= 5.0
    ensures OutlookOf(MinOf(s)) == Excellent <==> forall i :: 0 <= i < |s| ==> s[i] >= 9.0
  {
    var m := MinOf(s);
    var k :| 0 <= k < |s| && s[k] == m;
  }

  /** The worked example: one leg at 1 makes the narrative severe, while the
      figure is still the mean, 6.0. */
  lemma AggregateScanExample()
    ensures AggregateScan([1.0, 8.0, 9.0]) == Scan(Some(6.0), OutlookText(Severe))
  {
    var s := [1.0, 8.0, 9.0];
    assert s[1..] == [8.0, 9.0] && s[1..][1..] == [9.0];
    assert Sum(s) == 18.0;
    assert MinOf(s) == 1.0;
    RoundHalfEvenOfInt(60);
  }

  /** A worst leg of 1.5 is a concern, not severe. */
  lemma AggregateScanHalfPointIsConcern()
    ensures AggregateScan([1.5, 10.0]).notes == OutlookText(Concern)
  {
    var s := [1.5, 10.0];
    assert s[1..] == [10.0];
    assert MinOf(s) == 1.5;
  }
}

=== FILE: anatomy.dfy ===
/** The corrections applied to a winning detection before its angles are taken:
    the facing-direction offset of the two pastern keypoints, and the mirroring
    that puts the toe to the right of the pastern top. */
module Anatomy {
  import opened Geometry

  /** -1 for a limb facing left (hoof-wall top left of the pastern bottom), else +1. */
  function FacingDirection(q: Quad): (d: real)
    ensures d == -1.0 || d == 1.0
    ensures d == -1.0 <==> q.hoofTop.x < q.pasternBottom.x
  {
    if q.hoofTop.x < q.pasternBottom.x then -1.0 else 1.0
  }

  /** `apply_anatomical_offset(pts, img_w)`: with width estimate 5% of the image
      width, the pastern top moves a quarter of it and the pastern bottom a tenth
      of it along the facing direction. */
  function ApplyAnatomicalOffset(q: Quad, imgW: int): (r: Quad)
    ensures r.pasternTop == Point(q.pasternTop.x + FacingDirection(q) * 0.0125 * imgW as real, q.pasternTop.y)
    ensures r.pasternBottom == Point(q.pasternBottom.x + FacingDirection(q) * 0.005 * imgW as real, q.pasternBottom.y)
    ensures r.hoofTop == q.hoofTop && r.toe == q.toe
  {
    var direction := if q.hoofTop.x < q.pasternBottom.x then -1.0 else 1.0;
    var widthEstimate := imgW as real * 0.05;
    q.(pasternTop := Point(q.pasternTop.x + direction * (widthEstimate * 0.25), q.pasternTop.y),
       pasternBottom := Point(q.pasternBottom.x + direction * (widthEstimate * 0.10), q.pasternBottom.y))
  }

  /** Reflection of every x coordinate about the vertical line x = cx. */
  function MirrorAbout(q: Quad, cx: real): Quad {
    Quad(Point(2.0 * cx - q.pasternTop.x, q.pasternTop.y),
         Point(2.0 * cx - q.pasternBottom.x, q.pasternBottom.y),
         Point(2.0 * cx - q.hoofTop.x, q.hoofTop.y),
         Point(2.0 * cx - q.toe.x, q.toe.y))
  }

  /** Reflecting twice about the same line gives back the original set. */
  lemma MirrorAboutInvolution(q: Quad, cx: real)
    ensures MirrorAbout(MirrorAbout(q, cx), cx) == q
  {
  }

  /** Direction normalisation: when the toe lies left of the pastern top, mirror
      every point about the midpoint of those two. */
  function NormalizeDirection(q: Quad): (r: Quad)
    ensures r.pasternTop.x <= r.toe.x
    ensures q.pasternTop.x <= q.toe.x ==> r == q
    ensures q.toe.x < q.pasternTop.x ==>
              && r.pasternTop.x == q.toe.x && r.toe.x == q.pasternTop.x
              && r.pasternBottom.x == q.pasternTop.x + q.toe.x - q.pasternBottom.x
              && r.hoofTop.x == q.pasternTop.x + q.toe.x - q.hoofTop.x
    ensures r.pasternTop.y == q.pasternTop.y && r.pasternBottom.y == q.pasternBottom.y
    ensures r.hoofTop.y == q.hoofTop.y && r.toe.y == q.toe.y
  {
    if q.toe.x < q.pasternTop.x then
      var cx := (q.pasternTop.x + q.toe.x) / 2.0;
      MirrorAbout(q, cx)
    else q
  }

  /** A set already in canonical orientation is left alone, so normalising twice
      is the same as normalising once. */
  lemma NormalizeDirectionIdempotent(q: Quad)
    ensures NormalizeDirection(NormalizeDirection(q)) == NormalizeDirection(q)
  {
  }
}

=== FILE: clinical.dfy ===
/** The clinical wording of a per-leg score: condition, notes and recommendation,
    each chosen by the same thresholds 9, 6 and 2, and each None for a missing
    score. */
module Clinical {
  import opened Wrappers

  /** The four clinical bands, best first. */
  datatype Band = Optimal | Acceptable | Poor | Critical {
    /** 0 for the best band up to 3 for the worst. */
    function Rank(): nat {
      match this
      case Optimal => 0
      case Acceptable => 1
      case Poor => 2
      case Critical => 3
    }
  }

  /** The band a score falls in: [9, ...) Optimal, [6, 9) Acceptable, [2, 6) Poor,
      below 2 Critical. */
  function BandOf(score: real): (b: Band)
    ensures b == Optimal <==> score >= 9.0
    ensures b == Acceptable <==> 6.0 <= score < 9.0
    ensures b == Poor <==> 2.0 <= score < 6.0
    ensures b == Critical <==> score < 2.0
  {
    if score >= 9.0 then Optimal
    else if score >= 6.0 then Acceptable
    else if score >= 2.0 then Poor
    else Critical
  }

  function ConditionText(b: Band): string {
    match b
    case Optimal => "Optimal Alignment"
    case Acceptable => "Acceptable Alignment"
    case Poor => "Poor Alignment"
    case Critical => "Critical Misalignment"
  }

  function NotesText(b: Band): string {
    match b
    case Optimal => "Hoof and pastern angles well aligned."
    case Acceptable => "Minor deviation. Generally functional mechanics."
    case Poor => "Noticeable angle deviation. Uneven load on limb."
    case Critical => "Severe hoof\U{2013}pastern angle mismatch. High limb stress."
  }

  function RecommendationText(b: Band): string {
    match b
    case Optimal => "No action needed. Continue current hoof care routine."
    case Acceptable => "Maintain regular trimming. Recheck after next shoeing cycle."
    case Poor => "Schedule corrective trimming soon. Monitor closely for discomfort."
    case Critical => "Urgent farrier and veterinary evaluation advised. Limit work until corrected."
  }

  /** `map_condition(score)`. */
  function MapCondition(score: Option<real>): (r: Option<string>)
    ensures r.None? <==> score.None?
    ensures score.Some? ==> r.value == ConditionText(BandOf(score.value))
  {
    match score
    case None => None
    case Some(s) =>
      if s >= 9.0 then Some(ConditionText(Optimal))
      else if s >= 6.0 then Some(ConditionText(Acceptable))
      else if s >= 2.0 then Some(ConditionText(Poor))
      else Some(ConditionText(Critical))
  }

  /** `map_clinical_notes(score)`. */
  function MapClinicalNotes(score: Option<real>): (r: Option<string>)
    ensures r.None? <==> score.None?
    ensures score.Some? ==> r.value == NotesText(BandOf(score.value))
  {
    match score
    case None => None
    case Some(s) =>
      if s >= 9.0 then Some(NotesText(Optimal))
      else if s >= 6.0 then Some(NotesText(Acceptable))
      else if s >= 2.0 then Some(NotesText(Poor))
      else Some(NotesText(Critical))
  }

  /** `map_recommendation(score)`. */
  function MapRecommendation(score: Option<real>): (r: Option<string>)
    ensures r.None? <==> score.None?
    ensures score.Some? ==> r.value == RecommendationText(BandOf(score.value))
  {
    match score
    case None => None
    case Some(s) =>
      if s >= 9.0 then Some(RecommendationText(Optimal))
      else if s >= 6.0 then Some(RecommendationText(Acceptable))
      else if s >= 2.0 then Some(RecommendationText(Poor))
      else Some(RecommendationText(Critical))
  }

  /** The four condition texts are distinct: each differs from the others in
      its first character. */
  lemma ConditionTextsDistinct(a: Band, b: Band)
    ensures ConditionText(a) == ConditionText(b) <==> a == b
  {
    if a != b {
      assert ConditionText(a)[0] != ConditionText(b)[0];
    }
  }

  /** Condition, notes and recommendation change together: two scores get the
      same condition exactly when they fall in the same band, and then they also
      get the same notes and the same recommendation. */
  lemma MappersAgree(s: real, t: real)
    ensures MapCondition(Some(s)) == MapCondition(Some(t)) <==> BandOf(s) == BandOf(t)
    ensures MapCondition(Some(s)) == MapCondition(Some(t)) ==>
              && MapClinicalNotes(Some(s)) == MapClinicalNotes(Some(t))
              && MapRecommendation(Some(s)) == MapRecommendation(Some(t))
  {
    ConditionTextsDistinct(BandOf(s), BandOf(t));
  }

  /** A higher score never lands in a worse band. */
  lemma BandMonotone(s: real, t: real)
    requires s <= t
    ensures BandOf(t).Rank() <= BandOf(s).Rank()
  {
  }

  /** Half-point scores below a threshold fall to the band beneath it. */
  lemma HalfStepsFallToLowerBand()
    ensures MapCondition(Some(8.5)) == Some("Acceptable Alignment")
    ensures MapCondition(Some(5.5)) == Some("Poor Alignment")
    ensures MapCondition(Some(1.5)) == Some("Critical Misalignment")
    ensures MapCondition(Some(9.0)) == Some("Optimal Alignment")
  {
  }
}

=== FILE: coco.dfy ===
/** The COCO keypoint annotation files the dataset scripts read and write, as
    typed records. A key the scripts read with `.get` or test with `in` is an
    Option field; values the scripts only copy are kept as their JSON text. */
module Coco {
  import opened Wrappers

  /** A JSON value the scripts copy without looking inside, kept as its text. */
  datatype Json = Json(text: string)

  const EmptyObject := Json("{}")
  const EmptyList := Json("[]")

  /** An entry of "images". */
  datatype Image = Image(id: int, width: int, height: int, fileName: string)

  /** An entry of "annotations". Keypoints are flat (x, y, visibility) triples;
      a bbox is [x, y, width, height]. */
  datatype Annotation = Annotation(
    id: int, imageId: int, categoryId: Option<int>,
    keypoints: Option<seq<real>>, numKeypoints: Option<int>,
    bbox: Option<seq<real>>, area: Option<real>, iscrowd: Option<int>,
    segmentation: Option<Json>, attributes: Option<Json>)

  /** A whole annotation file; each top-level key may be absent. */
  datatype CocoFile = CocoFile(
    info: Option<Json>, categories: Option<Json>,
    images: Option<seq<Image>>, annotations: Option<seq<Annotation>>)

  /** The exceptions that end a script before it writes anything. */
  datatype CocoError =
    | MissingKey(key: string)
    | KeypointCount(got: nat, imageId: int)
    | Unpack(got: nat)
    | InvalidLiteral(text: string)
    | ZeroDivision

  /** `{key(x): x for x in xs}`: the keys are those of the entries ... */
  function IndexBy<T>(xs: seq<T>, key: T -> int): (m: map<int, T>)
    ensures forall k :: k in m <==> exists i :: 0 <= i < |xs| && key(xs[i]) == k
  {
    if |xs| == 0 then map[]
    else
      var init := xs[..|xs| - 1];
      var m := IndexBy(init, key);
      assert forall i :: 0 <= i < |init| ==> init[i] == xs[i];
      m[key(xs[|xs| - 1]) := xs[|xs| - 1]]
  }

  /** ... and a later entry with the same key overwrites an earlier one. */
  lemma {:induction false} IndexByLastWins<T>(xs: seq<T>, key: T -> int, i: nat)
    requires i < |xs|
    requires forall j :: i < j < |xs| ==> key(xs[j]) != key(xs[i])
    ensures key(xs[i]) in IndexBy(xs, key) && IndexBy(xs, key)[key(xs[i])] == xs[i]
  {
    if i < |xs| - 1 {
      var init := xs[..|xs| - 1];
      assert init[i] == xs[i];
      assert forall j :: i < j < |init| ==> init[j] == xs[j];
      IndexByLastWins(init, key, i);
    }
  }

  function ImageId(img: Image): int {
    img.id
  }

  function AnnotationId(ann: Annotation): int {
    ann.id
  }

  function AnnotationImageId(ann: Annotation): int {
    ann.imageId
  }

  /** The ids of a list of images. */
  function ImageIds(images: seq<Image>): (ids: set<int>)
    ensures forall id :: id in ids <==> exists i :: 0 <= i < |images| && images[i].id == id
  {
    set img | img in images :: img.id
  }
}

=== FILE: cvat_parser.dfy ===
/** `load_cvat_keypoints`, after the JSON has been read: the four keypoints of
    each annotated image, keyed by the image's file name. */
module CvatParser {
  import opened Wrappers
  import opened Geometry
  import opened Coco

  /** `ann.get("keypoints", [])`. */
  function KeypointValues(ann: Annotation): seq<real> {
    ann.keypoints.GetOr([])
  }

  /** Four (x, y, visibility) triples: twelve values. */
  predicate HasFourKeypoints(ann: Annotation) {
    |KeypointValues(ann)| == 12
  }

  /** P1..P4 from the flat list: Pi is the x and y of the i-th triple; the
      visibility values are dropped. */
  function QuadOf(kp: seq<real>): (q: Quad)
    requires |kp| == 12
    ensures forall i :: 0 <= i < 4 ==> Corner(q, i) == Point(kp[3 * i], kp[3 * i + 1])
  {
    Quad(Point(kp[0], kp[1]), Point(kp[3], kp[4]), Point(kp[6], kp[7]), Point(kp[9], kp[10]))
  }

  /** The annotation's image is listed. */
  predicate Known(byId: map<int, Image>, ann: Annotation) {
    ann.imageId in byId
  }

  function NameOf(byId: map<int, Image>, ann: Annotation): string
    requires Known(byId, ann)
  {
    byId[ann.imageId].fileName
  }

  /** The annotation loop: it raises at the first annotation without twelve
      keypoint values, whether or not that annotation's image is listed. */
  function LoadKeypoints(byId: map<int, Image>, anns: seq<Annotation>): (r: Result<map<string, Quad>, CocoError>)
    ensures r.Failure? <==> exists i :: 0 <= i < |anns| && !HasFourKeypoints(anns[i])
  {
    if |anns| == 0 then Success(map[])
    else
      var init := anns[..|anns| - 1];
      var ann := anns[|anns| - 1];
      assert forall i :: 0 <= i < |init| ==> init[i] == anns[i];
      var prev := LoadKeypoints(byId, init);
      if prev.Failure? then prev
      else if !HasFourKeypoints(ann) then Failure(KeypointCount(|KeypointValues(ann)|, ann.imageId))
      else if ann.imageId !in byId then prev
      else Success(prev.value[byId[ann.imageId].fileName := QuadOf(KeypointValues(ann))])
  }

  /** The error names the count and image of the first offending annotation. */
  lemma {:induction false} LoadKeypointsFirstError(byId: map<int, Image>, anns: seq<Annotation>, i: nat)
    requires i < |anns| && !HasFourKeypoints(anns[i])
    requires forall j :: 0 <= j < i ==> HasFourKeypoints(anns[j])
    ensures LoadKeypoints(byId, anns) == Failure(KeypointCount(|KeypointValues(anns[i])|, anns[i].imageId))
  {
    var init := anns[..|anns| - 1];
    if i < |anns| - 1 {
      assert init[i] == anns[i];
      assert forall j :: 0 <= j < i ==> init[j] == anns[j];
      LoadKeypointsFirstError(byId, init, i);
    } else {
      assert forall j :: 0 <= j < |init| ==> init[j] == anns[j];
    }
  }

  /** The result holds a set of keypoints for exactly the file names of the
      listed images that are annotated: annotations of unlisted images are
      skipped. */
  lemma {:induction false} LoadKeypointsNames(byId: map<int, Image>, anns: seq<Annotation>, name: string)
    requires LoadKeypoints(byId, anns).Success?
    ensures name in LoadKeypoints(byId, anns).value <==>
              exists i :: 0 <= i < |anns| && Known(byId, anns[i]) && NameOf(byId, anns[i]) == name
  {
    if |anns| > 0 {
      var init := anns[..|anns| - 1];
      assert forall i :: 0 <= i < |init| ==> init[i] == anns[i];
      LoadKeypointsNames(byId, init, name);
    }
  }

  /** A later annotation for the same file name overwrites an earlier one: the
      keypoints kept are those of the last annotation naming the file. */
  lemma {:induction false} LoadKeypointsLastWins(byId: map<int, Image>, anns: seq<Annotation>, i: nat)
    requires LoadKeypoints(byId, anns).Success?
    requires i < |anns| && Known(byId, anns[i])
    requires forall j :: i < j < |anns| && Known(byId, anns[j]) ==> NameOf(byId, anns[j]) != NameOf(byId, anns[i])
    ensures NameOf(byId, anns[i]) in LoadKeypoints(byId, anns).value
    ensures LoadKeypoints(byId, anns).value[NameOf(byId, anns[i])] == QuadOf(KeypointValues(anns[i]))
  {
    var init := anns[..|anns| - 1];
    if i < |anns| - 1 {
      assert init[i] == anns[i];
      assert forall j :: i < j < |init| ==> init[j] == anns[j];
      LoadKeypointsLastWins(byId, init, i);
    }
  }

  /** `load_cvat_keypoints(json_path)` on the loaded file: absent "images" or
      "annotations" count as empty lists, and when two images share an id the
      later one names it. */
  function LoadCvatKeypoints(data: CocoFile): (r: Result<map<string, Quad>, CocoError>)
    ensures data.annotations.None? ==> r == Success(map[])
    ensures r.Failure? <==> exists i :: 0 <= i < |data.annotations.GetOr([])| && !HasFourKeypoints(data.annotations.GetOr([])[i])
  {
    LoadKeypoints(IndexBy(data.images.GetOr([]), ImageId), data.annotations.GetOr([]))
  }

  /** Without an "images" list no annotation names a file, so nothing is
      loaded. */
  lemma LoadCvatKeypointsWithoutImages(data: CocoFile)
    requires data.images.None?
    requires LoadCvatKeypoints(data).Success?
    ensures LoadCvatKeypoints(data).value == map[]
  {
    var byId := IndexBy(data.images.GetOr([]), ImageId);
    var anns := data.annotations.GetOr([]);
    forall name | name in LoadCvatKeypoints(data).value
      ensures false
    {
      LoadKeypointsNames(byId, anns, name);
    }
  }
}

=== FILE: evaluation.dfy ===
/** The accuracy evaluation script: its copy of the HPA geometry, which mirrors
    the keypoints but applies no anatomical offset and builds both vectors the
    other way round, and the summary it prints over the per-image rows. */
module Evaluation {
  import opened Wrappers
  import opened Numerics
  import opened Stats
  import opened Geometry
  import opened Anatomy
  import opened Predictor

  /** `calculate_hpa_metrics(keypoints)`: mirror a copy into canonical orientation,
      then take the pastern vector bottom minus top and the hoof vector toe minus
      wall top. */
  function CalculateHpaMetrics(q: Quad, atan2: Atan2Degrees): (a: HpaAngles)
    ensures 0.0 <= a.pastern <= 90.0 && 0.0 <= a.hoof <= 90.0
    ensures a.deviation == Abs(a.pastern - a.hoof) && a.deviation <= 90.0
    ensures var n := NormalizeDirection(q);
            && a.pastern == ClinicalAngle(AngleFromVertical(Vector(n.pasternTop, n.pasternBottom), atan2))
            && a.hoof == ClinicalAngle(AngleFromVertical(Vector(n.hoofTop, n.toe), atan2))
  {
    var pts := NormalizeDirection(q);
    var vPastern := Point(pts.pasternBottom.x - pts.pasternTop.x, pts.pasternBottom.y - pts.pasternTop.y);
    var vHoof := Point(pts.toe.x - pts.hoofTop.x, pts.toe.y - pts.hoofTop.y);
    var p := ClinicalAngle(AngleFromVertical(vPastern, atan2));
    var h := ClinicalAngle(AngleFromVertical(vHoof, atan2));
    HpaAngles(p, h, Abs(p - h))
  }

  /** The evaluation's reversed vectors change nothing: wherever atan2 answers
      half a turn apart for a vector and its reverse, the script measures the
      same angles as the API does on the mirrored, un-offset keypoints. */
  lemma EvaluationAgreesWithApiGeometry(q: Quad, atan2: Atan2Degrees)
    requires var n := NormalizeDirection(q);
             var vP := Vector(n.pasternTop, n.pasternBottom);
             var vH := Vector(n.hoofTop, n.toe);
             && HalfTurnApart(AngleFromVertical(vP, atan2), AngleFromVertical(Neg(vP), atan2))
             && HalfTurnApart(AngleFromVertical(vH, atan2), AngleFromVertical(Neg(vH), atan2))
    ensures CalculateHpaMetrics(q, atan2) == ApiAngles(NormalizeDirection(q), atan2)
  {
    var n := NormalizeDirection(q);
    var vP := Vector(n.pasternTop, n.pasternBottom);
    var vH := Vector(n.hoofTop, n.toe);
    ClinicalAngleOfReversedVector(vP, atan2);
    ClinicalAngleOfReversedVector(vH, atan2);
    VectorReversed(n.pasternTop, n.pasternBottom);
    VectorReversed(n.hoofTop, n.toe);
  }

  /** One row of the accuracy report, every figure rounded to two decimals. */
  datatype EvalRow = EvalRow(
    gtPastern: real, predPastern: real, pasternError: real,
    gtHoof: real, predHoof: real, hoofError: real,
    gtDeviation: real, predDeviation: real, deviationError: real)

  /** The row for one image from its ground-truth and predicted measurements. */
  function MakeRow(gt: HpaAngles, pred: HpaAngles): (r: EvalRow)
    ensures r.pasternError >= 0.0 && r.hoofError >= 0.0 && r.deviationError >= 0.0
    ensures Abs(r.pasternError - Abs(gt.pastern - pred.pastern)) <= 0.005
    ensures Abs(r.hoofError - Abs(gt.hoof - pred.hoof)) <= 0.005
    ensures Abs(r.deviationError - Abs(gt.deviation - pred.deviation)) <= 0.005
    ensures Abs(r.gtPastern - gt.pastern) <= 0.005 && Abs(r.predPastern - pred.pastern) <= 0.005
    ensures Abs(r.gtHoof - gt.hoof) <= 0.005 && Abs(r.predHoof - pred.hoof) <= 0.005
    ensures Abs(r.gtDeviation - gt.deviation) <= 0.005 && Abs(r.predDeviation - pred.deviation) <= 0.005
  {
    RoundHundredthsNonNegative(Abs(gt.pastern - pred.pastern));
    RoundHundredthsNonNegative(Abs(gt.hoof - pred.hoof));
    RoundHundredthsNonNegative(Abs(gt.deviation - pred.deviation));
    EvalRow(
      RoundHundredths(gt.pastern), RoundHundredths(pred.pastern), RoundHundredths(Abs(gt.pastern - pred.pastern)),
      RoundHundredths(gt.hoof), RoundHundredths(pred.hoof), RoundHundredths(Abs(gt.hoof - pred.hoof)),
      RoundHundredths(gt.deviation), RoundHundredths(pred.deviation), RoundHundredths(Abs(gt.deviation - pred.deviation)))
  }

  /** The tolerance, in degrees, on the deviation error of an accurate sample. */
  const Tolerance: real := 3.0

  predicate IsAccurate(r: EvalRow) {
    r.deviationError <= Tolerance
  }

  /** The tolerance test is made on the rounded error: a sample counts as
      accurate exactly when its unrounded deviation error is at most 3.005,
      since 3.005 itself rounds to the even 3.00. */
  lemma AccurateIffWithinTolerance(gt: HpaAngles, pred: HpaAngles)
    ensures IsAccurate(MakeRow(gt, pred)) <==> Abs(gt.deviation - pred.deviation) <= 3.005
  {
    var x := Abs(gt.deviation - pred.deviation);
    var n := RoundHalfEven(x * 100.0);
    assert MakeRow(gt, pred).deviationError == n as real / 100.0;
    if x <= 3.005 {
      RoundHalfEvenMonotone(x * 100.0, 300.5);
      assert RoundHalfEven(300.5) == 300;
    } else {
      assert n as real >= x * 100.0 - 0.5 > 300.0;
    }
  }

  /** `sum(1 for r in results if r['Deviation_Error'] <= tolerance)`. */
  function CountAccurate(rows: seq<EvalRow>): (c: nat)
    ensures c <= |rows|
    ensures c == |rows| <==> forall i :: 0 <= i < |rows| ==> IsAccurate(rows[i])
    ensures c == 0 <==> forall i :: 0 <= i < |rows| ==> !IsAccurate(rows[i])
  {
    if |rows| == 0 then 0
    else
      var rest := CountAccurate(rows[1..]);
      assert forall i :: 1 <= i < |rows| ==> rows[i] == rows[1..][i - 1];
      (if IsAccurate(rows[0]) then 1 else 0) + rest
  }

  /** The positions of the rows within tolerance. */
  function AccurateIndices(rows: seq<EvalRow>): set<int> {
    set i | 0 <= i < |rows| && IsAccurate(rows[i])
  }

  /** Counting distributes over concatenation. */
  lemma {:induction false} CountAccurateConcat(xs: seq<EvalRow>, ys: seq<EvalRow>)
    ensures CountAccurate(xs + ys) == CountAccurate(xs) + CountAccurate(ys)
  {
    if |xs| > 0 {
      assert (xs + ys)[1..] == xs[1..] + ys;
      CountAccurateConcat(xs[1..], ys);
    } else {
      assert xs + ys == ys;
    }
  }

  /** The count is the number of rows within tolerance: the size of the set
      of their positions. */
  lemma {:induction false} CountAccurateCountsRows(rows: seq<EvalRow>)
    ensures CountAccurate(rows) == |AccurateIndices(rows)|
  {
    if |rows| == 0 {
      assert AccurateIndices(rows) == {};
    } else {
      var init := rows[..|rows| - 1];
      var last := rows[|rows| - 1];
      assert rows == init + [last];
      CountAccurateConcat(init, [last]);
      CountAccurateCountsRows(init);
      assert [last][1..] == [];
      var prev := AccurateIndices(init);
      assert forall i :: 0 <= i < |init| ==> init[i] == rows[i];
      if IsAccurate(last) {
        assert AccurateIndices(rows) == prev + {|rows| - 1};
        assert |rows| - 1 !in prev;
      } else {
        assert AccurateIndices(rows) == prev;
      }
    }
  }

  function PasternErrors(rows: seq<EvalRow>): (s: seq<real>)
    ensures |s| == |rows| && forall i :: 0 <= i < |rows| ==> s[i] == rows[i].pasternError
  {
    seq(|rows|, i requires 0 <= i < |rows| => rows[i].pasternError)
  }

  function HoofErrors(rows: seq<EvalRow>): (s: seq<real>)
    ensures |s| == |rows| && forall i :: 0 <= i < |rows| ==> s[i] == rows[i].hoofError
  {
    seq(|rows|, i requires 0 <= i < |rows| => rows[i].hoofError)
  }

  /** `a / t * 100` for a count a out of t. */
  lemma PercentBounds(a: nat, t: nat)
    requires 0 < t && a <= t
    ensures 0.0 <= a as real / t as real * 100.0 <= 100.0
    ensures a as real / t as real * 100.0 == 100.0 <==> a == t
  {
    var f := a as real / t as real;
    assert f * t as real == a as real;
    if a == t {
      assert f == 1.0;
    } else {
      assert f * t as real < t as real;
    }
  }

  /** `x / t`: the mean of values summing to x over t of them. */
  function Mean(x: real, t: nat): (m: real)
    requires t > 0
    ensures m * t as real == x
  {
    var q := x / t as real;
    assert q * t as real == x;
    q
  }

  /** `(a / t) * 100`: a count a out of t as a percentage. */
  function Percent(a: nat, t: nat): (p: real)
    requires 0 < t && a <= t
    ensures 0.0 <= p <= 100.0
    ensures p == 100.0 <==> a == t
    ensures p * t as real == 100.0 * a as real
  {
    PercentBounds(a, t);
    var q := a as real / t as real;
    assert q * t as real == a as real;
    assert q * 100.0 * t as real == 100.0 * (q * t as real);
    q * 100.0
  }

  datatype Summary = Summary(total: nat, avgPasternError: real, avgHoofError: real,
                             accurateSamples: nat, accuracyPercent: real)

  /** The summary `main` prints. With no rows the script fails (it reads the
      first row's keys before any division), modelled as None. */
  function Summarize(rows: seq<EvalRow>): (r: Option<Summary>)
    ensures r.None? <==> |rows| == 0
    ensures r.Some? ==> r.value.total == |rows| && r.value.accurateSamples == CountAccurate(rows)
    ensures r.Some? ==> 0.0 <= r.value.accuracyPercent <= 100.0
    ensures r.Some? ==> (r.value.accuracyPercent == 100.0 <==> forall i :: 0 <= i < |rows| ==> IsAccurate(rows[i]))
    ensures r.Some? ==> r.value.accuracyPercent == Percent(CountAccurate(rows), |rows|)
    ensures r.Some? ==> r.value.avgPasternError == Mean(Sum(PasternErrors(rows)), |rows|)
    ensures r.Some? ==> r.value.avgHoofError == Mean(Sum(HoofErrors(rows)), |rows|)
  {
    if |rows| == 0 then None
    else
      var total := |rows|;
      var accurate := CountAccurate(rows);
      var pastern := Mean(Sum(PasternErrors(rows)), total);
      var hoof := Mean(Sum(HoofErrors(rows)), total);
      var percent := Percent(accurate, total);
      Some(Summary(total, pastern, hoof, accurate, percent))
  }

  /** The summary's figures: the success rate is the number of rows within
      tolerance over the row count, times 100, and each average error is the
      sum of its column over the row count. */
  lemma SummarizeFigures(rows: seq<EvalRow>)
    requires |rows| > 0
    ensures Summarize(rows).value.accuracyPercent == |AccurateIndices(rows)| as real / |rows| as real * 100.0
    ensures Summarize(rows).value.avgPasternError == Sum(PasternErrors(rows)) / |rows| as real
    ensures Summarize(rows).value.avgHoofError == Sum(HoofErrors(rows)) / |rows| as real
  {
    CountAccurateCountsRows(rows);
  }
}

=== FILE: file_selection.dfy ===
/** Which image files the pre-annotation run picks up: names of the form
    h<number>.jpeg, in Python's sorted order, whose number is at least 159. */
module FileSelection {
  import opened Wrappers
  import opened Coco

  /** Python's `a <= b` on strings: code point by code point, a proper prefix
      first. */
  predicate LexLe(a: string, b: string) {
    if |a| == 0 then true
    else if |b| == 0 then false
    else if a[0] != b[0] then a[0] < b[0]
    else LexLe(a[1..], b[1..])
  }

  lemma {:induction false} LexLeTotal(a: string, b: string)
    ensures LexLe(a, b) || LexLe(b, a)
  {
    if |a| > 0 && |b| > 0 && a[0] == b[0] {
      LexLeTotal(a[1..], b[1..]);
    }
  }

  lemma {:induction false} LexLeTransitive(a: string, b: string, c: string)
    requires LexLe(a, b) && LexLe(b, c)
    ensures LexLe(a, c)
  {
    if |a| > 0 && |b| > 0 && |c| > 0 && a[0] == b[0] && b[0] == c[0] {
      LexLeTransitive(a[1..], b[1..], c[1..]);
    }
  }

  lemma {:induction false} LexLeAntisymmetric(a: string, b: string)
    requires LexLe(a, b) && LexLe(b, a)
    ensures a == b
  {
    if |a| > 0 && |b| > 0 {
      LexLeAntisymmetric(a[1..], b[1..]);
      assert a == [a[0]] + a[1..] && b == [b[0]] + b[1..];
    }
  }

  predicate SortedLex(s: seq<string>) {
    forall i, j :: 0 <= i < j < |s| ==> LexLe(s[i], s[j])
  }

  /** Insertion before the first name not below `x`: the result holds
      exactly the names of `s` and `x`. */
  function Insert(x: string, s: seq<string>): (r: seq<string>)
    ensures multiset(r) == multiset(s) + multiset{x}
  {
    if |s| == 0 || LexLe(x, s[0]) then [x] + s
    else
      assert s == [s[0]] + s[1..];
      [s[0]] + Insert(x, s[1..])
  }

  /** Insertion into a sorted list keeps it sorted. */
  lemma {:induction false} InsertSorted(x: string, s: seq<string>)
    requires SortedLex(s)
    ensures SortedLex(Insert(x, s))
  {
    var r := Insert(x, s);
    if |s| == 0 {
    } else if LexLe(x, s[0]) {
      forall i, j | 0 <= i < j < |r| ensures LexLe(r[i], r[j]) {
        if i == 0 {
          if j > 1 {
            LexLeTransitive(x, s[0], s[j - 1]);
          }
        } else {
          assert r[i] == s[i - 1] && r[j] == s[j - 1];
        }
      }
    } else {
      LexLeTotal(x, s[0]);
      var tail := s[1..];
      var rest := Insert(x, tail);
      assert SortedLex(tail);
      InsertSorted(x, tail);
      assert r == [s[0]] + rest;
      forall i, j | 0 <= i < j < |r| ensures LexLe(r[i], r[j]) {
        var y := rest[j - 1];
        assert r[j] == y;
        if i > 0 {
          assert r[i] == rest[i - 1];
        } else if y != x {
          assert y in multiset(rest);
          assert y in multiset(tail);
          var k :| 0 <= k < |tail| && tail[k] == y;
          assert s[k + 1] == y;
        }
      }
    }
  }

  /** `sorted(names)`: the same names in ascending order. */
  function SortLex(s: seq<string>): (r: seq<string>)
    ensures SortedLex(r)
    ensures multiset(r) == multiset(s)
  {
    if |s| == 0 then []
    else
      assert s == [s[0]] + s[1..];
      InsertSorted(s[0], SortLex(s[1..]));
      Insert(s[0], SortLex(s[1..]))
  }

  /** Sorting neither adds nor drops a name. */
  lemma SortLexMembers(s: seq<string>)
    ensures forall f :: f in SortLex(s) <==> f in s
  {
    forall f ensures f in SortLex(s) <==> f in s {
      assert f in SortLex(s) <==> f in multiset(SortLex(s));
      assert f in s <==> f in multiset(s);
    }
  }

  /** `f.startswith('h') and f.endswith('.jpeg')`. */
  predicate IsCandidate(f: string) {
    |f| >= 5 && f[0] == 'h' && f[|f| - 5..] == ".jpeg"
  }

  /** `f[1:-5]`: the name between the leading h and the extension. */
  function Stem(f: string): string
    requires IsCandidate(f)
  {
    assert f[|f| - 5] == '.';
    f[1..|f| - 5]
  }

  predicate IsDigit(c: char) {
    '0' <= c <= '9'
  }

  predicate AllDigits(s: string) {
    forall i :: 0 <= i < |s| ==> IsDigit(s[i])
  }

  /** The value of a run of decimal digits, most significant first. */
  function DigitsValue(s: string): nat
    requires AllDigits(s)
  {
    if |s| == 0 then 0
    else DigitsValue(s[..|s| - 1]) * 10 + (s[|s| - 1] as int - '0' as int)
  }

  predicate HasSign(s: string) {
    |s| > 0 && (s[0] == '-' || s[0] == '+')
  }

  /** The text after one leading sign, if there is one. */
  function Unsigned(s: string): (u: string)
    ensures |u| <= |s|
  {
    if HasSign(s) then s[1..] else s
  }

  /** `int(s)` on a string: an optional sign and at least one decimal digit;
      anything else raises. */
  function ParseInt(s: string): (r: Result<int, CocoError>)
    ensures r.Success? <==> |Unsigned(s)| > 0 && AllDigits(Unsigned(s))
    ensures r.Failure? ==> r.error == InvalidLiteral(s)
    ensures r.Success? && |s| > 0 && s[0] == '-' ==> r.value + DigitsValue(Unsigned(s)) == 0
    ensures r.Success? && !(|s| > 0 && s[0] == '-') ==> r.value == DigitsValue(Unsigned(s))
    ensures AllDigits(s) && |s| > 0 ==> r == Success(DigitsValue(s))
    ensures |s| == 0 ==> r.Failure?
  {
    var body := Unsigned(s);
    if |body| == 0 || !AllDigits(body) then Failure(InvalidLiteral(s))
    else if s[0] == '-' then Success(0 - DigitsValue(body))
    else Success(DigitsValue(body))
  }

  /** A text that is not a number: the first character is neither a sign
      nor a digit, or a later one is not a digit. */
  lemma ParseIntRejects(s: string, k: nat)
    requires k < |s| && !IsDigit(s[k])
    requires k > 0 || !HasSign(s)
    ensures ParseInt(s).Failure?
  {
    var u := Unsigned(s);
    if HasSign(s) {
      assert u[k - 1] == s[k];
    } else {
      assert u[k] == s[k];
    }
  }

  /** `str(n)` for a natural number: its decimal digits without leading
      zeros. */
  function DecimalString(n: nat): (s: string)
    ensures |s| > 0 && AllDigits(s)
  {
    if n < 10 then [('0' as int + n) as char]
    else DecimalString(n / 10) + [('0' as int + n % 10) as char]
  }

  lemma {:induction false} DigitsValueOfDecimal(n: nat)
    ensures DigitsValue(DecimalString(n)) == n
  {
    if n >= 10 {
      var s := DecimalString(n);
      assert s[..|s| - 1] == DecimalString(n / 10);
      DigitsValueOfDecimal(n / 10);
    }
  }

  /** `int(str(n)) == n`, for either sign. */
  lemma ParseIntDecimal(n: int)
    ensures n >= 0 ==> ParseInt(DecimalString(n)) == Success(n)
    ensures n < 0 ==> ParseInt("-" + DecimalString(-n)) == Success(n)
  {
    if n >= 0 {
      DigitsValueOfDecimal(n);
    } else {
      DigitsValueOfDecimal(-n);
      assert ("-" + DecimalString(-n))[1..] == DecimalString(-n);
    }
  }

  /** The listing entries that are candidates, in listing order. */
  function Candidates(listing: seq<string>): (r: seq<string>)
    ensures forall f :: f in r <==> f in listing && IsCandidate(f)
  {
    if |listing| == 0 then []
    else (if IsCandidate(listing[0]) then [listing[0]] else []) + Candidates(listing[1..])
  }

  /** The selection test `int(f[1:-5]) >= 159`, on a candidate whose stem
      is a number. */
  predicate IsNew(f: string) {
    IsCandidate(f) && ParseInt(Stem(f)).Success? && ParseInt(Stem(f)).value >= 159
  }

  /** `[f for f in files if int(f[1:-5]) >= 159]`: every stem is parsed, in
      order, and the first that is not a number raises. */
  function SelectNew(files: seq<string>): (r: Result<seq<string>, CocoError>)
    requires forall i :: 0 <= i < |files| ==> IsCandidate(files[i])
    ensures r.Failure? <==> exists i :: 0 <= i < |files| && ParseInt(Stem(files[i])).Failure?
    ensures r.Success? ==> forall f :: f in r.value <==> f in files && IsNew(f)
  {
    if |files| == 0 then Success([])
    else
      var init := files[..|files| - 1];
      var f := files[|files| - 1];
      assert files == init + [f];
      assert forall i :: 0 <= i < |init| ==> init[i] == files[i];
      var prev :- SelectNew(init);
      var n :- ParseInt(Stem(f));
      if n >= 159 then Success(prev + [f]) else Success(prev)
  }

  /** The selection keeps the sorted order. */
  lemma {:induction false} SelectNewSorted(files: seq<string>)
    requires forall i :: 0 <= i < |files| ==> IsCandidate(files[i])
    requires SortedLex(files) && SelectNew(files).Success?
    ensures SortedLex(SelectNew(files).value)
  {
    if |files| > 0 {
      var init := files[..|files| - 1];
      var f := files[|files| - 1];
      assert forall i :: 0 <= i < |init| ==> init[i] == files[i];
      assert SortedLex(init);
      SelectNewSorted(init);
      var prev := SelectNew(init).value;
      var r := SelectNew(files).value;
      if r != prev {
        assert r == prev + [f];
        forall i, j | 0 <= i < j < |r| ensures LexLe(r[i], r[j]) {
          if j == |r| - 1 {
            assert r[i] in prev;
            var k :| 0 <= k < |init| && init[k] == r[i];
            assert LexLe(files[k], files[|files| - 1]);
          } else {
            assert r[i] == prev[i] && r[j] == prev[j];
          }
        }
      }
    }
  }

  predicate Distinct(s: seq<string>) {
    forall i, j :: 0 <= i < j < |s| ==> s[i] != s[j]
  }

  lemma {:induction false} DistinctCountsOnce(s: seq<string>, f: string)
    requires Distinct(s)
    ensures multiset(s)[f] <= 1
  {
    if |s| > 0 {
      assert s == [s[0]] + s[1..];
      assert Distinct(s[1..]);
      DistinctCountsOnce(s[1..], f);
      if s[0] == f {
        assert f !in s[1..];
      }
    }
  }

  lemma CountsOnceDistinct(s: seq<string>)
    requires forall f :: multiset(s)[f] <= 1
    ensures Distinct(s)
  {
    forall i, j | 0 <= i < j < |s| ensures s[i] != s[j] {
      assert s == s[..j] + s[j..];
      assert s[i] in s[..j] && s[j] in s[j..];
      assert multiset(s)[s[j]] == multiset(s[..j])[s[j]] + multiset(s[j..])[s[j]];
    }
  }

  lemma {:induction false} CandidatesSubMultiset(listing: seq<string>)
    ensures multiset(Candidates(listing)) <= multiset(listing)
  {
    if |listing| > 0 {
      assert listing == [listing[0]] + listing[1..];
      CandidatesSubMultiset(listing[1..]);
    }
  }

  lemma {:induction false} SelectNewSubMultiset(files: seq<string>)
    requires forall i :: 0 <= i < |files| ==> IsCandidate(files[i])
    requires SelectNew(files).Success?
    ensures multiset(SelectNew(files).value) <= multiset(files)
  {
    if |files| > 0 {
      var init := files[..|files| - 1];
      var f := files[|files| - 1];
      assert files == init + [f];
      assert forall i :: 0 <= i < |init| ==> init[i] == files[i];
      SelectNewSubMultiset(init);
    }
  }

  /** The files the run processes, given the directory listing: the
      candidates, sorted, whose number is at least 159. They come out sorted,
      and a name is selected exactly when it is listed, is a candidate and
      its number is at least 159. */
  function SelectFiles(listing: seq<string>): (r: Result<seq<string>, CocoError>)
    ensures r.Success? ==> SortedLex(r.value)
    ensures r.Success? ==> forall f :: f in r.value <==> f in listing && IsNew(f)
    ensures r.Failure? <==> exists f :: f in listing && IsCandidate(f) && ParseInt(Stem(f)).Failure?
    ensures r.Success? && Distinct(listing) ==> Distinct(r.value)
  {
    var candidates := Candidates(listing);
    var sorted := SortLex(candidates);
    SortLexMembers(candidates);
    var r := SelectNew(sorted);
    if r.Failure? then r
    else
      SelectNewSorted(sorted);
      SelectedOnce(listing, candidates, sorted, r.value);
      r
  }

  lemma SelectedOnce(listing: seq<string>, candidates: seq<string>, sorted: seq<string>, selected: seq<string>)
    requires candidates == Candidates(listing) && sorted == SortLex(candidates)
    requires forall i :: 0 <= i < |sorted| ==> IsCandidate(sorted[i])
    requires SelectNew(sorted) == Success(selected)
    ensures Distinct(listing) ==> Distinct(selected)
  {
    if Distinct(listing) {
      CandidatesSubMultiset(listing);
      SelectNewSubMultiset(sorted);
      forall f ensures multiset(selected)[f] <= 1 {
        DistinctCountsOnce(listing, f);
      }
      CountsOnceDistinct(selected);
    }
  }

  /** The names h158.jpeg and h159.jpeg: only the second is new. */
  lemma SelectionThreshold()
    ensures IsCandidate("h158.jpeg") && IsCandidate("h159.jpeg")
    ensures ParseInt(Stem("h158.jpeg")) == Success(158) && ParseInt(Stem("h159.jpeg")) == Success(159)
  {
    assert Stem("h158.jpeg") == "158";
    assert Stem("h159.jpeg") == "159";
    assert AllDigits("158") && AllDigits("159");
    assert "158"[..2] == "15" && "159"[..2] == "15" && "15"[..1] == "1" && "1"[..0] == "";
    assert DigitsValue("1") == 1;
    assert DigitsValue("15") == 15;
    assert DigitsValue("158") == 158 && DigitsValue("159") == 159;
  }
}

=== FILE: fix_bbox.dfy ===
/** `fix_coco_bboxes`: each annotation's bbox is recomputed from its visible
    keypoints, widened by fixed margins, clamped to the image, and the
    annotation is skipped when the result is too small. */
module FixBbox {
  import opened Wrappers
  import opened Numerics
  import opened Stats
  import opened Coco

  /** The margins, as fractions of the keypoints' own width and height. */
  const TopMargin: real := 0.08
  const BottomMargin: real := 0.05
  const SideMargin: real := 0.12

  /** One (x, y, visibility) triple of the flat keypoint list. */
  datatype Keypoint = Keypoint(x: real, y: real, v: real)

  /** The flat list read three values at a time. */
  function Triples(kpts: seq<real>): (ts: seq<Keypoint>)
    requires |kpts| % 3 == 0
    ensures 3 * |ts| == |kpts|
    ensures forall j :: 0 <= j < |ts| ==> ts[j] == Keypoint(kpts[3 * j], kpts[3 * j + 1], kpts[3 * j + 2])
  {
    if |kpts| == 0 then []
    else [Keypoint(kpts[0], kpts[1], kpts[2])] + Triples(kpts[3..])
  }

  /** The keypoints marked visible (`v > 0`), in order. */
  function VisibleOf(ts: seq<Keypoint>): (ps: seq<Keypoint>)
    ensures forall p :: p in ps <==> p in ts && p.v > 0.0
    ensures |ps| <= |ts|
  {
    if |ts| == 0 then []
    else (if ts[0].v > 0.0 then [ts[0]] else []) + VisibleOf(ts[1..])
  }

  function Xs(ps: seq<Keypoint>): (xs: seq<real>)
    ensures |xs| == |ps| && forall i :: 0 <= i < |ps| ==> xs[i] == ps[i].x
  {
    if |ps| == 0 then [] else [ps[0].x] + Xs(ps[1..])
  }

  function Ys(ps: seq<Keypoint>): (ys: seq<real>)
    ensures |ys| == |ps| && forall i :: 0 <= i < |ps| ==> ys[i] == ps[i].y
  {
    if |ps| == 0 then [] else [ps[0].y] + Ys(ps[1..])
  }

  /** An unrounded box by its corners. */
  datatype Bounds = Bounds(xMin: real, yMin: real, xMax: real, yMax: real) {
    function Width(): real { xMax - xMin }
    function Height(): real { yMax - yMin }
    predicate Contains(x: real, y: real) { xMin <= x <= xMax && yMin <= y <= yMax }
  }

  /** The tightest box around the points. */
  function Tight(ps: seq<Keypoint>): (b: Bounds)
    requires |ps| > 0
    ensures forall p :: p in ps ==> b.Contains(p.x, p.y)
    ensures b.xMin in Xs(ps) && b.xMax in Xs(ps) && b.yMin in Ys(ps) && b.yMax in Ys(ps)
    ensures b.xMin <= b.xMax && b.yMin <= b.yMax
  {
    assert ps[0] in ps;
    Bounds(MinOf(Xs(ps)), MinOf(Ys(ps)), MaxOf(Xs(ps)), MaxOf(Ys(ps)))
  }

  /** The box widened by the side margin left and right and by the top and
      bottom margins above and below; it contains the box it widens. */
  function Expand(b: Bounds): (e: Bounds)
    requires b.xMin <= b.xMax && b.yMin <= b.yMax
    ensures e.xMin == b.xMin - SideMargin * b.Width() && e.xMax == b.xMax + SideMargin * b.Width()
    ensures e.yMin == b.yMin - TopMargin * b.Height() && e.yMax == b.yMax + BottomMargin * b.Height()
    ensures e.xMin <= b.xMin && b.xMax <= e.xMax && e.yMin <= b.yMin && b.yMax <= e.yMax
    ensures e.Width() == (1.0 + 2.0 * SideMargin) * b.Width()
    ensures e.Height() == (1.0 + TopMargin + BottomMargin) * b.Height()
  {
    var w := b.Width();
    var h := b.Height();
    Bounds(b.xMin - SideMargin * w, b.yMin - TopMargin * h, b.xMax + SideMargin * w, b.yMax + BottomMargin * h)
  }

  /** The box cut to the pixel range of the image: each side that lies in
      range is kept, and one beyond 0 or beyond the last column or row is
      moved onto that edge. */
  function Clamp(b: Bounds, img: Image): (c: Bounds)
    ensures 0.0 <= c.xMin && 0.0 <= c.yMin
    ensures c.xMax <= img.width as real - 1.0 && c.yMax <= img.height as real - 1.0
    ensures c.xMin == (if b.xMin < 0.0 then 0.0 else b.xMin)
    ensures c.yMin == (if b.yMin < 0.0 then 0.0 else b.yMin)
    ensures c.xMax == (if b.xMax > img.width as real - 1.0 then img.width as real - 1.0 else b.xMax)
    ensures c.yMax == (if b.yMax > img.height as real - 1.0 then img.height as real - 1.0 else b.yMax)
  {
    Bounds(Max(0.0, b.xMin), Max(0.0, b.yMin), Min(img.width as real - 1.0, b.xMax), Min(img.height as real - 1.0, b.yMax))
  }

  /** The clamped box is the part of the box that lies in the image: a
      point is in it exactly when it is in the box and on the image. */
  lemma ClampIsIntersection(b: Bounds, img: Image, x: real, y: real)
    ensures Clamp(b, img).Contains(x, y) <==>
              b.Contains(x, y) && 0.0 <= x <= img.width as real - 1.0 && 0.0 <= y <= img.height as real - 1.0
  {
  }

  /** What the loop does with one annotation: skip it, or give it this box. */
  datatype Verdict = Skip | Fit(box: Bounds)

  /** The keypoint list as read, `ann.get("keypoints", [])`. */
  function KeypointValues(ann: Annotation): seq<real> {
    ann.keypoints.GetOr([])
  }

  /** The annotation carries keypoints the loop looks at. */
  predicate Annotated(ann: Annotation) {
    |KeypointValues(ann)| > 0 && ann.numKeypoints.GetOr(0) != 0
  }

  /** The visible keypoints of an annotation whose list splits into triples. */
  function VisibleKeypoints(ann: Annotation): seq<Keypoint>
    requires |KeypointValues(ann)| % 3 == 0
  {
    VisibleOf(Triples(KeypointValues(ann)))
  }

  /** The box the loop gives a set of at least two visible keypoints on an
      image, or Skip when the keypoints are too flat or the box that results
      is too small. */
  function BoxFor(ps: seq<Keypoint>, img: Image): (v: Verdict)
    requires |ps| >= 2
    ensures var c := Clamp(Expand(Tight(ps)), img);
            v.Fit? <==> Tight(ps).Height() > 1.0 && c.Height() >= 0.25 * img.height as real
                        && c.Width() > 1.0 && c.Height() > 1.0
    ensures v.Fit? ==> v.box == Clamp(Expand(Tight(ps)), img)
    ensures v.Fit? ==> Tight(ps).Height() > 1.0
    ensures v.Fit? ==>
              && 0.0 <= v.box.xMin && v.box.xMax <= img.width as real - 1.0
              && 0.0 <= v.box.yMin && v.box.yMax <= img.height as real - 1.0
              && v.box.Width() > 1.0 && v.box.Height() > 1.0
              && v.box.Height() >= 0.25 * img.height as real
  {
    var tight := Tight(ps);
    if tight.Height() <= 1.0 then Skip
    else
      var c := Clamp(Expand(tight), img);
      if c.Height() < 0.25 * img.height as real then Skip
      else if c.Width() <= 1.0 || c.Height() <= 1.0 then Skip
      else Fit(c)
  }

  /** A fitted box holds every one of its keypoints that lies inside the
      image. */
  lemma BoxForContains(ps: seq<Keypoint>, img: Image, p: Keypoint)
    requires |ps| >= 2 && BoxFor(ps, img).Fit?
    requires p in ps
    requires 0.0 <= p.x <= img.width as real - 1.0 && 0.0 <= p.y <= img.height as real - 1.0
    ensures BoxFor(ps, img).box.Contains(p.x, p.y)
  {
    var tight := Tight(ps);
    var e := Expand(tight);
    assert tight.Contains(p.x, p.y);
    ClampIsIntersection(e, img, p.x, p.y);
  }

  /** The fitted box, stated on the keypoints' own extremes: a point lies in
      it exactly when it is on the image, at most 0.12 of the keypoints'
      width left or right of them, at most 0.08 of their height above them
      and at most 0.05 of it below them. */
  lemma BoxForRegion(ps: seq<Keypoint>, img: Image, x: real, y: real)
    requires |ps| >= 2 && BoxFor(ps, img).Fit?
    ensures var x0, x1 := MinOf(Xs(ps)), MaxOf(Xs(ps));
            var y0, y1 := MinOf(Ys(ps)), MaxOf(Ys(ps));
            BoxFor(ps, img).box.Contains(x, y) <==>
              && 0.0 <= x <= img.width as real - 1.0 && 0.0 <= y <= img.height as real - 1.0
              && x0 - 0.12 * (x1 - x0) <= x <= x1 + 0.12 * (x1 - x0)
              && y0 - 0.08 * (y1 - y0) <= y <= y1 + 0.05 * (y1 - y0)
  {
    ClampIsIntersection(Expand(Tight(ps)), img, x, y);
  }

  /** The body of the loop for one annotation. The unpacking of a list whose
      length is not a multiple of three raises; every other problem skips. */
  function FitBox(images: map<int, Image>, ann: Annotation): (r: Result<Verdict, CocoError>)
    ensures r.Failure? <==> Annotated(ann) && |KeypointValues(ann)| % 3 != 0
    ensures r.Failure? ==> r.error == Unpack(|KeypointValues(ann)| % 3)
    ensures !Annotated(ann) ==> r == Success(Skip)
    ensures Annotated(ann) && |KeypointValues(ann)| % 3 == 0 ==>
              if |VisibleKeypoints(ann)| >= 2 && ann.imageId in images
              then r == Success(BoxFor(VisibleKeypoints(ann), images[ann.imageId]))
              else r == Success(Skip)
    ensures r.Success? && r.value.Fit? ==>
              && Annotated(ann)
              && |VisibleKeypoints(ann)| >= 2
              && ann.imageId in images
              && r.value == BoxFor(VisibleKeypoints(ann), images[ann.imageId])
  {
    var kpts := KeypointValues(ann);
    if !Annotated(ann) then Success(Skip)
    else if |kpts| % 3 != 0 then Failure(Unpack(|kpts| % 3))
    else
      var ps := VisibleKeypoints(ann);
      if |ps| < 2 || ann.imageId !in images then Success(Skip)
      else Success(BoxFor(ps, images[ann.imageId]))
  }

  /** A fitted box lies in the image, is more than a pixel wide and high and
      at least a quarter of the image high, and holds every visible keypoint
      that lies inside the image. */
  lemma FitBoxProperties(images: map<int, Image>, ann: Annotation, p: Keypoint)
    requires FitBox(images, ann).Success? && FitBox(images, ann).value.Fit?
    requires p in VisibleKeypoints(ann)
    requires 0.0 <= p.x <= images[ann.imageId].width as real - 1.0
    requires 0.0 <= p.y <= images[ann.imageId].height as real - 1.0
    ensures p.v > 0.0
    ensures var b := FitBox(images, ann).value.box;
            var img := images[ann.imageId];
            && 0.0 <= b.xMin && b.xMax <= img.width as real - 1.0
            && 0.0 <= b.yMin && b.yMax <= img.height as real - 1.0
            && b.Width() > 1.0 && b.Height() > 1.0
            && b.Height() >= 0.25 * img.height as real
            && b.Contains(p.x, p.y)
  {
    BoxForContains(VisibleKeypoints(ann), images[ann.imageId], p);
  }

  /** The annotation after the loop: a fitted box is written rounded to two
      places as [x, y, width, height], with the area of the unrounded box;
      nothing else changes. */
  function Apply(ann: Annotation, v: Verdict): (out: Annotation)
    ensures v.Skip? ==> out == ann
    ensures out.(bbox := ann.bbox, area := ann.area) == ann
    ensures v.Fit? ==> out.bbox.Some? && |out.bbox.value| == 4 && out.area.Some?
  {
    match v
    case Skip => ann
    case Fit(b) =>
      var w := b.Width();
      var h := b.Height();
      ann.(bbox := Some([RoundHundredths(b.xMin), RoundHundredths(b.yMin), RoundHundredths(w), RoundHundredths(h)]),
           area := Some(RoundHundredths(w * h)))
  }

  /** A fitted box is written as x, y, width and height, and its area, each
      within 0.005 of the box's own values. */
  lemma ApplyWritesRoundedBox(ann: Annotation, b: Bounds)
    ensures var out := Apply(ann, Fit(b));
            && Abs(out.bbox.value[0] - b.xMin) <= 0.005 && Abs(out.bbox.value[1] - b.yMin) <= 0.005
            && Abs(out.bbox.value[2] - b.Width()) <= 0.005 && Abs(out.bbox.value[3] - b.Height()) <= 0.005
            && Abs(out.area.value - b.Width() * b.Height()) <= 0.005
  {
  }

  lemma ProductAtLeastOne(w: real, h: real)
    requires w > 1.0 && h > 1.0
    ensures w * h > 1.0
  {
    assert w * h > 1.0 * h;
  }

  /** The bbox written for a fitted box, which lies in the image and is more
      than a pixel wide and high, has no negative entry and a positive area. */
  lemma WrittenBoxNonNegative(ann: Annotation, b: Bounds)
    requires 0.0 <= b.xMin && 0.0 <= b.yMin && b.Width() > 1.0 && b.Height() > 1.0
    ensures var out := Apply(ann, Fit(b));
            && out.area.value > 0.0
            && forall k :: 0 <= k < 4 ==> out.bbox.value[k] >= 0.0
  {
    var out := Apply(ann, Fit(b));
    ApplyWritesRoundedBox(ann, b);
    ProductAtLeastOne(b.Width(), b.Height());
    assert out.area.value > 0.0;
    RoundedCornerAndSidesNonNegative(b);
    assert out.bbox.value == [RoundHundredths(b.xMin), RoundHundredths(b.yMin),
                              RoundHundredths(b.Width()), RoundHundredths(b.Height())];
  }

  lemma RoundedCornerAndSidesNonNegative(b: Bounds)
    requires 0.0 <= b.xMin && 0.0 <= b.yMin && b.Width() > 1.0 && b.Height() > 1.0
    ensures RoundHundredths(b.xMin) >= 0.0 && RoundHundredths(b.yMin) >= 0.0
    ensures RoundHundredths(b.Width()) >= 0.0 && RoundHundredths(b.Height()) >= 0.0
  {
    RoundHundredthsNonNegative(b.xMin);
    RoundHundredthsNonNegative(b.yMin);
    RoundHundredthsNonNegative(b.Width());
    RoundHundredthsNonNegative(b.Height());
  }

  /** The annotations after the loop, with the two counters it keeps. */
  datatype Pass = Pass(annotations: seq<Annotation>, fixed: nat, skipped: nat)

  /** The rule the loop applies to each annotation. */
  type Rule = Annotation -> Result<Verdict, CocoError>

  /** The positions whose annotation the rule gives a fitted box. */
  function FittedIndices(rule: Rule, anns: seq<Annotation>): set<int> {
    set i | 0 <= i < |anns| && rule(anns[i]).Success? && rule(anns[i]).value.Fit?
  }

  /** The positions whose annotation the rule skips. */
  function SkippedIndices(rule: Rule, anns: seq<Annotation>): set<int> {
    set i | 0 <= i < |anns| && rule(anns[i]).Success? && rule(anns[i]).value.Skip?
  }

  /** Adding one annotation at the end adds its position to the fitted set
      exactly when it is fitted. */
  lemma FittedSnoc(rule: Rule, init: seq<Annotation>, last: Annotation)
    requires rule(last).Success?
    ensures |FittedIndices(rule, init + [last])| ==
              |FittedIndices(rule, init)| + (if rule(last).value.Fit? then 1 else 0)
  {
    var anns := init + [last];
    var prev := FittedIndices(rule, init);
    forall i | 0 <= i < |init| ensures anns[i] == init[i] { }
    assert |init| !in prev;
    if rule(last).value.Fit? {
      assert FittedIndices(rule, anns) == prev + {|init|};
    } else {
      assert FittedIndices(rule, anns) == prev;
    }
  }

  /** Likewise for the skipped set. */
  lemma SkippedSnoc(rule: Rule, init: seq<Annotation>, last: Annotation)
    requires rule(last).Success?
    ensures |SkippedIndices(rule, init + [last])| ==
              |SkippedIndices(rule, init)| + (if rule(last).value.Skip? then 1 else 0)
  {
    var anns := init + [last];
    var prev := SkippedIndices(rule, init);
    forall i | 0 <= i < |init| ensures anns[i] == init[i] { }
    assert |init| !in prev;
    if rule(last).value.Skip? {
      assert SkippedIndices(rule, anns) == prev + {|init|};
    } else {
      assert SkippedIndices(rule, anns) == prev;
    }
  }

  /** The loop over the annotations, in order, under a given rule; the first
      annotation for which the rule raises ends it. */
  function FixAnnotations(rule: Rule, anns: seq<Annotation>): (r: Result<Pass, CocoError>)
    ensures r.Failure? <==> exists i :: 0 <= i < |anns| && rule(anns[i]).Failure?
    ensures r.Success? ==> |r.value.annotations| == |anns| && r.value.fixed + r.value.skipped == |anns|
    ensures r.Success? ==> forall i :: 0 <= i < |anns| ==>
              r.value.annotations[i] == Apply(anns[i], rule(anns[i]).value)
    ensures r.Success? ==> r.value.fixed == |FittedIndices(rule, anns)|
    ensures r.Success? ==> r.value.skipped == |SkippedIndices(rule, anns)|
  {
    if |anns| == 0 then
      assert FittedIndices(rule, anns) == {} && SkippedIndices(rule, anns) == {};
      Success(Pass([], 0, 0))
    else
      var init := anns[..|anns| - 1];
      var ann := anns[|anns| - 1];
      assert forall i :: 0 <= i < |init| ==> init[i] == anns[i];
      var prev := FixAnnotations(rule, init);
      if prev.Failure? then prev
      else
        var v := rule(ann);
        if v.Failure? then Failure(v.error)
        else
          var p := prev.value;
          assert anns == init + [ann];
          FittedSnoc(rule, init, ann);
          SkippedSnoc(rule, init, ann);
          Success(Pass(p.annotations + [Apply(ann, v.value)],
                       if v.value.Fit? then p.fixed + 1 else p.fixed,
                       if v.value.Skip? then p.skipped + 1 else p.skipped))
  }

  /** The error is that of the first annotation that raises. */
  lemma {:induction false} FixAnnotationsFirstError(rule: Rule, anns: seq<Annotation>, i: nat)
    requires i < |anns| && rule(anns[i]).Failure?
    requires forall j :: 0 <= j < i ==> rule(anns[j]).Success?
    ensures FixAnnotations(rule, anns) == Failure(rule(anns[i]).error)
  {
    var init := anns[..|anns| - 1];
    if i < |anns| - 1 {
      assert init[i] == anns[i];
      assert forall j :: 0 <= j < i ==> init[j] == anns[j];
      FixAnnotationsFirstError(rule, init, i);
    } else {
      assert forall j :: 0 <= j < |init| ==> init[j] == anns[j];
    }
  }

  /** The rule of `fix_coco_bboxes` over an image index. */
  function FitRule(images: map<int, Image>): Rule {
    ann => FitBox(images, ann)
  }

  /** The verdict looks only at keypoints, their count and the image id, so
      writing a box leaves the verdict unchanged. */
  lemma FitBoxIgnoresBox(images: map<int, Image>, ann: Annotation, v: Verdict)
    ensures FitBox(images, Apply(ann, v)) == FitBox(images, ann)
  {
    var out := Apply(ann, v);
    assert out.keypoints == ann.keypoints && out.numKeypoints == ann.numKeypoints && out.imageId == ann.imageId;
  }

  /** Under a rule that ignores what it writes, running the loop again on its
      own output changes nothing and counts the same. */
  lemma {:induction false} FixAnnotationsIdempotent(rule: Rule, anns: seq<Annotation>)
    requires forall ann, v :: rule(Apply(ann, v)) == rule(ann)
    requires FixAnnotations(rule, anns).Success?
    ensures FixAnnotations(rule, FixAnnotations(rule, anns).value.annotations) == FixAnnotations(rule, anns)
  {
    if |anns| > 0 {
      var init := anns[..|anns| - 1];
      var ann := anns[|anns| - 1];
      assert forall i :: 0 <= i < |init| ==> init[i] == anns[i];
      FixAnnotationsIdempotent(rule, init);
      var out := FixAnnotations(rule, anns).value.annotations;
      var outInit := FixAnnotations(rule, init).value.annotations;
      assert out[..|out| - 1] == outInit;
      assert rule(out[|out| - 1]) == rule(ann);
      ApplyTwice(ann, rule(ann).value);
    }
  }

  /** Writing the same verdict twice writes it once. */
  lemma ApplyTwice(ann: Annotation, v: Verdict)
    ensures Apply(Apply(ann, v), v) == Apply(ann, v)
  {
  }

  /** The bbox fix in particular is idempotent. */
  lemma FitRuleIdempotent(images: map<int, Image>, anns: seq<Annotation>)
    requires FixAnnotations(FitRule(images), anns).Success?
    ensures var once := FixAnnotations(FitRule(images), anns).value.annotations;
            FixAnnotations(FitRule(images), once) == FixAnnotations(FitRule(images), anns)
  {
    forall ann, v ensures FitRule(images)(Apply(ann, v)) == FitRule(images)(ann) {
      FitBoxIgnoresBox(images, ann, v);
    }
    FixAnnotationsIdempotent(FitRule(images), anns);
  }

  /** What the script ends with: the file it writes and its two counts. */
  datatype FixReport = FixReport(coco: CocoFile, fixed: nat, skipped: nat)

  /** `fix_coco_bboxes(coco_path)` on the loaded file. Images are indexed by
      id, the later of two with the same id winning; only the annotations
      change. */
  function FixCocoBboxes(coco: CocoFile): (r: Result<FixReport, CocoError>)
    ensures coco.images.None? ==> r == Failure(MissingKey("images"))
    ensures coco.images.Some? && coco.annotations.None? ==> r == Failure(MissingKey("annotations"))
    ensures r.Success? ==>
              && r.value.coco == coco.(annotations := r.value.coco.annotations)
              && r.value.coco.annotations.Some?
              && |r.value.coco.annotations.value| == |coco.annotations.value|
              && r.value.fixed + r.value.skipped == |coco.annotations.value|
              && r.value.fixed == |FittedIndices(FitRule(IndexBy(coco.images.value, ImageId)), coco.annotations.value)|
              && r.value.skipped == |SkippedIndices(FitRule(IndexBy(coco.images.value, ImageId)), coco.annotations.value)|
    ensures coco.images.Some? && coco.annotations.Some? ==>
              (r.Failure? <==>
                 exists i :: 0 <= i < |coco.annotations.value| && Annotated(coco.annotations.value[i])
                   && |KeypointValues(coco.annotations.value[i])| % 3 != 0)
    ensures r.Success? ==> forall i :: 0 <= i < |coco.annotations.value| ==>
              r.value.coco.annotations.value[i] ==
                Apply(coco.annotations.value[i], FitBox(IndexBy(coco.images.value, ImageId), coco.annotations.value[i]).value)
  {
    if coco.images.None? then Failure(MissingKey("images"))
    else if coco.annotations.None? then Failure(MissingKey("annotations"))
    else
      var images := IndexBy(coco.images.value, ImageId);
      var pass :- FixAnnotations(FitRule(images), coco.annotations.value);
      Success(FixReport(coco.(annotations := Some(pass.annotations)), pass.fixed, pass.skipped))
  }
}

=== FILE: geometry.dfy ===
/** Points, the four-keypoint set, vector construction and the angle helpers:
    the signed angle from the image vertical, its fold into an unsigned angle
    in [0, 90] and the conversion between vertical- and ground-referenced angles.
    `atan2` and `sqrt` are not modelled: atan2 (already converted to degrees) is
    a parameter known only to return a value in [-180, 180], and a magnitude is
    passed in together with the fact that it squares to the vector's norm. */
module Geometry {
  import opened Numerics
  import opened Wrappers

  /** A point, or a displacement, in image coordinates: y grows downward. */
  datatype Point = Point(x: real, y: real)

  const Origin := Point(0.0, 0.0)

  /** The image's vertical reference (0, -1): it points toward the top row. */
  const Vertical := Point(0.0, -1.0)

  /** The four detected keypoints in their fixed roles. The annotation files name
      them P1..P4 in the same order. */
  datatype Quad = Quad(pasternTop: Point, pasternBottom: Point, hoofTop: Point, toe: Point)

  /** The keypoints of a set by their position P1..P4. */
  function Corner(q: Quad, i: nat): Point
    requires i < 4
  {
    if i == 0 then q.pasternTop else if i == 1 then q.pasternBottom else if i == 2 then q.hoofTop else q.toe
  }

  function Add(a: Point, b: Point): Point {
    Point(a.x + b.x, a.y + b.y)
  }

  function Neg(v: Point): Point {
    Point(-v.x, -v.y)
  }

  function Dot(a: Point, b: Point): real {
    a.x * b.x + a.y * b.y
  }

  function Cross(a: Point, b: Point): real {
    a.x * b.y - a.y * b.x
  }

  /** An angle in degrees as `math.degrees(math.atan2(..))` returns it. */
  type Degrees = a: real | -180.0 <= a <= 180.0

  /** `math.degrees(math.atan2(y, x))`, left uninterpreted apart from its range. */
  type Atan2Degrees = (real, real) -> Degrees

  // ---------------------------------------------------------------- vectors

  /** `vector(p1, p2)`: the displacement that carries p1 onto p2. */
  function Vector(p1: Point, p2: Point): (v: Point)
    ensures Add(p1, v) == p2
  {
    Point(p2.x - p1.x, p2.y - p1.y)
  }

  lemma VectorToSelfIsZero(p: Point)
    ensures Vector(p, p) == Origin
  {
  }

  lemma VectorReversed(p1: Point, p2: Point)
    ensures Vector(p2, p1) == Neg(Vector(p1, p2))
  {
  }

  /** `magnitude(v) == 0`. sqrt(x*x + y*y) is zero over the reals exactly when both
      components are, so the test is stated on the components. */
  predicate IsZeroLength(v: Point) {
    v.x == 0.0 && v.y == 0.0
  }

  /** `normalize(v)`: v divided by its magnitude, or the "Cannot normalize
      zero-length vector" error. `magnitude` is the caller-supplied value of
      `math.sqrt(x*x + y*y)`; the model assumes only that it is non-negative
      and zero exactly for the zero vector, so unit length is not stated. */
  function Normalize(v: Point, magnitude: real): (r: Result<Point, string>)
    requires magnitude >= 0.0 && (magnitude == 0.0 <==> IsZeroLength(v))
    ensures r.Failure? <==> v == Origin
    ensures r.Failure? ==> r.error == "Cannot normalize zero-length vector"
    ensures r.Success? ==> r.value.x * magnitude == v.x && r.value.y * magnitude == v.y
  {
    if magnitude == 0.0 then Failure("Cannot normalize zero-length vector")
    else Success(Point(v.x / magnitude, v.y / magnitude))
  }

  /** `pastern_vector(points)`, as overridden by the second definition in the
      module: P1 -> P2, rejected when the two points coincide. */
  function PasternVector(q: Quad): (r: Result<Point, string>)
    ensures r.Failure? <==> q.pasternTop == q.pasternBottom
    ensures r.Failure? ==> r.error == "Zero-length pastern vector"
    ensures r.Success? ==> Add(q.pasternTop, r.value) == q.pasternBottom
  {
    var v := Vector(q.pasternTop, q.pasternBottom);
    if IsZeroLength(v) then Failure("Zero-length pastern vector") else Success(v)
  }

  /** `hoof_wall_vector(points)`: P3 -> P4, with no zero-length check. */
  function HoofWallVector(q: Quad): (v: Point)
    ensures Add(q.hoofTop, v) == q.toe
  {
    Vector(q.hoofTop, q.toe)
  }

  // ----------------------------------------------------------------- angles

  /** `angle_from_vertical(v)`: atan2 of the cross and dot products of v with the
      vertical (0, -1), which come to -v.x and -v.y. */
  function AngleFromVertical(v: Point, atan2: Atan2Degrees): (a: Degrees)
    ensures a == atan2(-v.x, -v.y)
  {
    atan2(Cross(v, Vertical), Dot(v, Vertical))
  }

  /** `anatomical_angle(a)`: |a| % 180, folded onto [0, 90]. */
  function AnatomicalAngle(a: real): (r: real)
    ensures 0.0 <= r <= 90.0
  {
    var m := Mod180(Abs(a));
    if m > 90.0 then 180.0 - m else m
  }

  /** `clinical_angle(a)` (the API's and the evaluation script's copy): the same fold,
      subtracted from 90 to measure from the ground instead of the vertical. */
  function ClinicalAngle(a: real): (r: real)
    ensures 0.0 <= r <= 90.0
  {
    var m := Mod180(Abs(a));
    var folded := if m > 90.0 then 180.0 - m else m;
    90.0 - folded
  }

  /** `vertical_to_ground_angle(v)`: the complement of a vertical-referenced angle. */
  function VerticalToGround(v: real): (g: real)
    ensures g + v == 90.0
  {
    90.0 - v
  }

  lemma Mod180Small(x: real)
    requires 0.0 <= x < 180.0
    ensures Mod180(x) == x
  {
    assert (x / 180.0).Floor == 0;
  }

  lemma Mod180Shift(x: real)
    ensures Mod180(x + 180.0) == Mod180(x)
  {
    assert (x + 180.0) / 180.0 == x / 180.0 + 1.0;
    assert ((x + 180.0) / 180.0).Floor == (x / 180.0).Floor + 1;
  }

  /** The fold removes direction: a and -a give the same angle. */
  lemma AnatomicalAngleEven(a: real)
    ensures AnatomicalAngle(-a) == AnatomicalAngle(a)
  {
  }

  /** Turning by 180 degrees (reversing the vector) does not change the fold. */
  lemma AnatomicalAnglePeriodic(a: real)
    ensures AnatomicalAngle(a + 180.0) == AnatomicalAngle(a)
  {
    if a >= 0.0 {
      Mod180Shift(a);
    } else if a <= -180.0 {
      Mod180Shift(-a - 180.0);
    } else {
      Mod180Small(a + 180.0);
      Mod180Small(-a);
    }
  }

  /** The fold is the identity on [0, 90] and therefore idempotent. */
  lemma AnatomicalAngleIdentityOnRange(a: real)
    requires 0.0 <= a <= 90.0
    ensures AnatomicalAngle(a) == a
    ensures AnatomicalAngle(AnatomicalAngle(a)) == AnatomicalAngle(a)
  {
    Mod180Small(a);
  }

  lemma AnatomicalAngleIdempotent(a: real)
    ensures AnatomicalAngle(AnatomicalAngle(a)) == AnatomicalAngle(a)
  {
    AnatomicalAngleIdentityOnRange(AnatomicalAngle(a));
  }

  lemma HalfTurnBound(m: real, j: int)
    requires 0.0 <= m < 180.0
    ensures Min(m, 180.0 - m) <= Abs(m + 180.0 * j as real)
  {
    if j <= -1 {
      assert m + 180.0 * j as real <= m - 180.0;
    }
  }

  /** The fold is the distance from a to the nearest multiple of 180: no multiple
      is nearer ... */
  lemma AnatomicalAngleIsNearest(a: real, k: int)
    ensures AnatomicalAngle(a) <= Abs(a - 180.0 * k as real)
  {
    var q := (Abs(a) / 180.0).Floor;
    var m := Mod180(Abs(a));
    assert m == Abs(a) - 180.0 * q as real;
    assert AnatomicalAngle(a) == Min(m, 180.0 - m);
    if a >= 0.0 {
      assert a - 180.0 * k as real == m + 180.0 * (q - k) as real;
      HalfTurnBound(m, q - k);
    } else {
      assert Abs(a - 180.0 * k as real) == Abs(m + 180.0 * (q + k) as real);
      HalfTurnBound(m, q + k);
    }
  }

  /** ... and one multiple is exactly that far away. */
  lemma NearestHalfTurn(a: real) returns (k: int)
    ensures AnatomicalAngle(a) == Abs(a - 180.0 * k as real)
  {
    var q := (Abs(a) / 180.0).Floor;
    var m := Mod180(Abs(a));
    assert m == Abs(a) - 180.0 * q as real;
    var n := if m > 90.0 then q + 1 else q;
    k := if a >= 0.0 then n else -n;
  }

  /** The clinical angle is the ground-referenced form of the anatomical angle. */
  lemma ClinicalIsGroundOfAnatomical(a: real)
    ensures ClinicalAngle(a) == VerticalToGround(AnatomicalAngle(a))
  {
  }

  lemma VerticalToGroundExample()
    ensures VerticalToGround(33.0) == 57.0
  {
  }

  /** The conversion maps [0, 90] onto itself, reverses order and is its own inverse. */
  lemma VerticalToGroundProperties(v: real, w: real)
    ensures 0.0 <= v <= 90.0 ==> 0.0 <= VerticalToGround(v) <= 90.0
    ensures v <= w ==> VerticalToGround(w) <= VerticalToGround(v)
    ensures VerticalToGround(VerticalToGround(v)) == v
  {
  }

  /** Two image angles half a turn apart, as atan2 gives for a vector and its reverse. */
  predicate HalfTurnApart(a: real, b: real) {
    b == a + 180.0 || b == a - 180.0
  }

  /** Reversing a vector changes its clinical angle not at all, given that atan2
      answers half a turn apart for the vector and its reverse. */
  lemma ClinicalAngleOfReversedVector(v: Point, atan2: Atan2Degrees)
    requires HalfTurnApart(AngleFromVertical(v, atan2), AngleFromVertical(Neg(v), atan2))
    ensures ClinicalAngle(AngleFromVertical(Neg(v), atan2)) == ClinicalAngle(AngleFromVertical(v, atan2))
  {
    var a: real, b: real := AngleFromVertical(v, atan2), AngleFromVertical(Neg(v), atan2);
    if b == a + 180.0 {
      AnatomicalAnglePeriodic(a);
    } else {
      AnatomicalAnglePeriodic(b);
    }
  }
}

=== FILE: normalize_coco.dfy ===
/** The area and crowd-flag fix of `normalize_coco_points.py`: every annotation
    without an area gets the area of its bbox, and every annotation without
    an `iscrowd` flag gets 0. */
module NormalizeCoco {
  import opened Wrappers
  import opened Coco

  /** The annotations without an area, in order. */
  function LackingArea(anns: seq<Annotation>): (r: seq<Annotation>)
    ensures forall a :: a in r <==> a in anns && a.area.None?
    ensures |r| <= |anns|
  {
    if |anns| == 0 then []
    else (if anns[0].area.None? then [anns[0]] else []) + LackingArea(anns[1..])
  }

  lemma {:induction false} LackingAreaConcat(xs: seq<Annotation>, ys: seq<Annotation>)
    ensures LackingArea(xs + ys) == LackingArea(xs) + LackingArea(ys)
  {
    if |xs| > 0 {
      assert (xs + ys)[1..] == xs[1..] + ys;
      LackingAreaConcat(xs[1..], ys);
    } else {
      assert xs + ys == ys;
    }
  }

  /** The loop body for one annotation. An annotation without an area must
      have a bbox of exactly four values, whose last two are multiplied;
      one with an area is not looked at beyond its `iscrowd` flag. */
  function NormalizeOne(ann: Annotation): (r: Result<Annotation, CocoError>)
    ensures r.Failure? <==> ann.area.None? && (ann.bbox.None? || |ann.bbox.value| != 4)
    ensures r.Failure? ==> r.error == if ann.bbox.None? then MissingKey("bbox") else Unpack(|ann.bbox.value|)
    ensures r.Success? ==> r.value.area.Some?
    ensures r.Success? && ann.area.Some? ==> r.value.area == ann.area
    ensures r.Success? && ann.area.None? ==> r.value.area == Some(ann.bbox.value[2] * ann.bbox.value[3])
    ensures r.Success? ==> r.value.iscrowd == Some(ann.iscrowd.GetOr(0))
    ensures r.Success? ==> r.value.(area := ann.area, iscrowd := ann.iscrowd) == ann
  {
    var withArea :-
      if ann.area.Some? then Success(ann)
      else if ann.bbox.None? then Failure(MissingKey("bbox"))
      else if |ann.bbox.value| != 4 then Failure(Unpack(|ann.bbox.value|))
      else Success(ann.(area := Some(ann.bbox.value[2] * ann.bbox.value[3])));
    Success(if withArea.iscrowd.None? then withArea.(iscrowd := Some(0)) else withArea)
  }

  /** The rewritten annotations and the `fixed` count. */
  datatype Normalized = Normalized(annotations: seq<Annotation>, fixed: nat)

  /** The loop over the annotations, in order; the first one that raises
      ends it. */
  function NormalizeAll(anns: seq<Annotation>): (r: Result<Normalized, CocoError>)
    ensures r.Failure? <==> exists i :: 0 <= i < |anns| && NormalizeOne(anns[i]).Failure?
    ensures r.Success? ==> |r.value.annotations| == |anns|
    ensures r.Success? ==> forall i :: 0 <= i < |anns| ==> NormalizeOne(anns[i]) == Success(r.value.annotations[i])
    ensures r.Success? ==> r.value.fixed == |LackingArea(anns)|
  {
    if |anns| == 0 then Success(Normalized([], 0))
    else
      var init := anns[..|anns| - 1];
      var ann := anns[|anns| - 1];
      assert anns == init + [ann];
      assert forall i :: 0 <= i < |init| ==> init[i] == anns[i];
      LackingAreaConcat(init, [ann]);
      var prev :- NormalizeAll(init);
      var out :- NormalizeOne(ann);
      Success(Normalized(prev.annotations + [out], if ann.area.None? then prev.fixed + 1 else prev.fixed))
  }

  /** The error is that of the first annotation that raises. */
  lemma {:induction false} NormalizeAllFirstError(anns: seq<Annotation>, i: nat)
    requires i < |anns| && NormalizeOne(anns[i]).Failure?
    requires forall j :: 0 <= j < i ==> NormalizeOne(anns[j]).Success?
    ensures NormalizeAll(anns) == Failure(NormalizeOne(anns[i]).error)
  {
    var init := anns[..|anns| - 1];
    if i < |anns| - 1 {
      assert init[i] == anns[i];
      assert forall j :: 0 <= j < i ==> init[j] == anns[j];
      NormalizeAllFirstError(init, i);
    } else {
      assert forall j :: 0 <= j < |init| ==> init[j] == anns[j];
    }
  }

  /** What the script ends with: the file it rewrites and `fixed`. */
  datatype NormalizeReport = NormalizeReport(data: CocoFile, fixed: nat)

  /** The script on the loaded file. A file without "annotations" is written
      back as it was. */
  function Normalize(data: CocoFile): (r: Result<NormalizeReport, CocoError>)
    ensures data.annotations.None? ==> r == Success(NormalizeReport(data, 0))
    ensures r.Success? ==> r.value.data == data.(annotations := r.value.data.annotations)
    ensures r.Success? && data.annotations.Some? ==>
              && r.value.data.annotations.Some?
              && |r.value.data.annotations.value| == |data.annotations.value|
              && r.value.fixed == |LackingArea(data.annotations.value)|
              && forall i :: 0 <= i < |data.annotations.value| ==>
                   NormalizeOne(data.annotations.value[i]) == Success(r.value.data.annotations.value[i])
  {
    if data.annotations.None? then Success(NormalizeReport(data, 0))
    else
      var out :- NormalizeAll(data.annotations.value);
      Success(NormalizeReport(data.(annotations := Some(out.annotations)), out.fixed))
  }

  /** An annotation already normalised is left as it is. */
  lemma NormalizeOneIdempotent(ann: Annotation)
    requires NormalizeOne(ann).Success?
    ensures NormalizeOne(NormalizeOne(ann).value) == NormalizeOne(ann)
  {
  }

  /** A second run changes nothing and fixes no annotation. */
  lemma {:induction false} NormalizeAllIdempotent(anns: seq<Annotation>)
    requires NormalizeAll(anns).Success?
    ensures var once := NormalizeAll(anns).value.annotations;
            NormalizeAll(once) == Success(Normalized(once, 0))
  {
    if |anns| > 0 {
      var init := anns[..|anns| - 1];
      var ann := anns[|anns| - 1];
      assert forall i :: 0 <= i < |init| ==> init[i] == anns[i];
      NormalizeAllIdempotent(init);
      var once := NormalizeAll(anns).value.annotations;
      assert once[..|once| - 1] == NormalizeAll(init).value.annotations;
      NormalizeOneIdempotent(ann);
    }
  }

  /** The script is idempotent on the whole file: the second run writes the
      same file and reports 0 fixed. */
  lemma NormalizeIdempotent(data: CocoFile)
    requires Normalize(data).Success?
    ensures Normalize(Normalize(data).value.data) == Success(NormalizeReport(Normalize(data).value.data, 0))
  {
    if data.annotations.Some? {
      NormalizeAllIdempotent(data.annotations.value);
    }
  }
}

=== FILE: notes.dfy ===
/** `map_leg_notes(score)`, the older note table: imported by the v2 route but
    never called, and cut at other thresholds than the clinical bands. */
module Notes {
  import opened Wrappers
  import opened Clinical

  /** The four legacy notes, most reassuring first. */
  function LegacyNoteText(level: nat): string
    requires level < 4
  {
    if level == 0 then "Horse seems HEALTHY!"
    else if level == 1 then "No immediate concern on this leg"
    else if level == 2 then "Need a regular checkup on this leg"
    else "Immediate checkup required"
  }

  /** The legacy level of a score: above 7, [5, 7], [3, 5), below 3. */
  function LegacyLevel(score: real): (level: nat)
    ensures level < 4
    ensures level == 0 <==> score > 7.0
    ensures level == 1 <==> 5.0 <= score <= 7.0
    ensures level == 2 <==> 3.0 <= score < 5.0
    ensures level == 3 <==> score < 3.0
  {
    if score > 7.0 then 0 else if score >= 5.0 then 1 else if score >= 3.0 then 2 else 3
  }

  /** `map_leg_notes(score)`: every score gets exactly one of the four notes. */
  function MapLegNotes(score: real): (r: string)
    ensures r == LegacyNoteText(LegacyLevel(score))
  {
    if score > 7.0 then "Horse seems HEALTHY!"
    else if score >= 5.0 then "No immediate concern on this leg"
    else if score >= 3.0 then "Need a regular checkup on this leg"
    else "Immediate checkup required"
  }

  /** A higher score never gets a more worrying note. */
  lemma LegacyLevelMonotone(s: real, t: real)
    requires s <= t
    ensures LegacyLevel(t) <= LegacyLevel(s)
  {
  }

  /** The boundaries: 7 is not yet healthy, 5 and 3 belong to the band above. */
  lemma LegacyNotesBoundaries()
    ensures MapLegNotes(7.0) == "No immediate concern on this leg"
    ensures MapLegNotes(7.5) == "Horse seems HEALTHY!"
    ensures MapLegNotes(5.0) == "No immediate concern on this leg"
    ensures MapLegNotes(3.0) == "Need a regular checkup on this leg"
    ensures MapLegNotes(2.5) == "Immediate checkup required"
  {
  }

  /** The legacy table and the clinical bands disagree: a score of 5 is of no
      immediate concern to the first and poor alignment to the second, and 8 is
      healthy to the first but only acceptable to the second. */
  lemma LegacyTableConflictsWithClinical()
    ensures LegacyLevel(5.0) == 1 && BandOf(5.0) == Poor
    ensures LegacyLevel(8.0) == 0 && BandOf(8.0) == Acceptable
  {
  }
}

=== FILE: numerics.dfy ===
/** Python's numeric built-ins over exact reals: `abs`, `min`, `max`, the float
    remainder `%`, `int()` (truncation toward zero), `round(x)` (nearest integer,
    ties to even) and `round(x, n)` (n decimal places). Binary floating point is
    not modelled: every value is an exact real. */
module Numerics {

  function Abs(x: real): real {
    if x < 0.0 then -x else x
  }

  function Min(a: real, b: real): real {
    if a <= b then a else b
  }

  function Max(a: real, b: real): real {
    if a >= b then a else b
  }

  /** Python's `x % 180.0`: the result takes the sign of the divisor, so it lies
      in [0, 180) and differs from x by a whole multiple of 180. */
  function Mod180(x: real): (r: real)
    ensures 0.0 <= r < 180.0
    ensures ((x - r) / 180.0).Floor as real * 180.0 == x - r
  {
    x - (x / 180.0).Floor as real * 180.0
  }

  /** `int(x)`: truncation toward zero. */
  function Trunc(x: real): (r: int)
    ensures x >= 0.0 ==> r as real <= x < r as real + 1.0
    ensures x < 0.0 ==> r as real - 1.0 < x <= r as real
  {
    if x >= 0.0 then x.Floor else -((-x).Floor)
  }

  /** `round(x)`: the nearest integer, and the even one of two equally near. */
  function RoundHalfEven(x: real): (r: int)
    ensures -0.5 <= x - r as real <= 0.5
    ensures (x - r as real == 0.5 || r as real - x == 0.5) ==> r % 2 == 0
  {
    var f := x.Floor;
    var d := x - f as real;
    if d < 0.5 then f
    else if d > 0.5 then f + 1
    else if f % 2 == 0 then f else f + 1
  }

  /** The two properties in RoundHalfEven's contract pin its result down: no other
      integer is as near to x with the tie rule respected. */
  lemma RoundHalfEvenUnique(x: real, n: int)
    requires -0.5 <= x - n as real <= 0.5
    requires (x - n as real == 0.5 || n as real - x == 0.5) ==> n % 2 == 0
    ensures RoundHalfEven(x) == n
  {
  }

  lemma RoundHalfEvenOfInt(n: int)
    ensures RoundHalfEven(n as real) == n
  {
  }

  /** Rounding never reverses the order of two values. */
  lemma RoundHalfEvenMonotone(x: real, y: real)
    requires x <= y
    ensures RoundHalfEven(x) <= RoundHalfEven(y)
  {
    var rx, ry := RoundHalfEven(x), RoundHalfEven(y);
    if x < y {
      assert rx as real - 0.5 <= x < y <= ry as real + 0.5;
    }
  }

  /** `round(x, 1)`: x rounded half-to-even at the first decimal place. */
  function RoundTenths(x: real): (r: real)
    ensures Abs(r - x) <= 0.05
    ensures r * 10.0 == (r * 10.0).Floor as real
  {
    var n := RoundHalfEven(x * 10.0);
    assert n as real / 10.0 * 10.0 == n as real;
    assert -0.5 <= x * 10.0 - n as real <= 0.5;
    n as real / 10.0
  }

  /** `round(x, 2)`: x rounded half-to-even at the second decimal place. */
  function RoundHundredths(x: real): (r: real)
    ensures Abs(r - x) <= 0.005
    ensures r * 100.0 == (r * 100.0).Floor as real
  {
    var n := RoundHalfEven(x * 100.0);
    assert n as real / 100.0 * 100.0 == n as real;
    assert -0.5 <= x * 100.0 - n as real <= 0.5;
    n as real / 100.0
  }

  /** Rounding to hundredths keeps a value inside any interval whose ends are
      whole numbers: such ends are themselves fixed points of the rounding. */
  lemma RoundHundredthsWithin(x: real, lo: int, hi: int)
    requires lo as real <= x <= hi as real
    ensures lo as real <= RoundHundredths(x) <= hi as real
  {
    RoundHalfEvenOfInt(lo * 100);
    RoundHalfEvenOfInt(hi * 100);
    RoundHalfEvenMonotone(lo as real * 100.0, x * 100.0);
    RoundHalfEvenMonotone(x * 100.0, hi as real * 100.0);
  }

  /** A value that is already a whole number of hundredths is unchanged. */
  lemma RoundHundredthsExact(x: real, n: int)
    requires x * 100.0 == n as real
    ensures RoundHundredths(x) == x
  {
    RoundHalfEvenOfInt(n);
  }

  lemma RoundHundredthsNonNegative(x: real)
    requires x >= 0.0
    ensures RoundHundredths(x) >= 0.0
  {
    RoundHalfEvenOfInt(0);
    RoundHalfEvenMonotone(0.0, x * 100.0);
  }
}

=== FILE: pre_annotations.dfy ===
/** The two-pass pre-annotation run: each selected image gets an image entry
    and one annotation whose four keypoints come from a detection on a
    512-pixel copy, refined by a second detection on a crop around the first
    result, with a fallback to the first result when the crop is too small
    and a fixed cluster at the image centre when nothing was detected. Image
    decoding and the keypoint network are parameters. */
module PreAnnotations {
  import opened Wrappers
  import opened Numerics
  import opened Stats
  import opened Geometry
  import opened Coco
  import opened FixBbox
  import opened FileSelection
  import CvatParser
  import NormalizeCoco

  type Pos = n: int | n > 0 witness 1

  /** The size of a decoded image, in pixels. */
  datatype Dims = Dims(width: Pos, height: Pos)

  /** `cv2.imread`: the size of the named image, or None when it cannot be
      read. */
  type Reader = string -> Option<Dims>

  /** What the network is shown: the whole image resized to the given size,
      or the crop of the full image at (x, y) of the given size. */
  datatype View =
    | LowRes(width: int, height: int)
    | Crop(x: int, y: int, width: int, height: int)

  /** The keypoint network on a view of the named image: the first instance's
      four keypoints, in the view's pixel coordinates, or None when it finds
      no instance. */
  type Detector = (string, View) -> Option<Quad>

  /** The long side of the first pass's copy. */
  const LowResSide: real := 512.0

  /** The share of the detected extent added on each side of the crop. */
  const CropMargin: real := 0.25

  /** A crop side must exceed this many pixels for the second pass to run. */
  const MinCropSide: int := 10

  /** Half the side of the centre cluster. */
  const CentreOffset: int := 100

  /** `512.0 / max(h, w)`. */
  function DownScale(d: Dims): (s: real)
    ensures s > 0.0
  {
    LowResSide / Max(d.width as real, d.height as real)
  }

  /** The first pass's copy: `(int(w * scale), int(h * scale))`. */
  function LowResView(d: Dims): View {
    LowRes(Trunc(d.width as real * DownScale(d)), Trunc(d.height as real * DownScale(d)))
  }

  /** The copy's long side is exactly 512 pixels and its other side at most
      that. */
  lemma LowResLongSide(d: Dims)
    ensures var v := LowResView(d);
            && 0 <= v.width <= 512 && 0 <= v.height <= 512
            && (v.width == 512 || v.height == 512)
            && (d.width >= d.height ==> v.width == 512)
            && (d.height >= d.width ==> v.height == 512)
  {
    var w, h := d.width as real, d.height as real;
    var s := DownScale(d);
    if w >= h {
      assert s == LowResSide / w;
      ScaledSides(w, h, s);
    } else {
      assert s == LowResSide / h;
      ScaledSides(h, w, s);
    }
  }

  /** Scaling by 512 over the long side: the long side becomes 512, the
      other at most that. */
  lemma ScaledSides(long: real, short: real, s: real)
    requires 0.0 < short <= long && s == LowResSide / long
    ensures Trunc(long * s) == 512
    ensures 0 <= Trunc(short * s) <= 512
  {
    assert long * s == LowResSide;
    assert 0.0 <= short * s <= long * s;
  }

  /** `kpts_low / scale`: a point of the copy in full-image coordinates. */
  function ToGlobal(p: Point, s: real): (g: Point)
    requires s > 0.0
    ensures g.x * s == p.x && g.y * s == p.y
  {
    Point(p.x / s, p.y / s)
  }

  /** The four keypoints of a set, P1..P4. */
  function Corners(q: Quad): (ps: seq<Point>)
    ensures |ps| == 4 && forall i :: 0 <= i < 4 ==> ps[i] == Corner(q, i)
  {
    [q.pasternTop, q.pasternBottom, q.hoofTop, q.toe]
  }

  function ToGlobalAll(ps: seq<Point>, s: real): (gs: seq<Point>)
    requires s > 0.0
    ensures |gs| == |ps| && forall i :: 0 <= i < |ps| ==> gs[i] == ToGlobal(ps[i], s)
  {
    if |ps| == 0 then [] else [ToGlobal(ps[0], s)] + ToGlobalAll(ps[1..], s)
  }

  /** The points as keypoints, so that the extent is the box the bbox
      rebuild uses; the visibility does not enter it. */
  function AsKeypoints(ps: seq<Point>): (ks: seq<Keypoint>)
    ensures |ks| == |ps| && forall i :: 0 <= i < |ps| ==> ks[i].x == ps[i].x && ks[i].y == ps[i].y
  {
    if |ps| == 0 then [] else [Keypoint(ps[0].x, ps[0].y, 2.0)] + AsKeypoints(ps[1..])
  }

  /** `np.min` and `np.max` along each axis: the smallest box holding the
      points, each side touching one of them. */
  function Extent(ps: seq<Point>): (b: Bounds)
    requires |ps| > 0
    ensures forall i :: 0 <= i < |ps| ==> b.Contains(ps[i].x, ps[i].y)
    ensures exists i :: 0 <= i < |ps| && ps[i].x == b.xMin
    ensures exists i :: 0 <= i < |ps| && ps[i].x == b.xMax
    ensures exists i :: 0 <= i < |ps| && ps[i].y == b.yMin
    ensures exists i :: 0 <= i < |ps| && ps[i].y == b.yMax
  {
    var ks := AsKeypoints(ps);
    assert forall i :: 0 <= i < |ps| ==> ks[i] in ks;
    Tight(ks)
  }

  /** The crop region: the extent widened by a quarter of its width on the
      left and right and a quarter of its height above and below, then cut to
      [0, w] x [0, h]. */
  function CropRegion(b: Bounds, d: Dims): (c: Bounds)
    requires b.xMin <= b.xMax && b.yMin <= b.yMax
    ensures 0.0 <= c.xMin && 0.0 <= c.yMin && c.xMax <= d.width as real && c.yMax <= d.height as real
    ensures var left := b.xMin - CropMargin * b.Width();
            c.xMin == if left < 0.0 then 0.0 else left
    ensures var top := b.yMin - CropMargin * b.Height();
            c.yMin == if top < 0.0 then 0.0 else top
    ensures var right := b.xMax + CropMargin * b.Width();
            c.xMax == if right > d.width as real then d.width as real else right
    ensures var bottom := b.yMax + CropMargin * b.Height();
            c.yMax == if bottom > d.height as real then d.height as real else bottom
    ensures 0.0 <= b.xMin - CropMargin * b.Width() && b.xMax + CropMargin * b.Width() <= d.width as real ==>
              c.Width() == (1.0 + 2.0 * CropMargin) * b.Width()
    ensures 0.0 <= b.yMin - CropMargin * b.Height() && b.yMax + CropMargin * b.Height() <= d.height as real ==>
              c.Height() == (1.0 + 2.0 * CropMargin) * b.Height()
  {
    var cw, ch := b.Width(), b.Height();
    Bounds(Max(0.0, b.xMin - cw * CropMargin), Max(0.0, b.yMin - ch * CropMargin),
           Min(d.width as real, b.xMax + cw * CropMargin), Min(d.height as real, b.yMax + ch * CropMargin))
  }

  /** A point of the extent that lies in the image lies in the crop region. */
  lemma CropRegionKeepsInside(b: Bounds, d: Dims, x: real, y: real)
    requires b.xMin <= b.xMax && b.yMin <= b.yMax
    requires b.Contains(x, y)
    requires 0.0 <= x <= d.width as real && 0.0 <= y <= d.height as real
    ensures CropRegion(b, d).Contains(x, y)
  {
  }

  /** `zx, zy, zw, zh`: the region truncated to whole pixels. The crop starts
      inside the image and, when it is not empty, ends inside it too. */
  function ZoomWindow(c: Bounds, d: Dims): (v: View)
    requires 0.0 <= c.xMin && 0.0 <= c.yMin && c.xMax <= d.width as real && c.yMax <= d.height as real
    ensures v.Crop? && v.x >= 0 && v.y >= 0
    ensures v.width >= 0 ==> v.x + v.width <= d.width
    ensures v.height >= 0 ==> v.y + v.height <= d.height
  {
    Crop(Trunc(c.xMin), Trunc(c.yMin), Trunc(c.xMax - c.xMin), Trunc(c.yMax - c.yMin))
  }

  /** The crop the second pass looks at, given the first pass's keypoints. */
  function RefinementWindow(low: Quad, d: Dims): (v: View)
    ensures v.Crop? && v.x >= 0 && v.y >= 0
    ensures v.width >= 0 ==> v.x + v.width <= d.width
    ensures v.height >= 0 ==> v.y + v.height <= d.height
  {
    var e := Extent(ToGlobalAll(Corners(low), DownScale(d)));
    assert e.xMin <= e.xMax && e.yMin <= e.yMax by {
      var ps := ToGlobalAll(Corners(low), DownScale(d));
      assert e.Contains(ps[0].x, ps[0].y);
    }
    ZoomWindow(CropRegion(e, d), d)
  }

  /** `zw > 10 and zh > 10`. */
  predicate LargeEnough(v: View) {
    v.width > MinCropSide && v.height > MinCropSide
  }

  /** The point lies on a pixel of the image. */
  predicate OnImage(p: Point, d: Dims) {
    0.0 <= p.x <= d.width as real - 1.0 && 0.0 <= p.y <= d.height as real - 1.0
  }

  /** `min(max(0, p), last)` on both coordinates: the point moved onto the
      nearest pixel of the image; a point already on the image stays put. */
  function Place(p: Point, d: Dims): (r: Point)
    ensures OnImage(r, d)
    ensures r == p <==> OnImage(p, d)
  {
    Point(Min(Max(0.0, p.x), d.width as real - 1.0), Min(Max(0.0, p.y), d.height as real - 1.0))
  }

  /** Every point shifted by (dx, dy) and placed on the image. */
  function PlaceAll(ps: seq<Point>, dx: real, dy: real, d: Dims): (rs: seq<Point>)
    ensures |rs| == |ps|
    ensures forall i :: 0 <= i < |ps| ==> rs[i] == Place(Point(ps[i].x + dx, ps[i].y + dy), d)
  {
    if |ps| == 0 then [] else [Place(Point(ps[0].x + dx, ps[0].y + dy), d)] + PlaceAll(ps[1..], dx, dy, d)
  }

  /** Where the four keypoints of an image come from. */
  datatype Placement =
    | Refined(points: seq<Point>)
    | Fallback(points: seq<Point>)
    | CentreCluster

  /** The second pass, once the first found keypoints `low`: the refined
      points are the second pass's keypoints moved by the crop's offset, the
      fallback points (crop too small) are the first pass's keypoints scaled
      back to the full image; both are placed on the image. A large enough
      crop on which nothing is found leaves the centre cluster. */
  function SecondPass(fname: string, d: Dims, detect: Detector, low: Quad): (r: Placement)
    ensures !r.CentreCluster? ==> |r.points| == 4 && forall i :: 0 <= i < 4 ==> OnImage(r.points[i], d)
    ensures var win := RefinementWindow(low, d);
            && (r.Refined? <==> LargeEnough(win) && detect(fname, win).Some?)
            && (r.Fallback? <==> !LargeEnough(win))
            && (r.Refined? ==> r.points == PlaceAll(Corners(detect(fname, win).value), win.x as real, win.y as real, d))
            && (r.Fallback? ==> r.points == PlaceAll(ToGlobalAll(Corners(low), DownScale(d)), 0.0, 0.0, d))
  {
    var win := RefinementWindow(low, d);
    if LargeEnough(win) then
      match detect(fname, win)
      case None => CentreCluster
      case Some(high) => Refined(PlaceAll(Corners(high), win.x as real, win.y as real, d))
    else
      Fallback(PlaceAll(ToGlobalAll(Corners(low), DownScale(d)), 0.0, 0.0, d))
  }

  /** The two passes on one image: nothing found on the low-resolution copy
      leaves the centre cluster; otherwise the second pass decides. */
  function Locate(fname: string, d: Dims, detect: Detector): (r: Placement)
    ensures !r.CentreCluster? ==> |r.points| == 4 && forall i :: 0 <= i < 4 ==> OnImage(r.points[i], d)
    ensures detect(fname, LowResView(d)).None? ==> r.CentreCluster?
    ensures detect(fname, LowResView(d)).Some? ==> r == SecondPass(fname, d, detect, detect(fname, LowResView(d)).value)
  {
    match detect(fname, LowResView(d))
    case None => CentreCluster
    case Some(low) => SecondPass(fname, d, detect, low)
  }

  /** A crop that starts and ends inside the image, as the refinement
      window does. */
  predicate InsideImage(win: View, d: Dims) {
    win.Crop? && win.x >= 0 && win.y >= 0 && win.x + win.width <= d.width && win.y + win.height <= d.height
  }

  /** A second-pass keypoint that falls inside the crop is kept exactly, only
      moved by the crop's offset. */
  lemma RefinedPointInsideCrop(low: Quad, d: Dims, p: Point)
    requires var win := RefinementWindow(low, d);
             0.0 <= p.x <= win.width as real - 1.0 && 0.0 <= p.y <= win.height as real - 1.0
    ensures var win := RefinementWindow(low, d);
            var shifted := Point(p.x + win.x as real, p.y + win.y as real);
            OnImage(shifted, d) && Place(shifted, d) == shifted
  {
    var win := RefinementWindow(low, d);
    assert InsideImage(win, d);
    CropPointOnImage(win, d, p);
  }

  lemma CropPointOnImage(win: View, d: Dims, p: Point)
    requires InsideImage(win, d)
    requires 0.0 <= p.x <= win.width as real - 1.0 && 0.0 <= p.y <= win.height as real - 1.0
    ensures OnImage(Point(p.x + win.x as real, p.y + win.y as real), d)
  {
  }

  /** `round(v, 2)` on both coordinates. */
  function RoundPoint(p: Point): (r: Point)
    ensures Abs(r.x - p.x) <= 0.005 && Abs(r.y - p.y) <= 0.005
  {
    Point(RoundHundredths(p.x), RoundHundredths(p.y))
  }

  function RoundAll(ps: seq<Point>): (rs: seq<Point>)
    ensures |rs| == |ps| && forall i :: 0 <= i < |ps| ==> rs[i] == RoundPoint(ps[i])
  {
    if |ps| == 0 then [] else [RoundPoint(ps[0])] + RoundAll(ps[1..])
  }

  /** The centre cluster: a square of side 200 around `(w // 2, h // 2)`, in
      the order top-left, top-right, bottom-left, bottom-right; it is not
      placed on the image. */
  function CentrePoints(d: Dims): (ps: seq<Point>)
    ensures |ps| == 4
    ensures forall i :: 0 <= i < 4 ==>
              Abs(ps[i].x - (d.width / 2) as real) == CentreOffset as real &&
              Abs(ps[i].y - (d.height / 2) as real) == CentreOffset as real
  {
    var cx, cy := d.width / 2, d.height / 2;
    [Point((cx - CentreOffset) as real, (cy - CentreOffset) as real),
     Point((cx + CentreOffset) as real, (cy - CentreOffset) as real),
     Point((cx - CentreOffset) as real, (cy + CentreOffset) as real),
     Point((cx + CentreOffset) as real, (cy + CentreOffset) as real)]
  }

  /** The centre cluster lies on the image exactly when both sides are at
      least 201 pixels; on a smaller image some of its keypoints are off the
      image. */
  lemma CentrePointsOnImage(d: Dims)
    ensures (forall i :: 0 <= i < 4 ==> OnImage(CentrePoints(d)[i], d)) <==> d.width >= 201 && d.height >= 201
  {
    var ps := CentrePoints(d);
    if d.width < 201 {
      assert !(0.0 <= ps[0].x && ps[3].x <= d.width as real - 1.0);
    } else if d.height < 201 {
      assert !(0.0 <= ps[0].y && ps[3].y <= d.height as real - 1.0);
    }
  }

  /** The flat keypoint list: each point as x, y and visibility 2. */
  function Flatten(ps: seq<Point>): (kp: seq<real>)
    ensures |kp| == 3 * |ps|
    ensures forall i :: 0 <= i < |ps| ==> kp[3 * i] == ps[i].x && kp[3 * i + 1] == ps[i].y && kp[3 * i + 2] == 2.0
  {
    if |ps| == 0 then [] else [ps[0].x, ps[0].y, 2.0] + Flatten(ps[1..])
  }

  /** The keypoint list the annotation is written with. */
  function KeypointList(pl: Placement, d: Dims): (kp: seq<real>)
    requires !pl.CentreCluster? ==> |pl.points| == 4
    ensures |kp| == 12
  {
    match pl
    case CentreCluster => Flatten(CentrePoints(d))
    case _ => Flatten(RoundAll(pl.points))
  }

  /** The four points the written keypoint list reads back as. */
  function WrittenPoints(pl: Placement, d: Dims): (ps: seq<Point>)
    requires !pl.CentreCluster? ==> |pl.points| == 4
    ensures |ps| == 4
  {
    if pl.CentreCluster? then CentrePoints(d) else RoundAll(pl.points)
  }

  /** The flag object every new annotation carries. */
  const NewAttributes := Json("{\"occluded\": false, \"keyframe\": true}")

  /** The image entry of a newly read image. */
  function NewImage(id: int, fname: string, d: Dims): (img: Image)
    ensures img.id == id && img.fileName == fname
    ensures img.width == d.width && img.height == d.height
  {
    Image(id, d.width, d.height, fname)
  }

  /** The annotation entry of a newly read image: category 1, four visible
      keypoints, a bbox over the whole image and a tenth of the image as its
      area. */
  function NewAnnotation(id: int, imageId: int, d: Dims, pl: Placement): (ann: Annotation)
    requires !pl.CentreCluster? ==> |pl.points| == 4
    ensures ann.id == id && ann.imageId == imageId
    ensures ann.categoryId == Some(1) && ann.numKeypoints == Some(4) && ann.iscrowd == Some(0)
    ensures ann.keypoints == Some(KeypointList(pl, d))
    ensures ann.bbox == Some([0.0, 0.0, d.width as real, d.height as real])
    ensures ann.area == Some((d.width * d.height) as real / 10.0)
  {
    var area := (d.width * d.height) as real * 0.1;
    RoundHundredthsExact(area, 10 * d.width * d.height);
    Annotation(id, imageId, Some(1), Some(KeypointList(pl, d)), Some(4),
               Some([0.0, 0.0, d.width as real, d.height as real]),
               Some(RoundHundredths(area)), Some(0), Some(EmptyList), Some(NewAttributes))
  }

  /** A new annotation reads back through the CVAT loader as its four
      written points. */
  lemma NewAnnotationLoads(id: int, imageId: int, d: Dims, pl: Placement)
    requires !pl.CentreCluster? ==> |pl.points| == 4
    ensures var ann := NewAnnotation(id, imageId, d, pl);
            var ps := WrittenPoints(pl, d);
            && CvatParser.HasFourKeypoints(ann)
            && CvatParser.QuadOf(CvatParser.KeypointValues(ann)) == Quad(ps[0], ps[1], ps[2], ps[3])
  {
    var ann := NewAnnotation(id, imageId, d, pl);
    var ps := WrittenPoints(pl, d);
    var kp := CvatParser.KeypointValues(ann);
    assert kp == Flatten(ps);
    var q := CvatParser.QuadOf(kp);
    forall i | 0 <= i < 4 ensures Corner(q, i) == ps[i] {
      assert kp[3 * i] == ps[i].x && kp[3 * i + 1] == ps[i].y;
    }
    assert q.pasternTop == Corner(q, 0) && q.pasternBottom == Corner(q, 1) && q.hoofTop == Corner(q, 2) && q.toe == Corner(q, 3);
  }

  /** A new annotation is already in the form the area normalisation
      produces: it leaves it unchanged. */
  lemma NewAnnotationNormalized(id: int, imageId: int, d: Dims, pl: Placement)
    requires !pl.CentreCluster? ==> |pl.points| == 4
    ensures NormalizeCoco.NormalizeOne(NewAnnotation(id, imageId, d, pl)) == Success(NewAnnotation(id, imageId, d, pl))
  {
  }

  /** What the loop writes for one read image: the annotation with the given
      id for the image with the given id, file name and size. */
  type Annotator = (int, int, string, Dims) -> Annotation

  /** The pre-annotation: keypoints located by the two passes. */
  function PreAnnotator(detect: Detector): Annotator {
    (id: int, imageId: int, fname: string, d: Dims) => NewAnnotation(id, imageId, d, Locate(fname, d, detect))
  }

  /** The image entry was made for the selected file whose position its id
      encodes, and that file was read with the entry's size. */
  predicate EntryFor(files: seq<string>, maxImg: int, read: Reader, img: Image) {
    var i := img.id - maxImg - 1;
    && 0 <= i < |files|
    && files[i] == img.fileName
    && read(files[i]).Some?
    && read(files[i]).value.width == img.width && read(files[i]).value.height == img.height
  }

  /** The entries the run appends, in order. */
  datatype Batch = Batch(images: seq<Image>, annotations: seq<Annotation>)

  /** The loop over the selected files. The file at position i, when it can
      be read, gets image id `maxImg + 1 + i` and an annotation with the next
      annotation id; an unreadable file is skipped and its image id is left
      unused. */
  function ProcessFiles(files: seq<string>, maxImg: int, maxAnn: int, read: Reader, annotate: Annotator): (b: Batch)
    ensures |b.annotations| == |b.images| == Readable(files, read)
    ensures forall k :: 0 <= k < |b.images| ==> EntryFor(files, maxImg, read, b.images[k])
    ensures forall k, l :: 0 <= k < l < |b.images| ==> b.images[k].id < b.images[l].id
    ensures forall k :: 0 <= k < |b.images| ==>
              var img := b.images[k];
              read(img.fileName).Some? &&
              b.annotations[k] == annotate(maxAnn + 1 + k, img.id, img.fileName, read(img.fileName).value)
  {
    if |files| == 0 then Batch([], [])
    else
      var init := files[..|files| - 1];
      var f := files[|files| - 1];
      assert forall i :: 0 <= i < |init| ==> init[i] == files[i];
      var prev := ProcessFiles(init, maxImg, maxAnn, read, annotate);
      match read(f)
      case None => prev
      case Some(d) =>
        var img := NewImage(maxImg + 1 + |init|, f, d);
        Batch(prev.images + [img], prev.annotations + [annotate(maxAnn + 1 + |prev.annotations|, img.id, f, d)])
  }

  /** The number of files the reader can read. */
  function Readable(files: seq<string>, read: Reader): (n: nat)
    ensures n <= |files|
  {
    if |files| == 0 then 0
    else Readable(files[..|files| - 1], read) + (if read(files[|files| - 1]).Some? then 1 else 0)
  }

  /** Every readable file gets its image entry, placed after the entries of
      the readable files before it. */
  lemma {:induction false} ProcessFilesPlacesReadable(files: seq<string>, maxImg: int, maxAnn: int, read: Reader, annotate: Annotator, i: nat)
    requires i < |files| && read(files[i]).Some?
    ensures Readable(files[..i], read) < |ProcessFiles(files, maxImg, maxAnn, read, annotate).images|
    ensures ProcessFiles(files, maxImg, maxAnn, read, annotate).images[Readable(files[..i], read)] ==
            NewImage(maxImg + 1 + i, files[i], read(files[i]).value)
  {
    var b := ProcessFiles(files, maxImg, maxAnn, read, annotate);
    var init := files[..|files| - 1];
    var prev := ProcessFiles(init, maxImg, maxAnn, read, annotate);
    var f := files[|files| - 1];
    if read(f).Some? {
      assert b.images == prev.images + [NewImage(maxImg + 1 + |init|, f, read(f).value)];
    } else {
      assert b == prev;
    }
    if i < |files| - 1 {
      assert init[i] == files[i] && init[..i] == files[..i];
      ProcessFilesPlacesReadable(init, maxImg, maxAnn, read, annotate, i);
    } else {
      assert files[..i] == init;
    }
  }

  /** `max(x['id'] for x in xs) if xs else 0`. */
  function MaxId<T>(xs: seq<T>, key: T -> int): (m: int)
    ensures |xs| == 0 ==> m == 0
    ensures forall i :: 0 <= i < |xs| ==> key(xs[i]) <= m
    ensures |xs| > 0 ==> exists i :: 0 <= i < |xs| && key(xs[i]) == m
  {
    if |xs| == 0 then 0
    else if |xs| == 1 then key(xs[0])
    else
      var rest := MaxId(xs[1..], key);
      if key(xs[0]) >= rest then key(xs[0]) else rest
  }

  /** The run on the loaded base file, the directory listing, the image
      reader and the network. The file keeps everything it had and gains as
      many annotations as images. */
  function Generate(coco: CocoFile, listing: seq<string>, read: Reader, detect: Detector): (r: Result<CocoFile, CocoError>)
    ensures coco.images.None? ==> r == Failure(MissingKey("images"))
    ensures coco.images.Some? && coco.annotations.None? ==> r == Failure(MissingKey("annotations"))
    ensures coco.images.Some? && coco.annotations.Some? ==>
              (r.Failure? <==> SelectFiles(listing).Failure?) &&
              (r.Failure? ==> r.error == SelectFiles(listing).error)
    ensures r.Success? ==>
              var images, anns := coco.images.value, coco.annotations.value;
              && r.value.info == coco.info && r.value.categories == coco.categories
              && r.value.images.Some? && r.value.annotations.Some?
              && |images| <= |r.value.images.value| && r.value.images.value[..|images|] == images
              && |anns| <= |r.value.annotations.value| && r.value.annotations.value[..|anns|] == anns
              && |r.value.images.value| - |images| == |r.value.annotations.value| - |anns|
  {
    if coco.images.None? then Failure(MissingKey("images"))
    else if coco.annotations.None? then Failure(MissingKey("annotations"))
    else
      var images, anns := coco.images.value, coco.annotations.value;
      var files :- SelectFiles(listing);
      var b := ProcessFiles(files, MaxId(images, ImageId), MaxId(anns, AnnotationId), read, PreAnnotator(detect));
      Success(coco.(images := Some(images + b.images), annotations := Some(anns + b.annotations)))
  }

  /** The batch of the pre-annotation loop: one image entry per readable
      file, each readable file's entry among them, and with each image the
      annotation whose keypoints the two passes locate on it. */
  lemma PreAnnotatedBatch(files: seq<string>, maxImg: int, maxAnn: int, read: Reader, detect: Detector)
    ensures var b := ProcessFiles(files, maxImg, maxAnn, read, PreAnnotator(detect));
            && |b.images| == |b.annotations| == Readable(files, read)
            && (forall i :: 0 <= i < |files| && read(files[i]).Some? ==>
                  NewImage(maxImg + 1 + i, files[i], read(files[i]).value) in b.images)
            && (forall k :: 0 <= k < |b.annotations| ==>
                  var img := b.images[k];
                  read(img.fileName).Some? &&
                  b.annotations[k] == NewAnnotation(maxAnn + 1 + k, img.id, read(img.fileName).value,
                                                    Locate(img.fileName, read(img.fileName).value, detect)))
  {
    var b := ProcessFiles(files, maxImg, maxAnn, read, PreAnnotator(detect));
    forall i | 0 <= i < |files| && read(files[i]).Some?
      ensures NewImage(maxImg + 1 + i, files[i], read(files[i]).value) in b.images
    {
      ProcessFilesPlacesReadable(files, maxImg, maxAnn, read, PreAnnotator(detect), i);
    }
  }

  /** What a successful run appends is the batch of the pre-annotation loop
      over the selected files. */
  lemma GenerateAppendsBatch(coco: CocoFile, listing: seq<string>, read: Reader, detect: Detector)
    requires Generate(coco, listing, read, detect).Success?
    ensures var r := Generate(coco, listing, read, detect).value;
            var images, anns := coco.images.value, coco.annotations.value;
            var b := ProcessFiles(SelectFiles(listing).value, MaxId(images, ImageId), MaxId(anns, AnnotationId),
                                  read, PreAnnotator(detect));
            r.images.value[|images|..] == b.images && r.annotations.value[|anns|..] == b.annotations
  {
    var r := Generate(coco, listing, read, detect).value;
    var images, anns := coco.images.value, coco.annotations.value;
    var b := ProcessFiles(SelectFiles(listing).value, MaxId(images, ImageId), MaxId(anns, AnnotationId),
                          read, PreAnnotator(detect));
    assert r.images.value == images + b.images;
    assert r.annotations.value == anns + b.annotations;
  }

  /** A successful run adds exactly one image entry per readable selected
      file: the file at position i of the selection, with image id
      `max_img_id + 1 + i`; and as many annotations. */
  lemma GenerateAppendsEveryReadableFile(coco: CocoFile, listing: seq<string>, read: Reader, detect: Detector)
    requires Generate(coco, listing, read, detect).Success?
    ensures var r := Generate(coco, listing, read, detect).value;
            var images, anns := coco.images.value, coco.annotations.value;
            var newImages := r.images.value[|images|..];
            var files := SelectFiles(listing).value;
            && |newImages| == |r.annotations.value[|anns|..]| == Readable(files, read)
            && (forall i :: 0 <= i < |files| && read(files[i]).Some? ==>
                  NewImage(MaxId(images, ImageId) + 1 + i, files[i], read(files[i]).value) in newImages)
  {
    var r := Generate(coco, listing, read, detect).value;
    var images, anns := coco.images.value, coco.annotations.value;
    var files := SelectFiles(listing).value;
    var b := ProcessFiles(files, MaxId(images, ImageId), MaxId(anns, AnnotationId), read, PreAnnotator(detect));
    GenerateAppendsBatch(coco, listing, read, detect);
    PreAnnotatedBatch(files, MaxId(images, ImageId), MaxId(anns, AnnotationId), read, detect);
    assert r.images.value[|images|..] == b.images;
    assert r.annotations.value[|anns|..] == b.annotations;
  }

  /** Each annotation a successful run adds belongs to the new image at the
      same position, and holds the keypoints the two passes locate on it. */
  lemma GenerateAnnotatesLocatedKeypoints(coco: CocoFile, listing: seq<string>, read: Reader, detect: Detector)
    requires Generate(coco, listing, read, detect).Success?
    ensures var r := Generate(coco, listing, read, detect).value;
            var images, anns := coco.images.value, coco.annotations.value;
            var newImages, newAnns := r.images.value[|images|..], r.annotations.value[|anns|..];
            && |newImages| == |newAnns|
            && forall k :: 0 <= k < |newAnns| ==>
                 var img := newImages[k];
                 read(img.fileName).Some? &&
                 newAnns[k] == NewAnnotation(MaxId(anns, AnnotationId) + 1 + k, img.id, read(img.fileName).value,
                                             Locate(img.fileName, read(img.fileName).value, detect))
  {
    var r := Generate(coco, listing, read, detect).value;
    var images, anns := coco.images.value, coco.annotations.value;
    var files := SelectFiles(listing).value;
    var b := ProcessFiles(files, MaxId(images, ImageId), MaxId(anns, AnnotationId), read, PreAnnotator(detect));
    GenerateAppendsBatch(coco, listing, read, detect);
    PreAnnotatedBatch(files, MaxId(images, ImageId), MaxId(anns, AnnotationId), read, detect);
    assert r.images.value[|images|..] == b.images;
    assert r.annotations.value[|anns|..] == b.annotations;
  }

  /** The entries a successful run adds: images of selected files, each with
      an id larger than every id already in the file and larger than the
      one before it, so none collides; and annotations numbered on from the
      largest existing annotation id, each belonging to the new image at the
      same position. */
  lemma GenerateNewEntries(coco: CocoFile, listing: seq<string>, read: Reader, detect: Detector)
    requires Generate(coco, listing, read, detect).Success?
    ensures var r := Generate(coco, listing, read, detect).value;
            var images, anns := coco.images.value, coco.annotations.value;
            var newImages, newAnns := r.images.value[|images|..], r.annotations.value[|anns|..];
            && |newImages| == |newAnns|
            && (forall k :: 0 <= k < |newImages| ==>
                  IsNew(newImages[k].fileName) && newImages[k].fileName in listing &&
                  newImages[k].id > MaxId(images, ImageId))
            && (forall k, l :: 0 <= k < l < |newImages| ==> newImages[k].id < newImages[l].id)
            && (forall k :: 0 <= k < |newAnns| ==>
                  newAnns[k].id == MaxId(anns, AnnotationId) + 1 + k && newAnns[k].imageId == newImages[k].id)
  {
    var r := Generate(coco, listing, read, detect).value;
    var images, anns := coco.images.value, coco.annotations.value;
    var files := SelectFiles(listing).value;
    var maxImg, maxAnn := MaxId(images, ImageId), MaxId(anns, AnnotationId);
    var b := ProcessFiles(files, maxImg, maxAnn, read, PreAnnotator(detect));
    assert r.images.value == images + b.images;
    assert r.annotations.value == anns + b.annotations;
    assert r.images.value[|images|..] == b.images;
    assert r.annotations.value[|anns|..] == b.annotations;
    forall k | 0 <= k < |b.images|
      ensures IsNew(b.images[k].fileName) && b.images[k].fileName in listing && b.images[k].id > maxImg
    {
      assert EntryFor(files, maxImg, read, b.images[k]);
      assert b.images[k].fileName in files;
    }
  }
}

=== FILE: predictor.dfy ===
/** `HPAPredictor.predict`: probe four fixed crop zones with the keypoint network,
    keep the zone whose detection scores best under the sanity heuristic, gate on
    keypoint confidence, correct the keypoints and measure the pastern and hoof
    angles. The network is a parameter (`KeypointOracle`); so are image decoding
    and atan2. */
module Predictor {
  import opened Wrappers
  import opened Numerics
  import opened Geometry
  import opened Anatomy
  import Stats

  /** A candidate crop window: full image width, rows y1..y2. */
  datatype Zone = Zone(name: string, y1: int, y2: int)

  /** A crop box (x1, y1, x2, y2) in pixels. */
  datatype Box = Box(x1: real, y1: real, x2: real, y2: real)

  /** The per-keypoint confidences, parallel to the four keypoints. */
  type Scores = s: seq<real> | |s| == 4 witness [0.0, 0.0, 0.0, 0.0]

  /** What the network returns for one box: four keypoints and their scores. */
  datatype Detection = Detection(keypoints: Quad, scores: Scores)

  /** A decoded image: its size and its (uninterpreted) pixel content. */
  datatype Image = Image(width: nat, height: nat, pixels: seq<bv8>)

  /** `inference_topdown(model, img, bboxes=[box])[0]`, left uninterpreted. */
  type KeypointOracle = (Image, Box) -> Detection

  /** `cv2.imdecode`: None when the bytes are not an image. */
  type Decoder = seq<bv8> -> Option<Image>

  /** The network's input aspect ratio, width over height. */
  const ModelRatio: real := 192.0 / 256.0

  /** n is `int(x)` for a non-negative x. */
  predicate IsFloorOf(n: int, x: real) {
    n as real <= x < n as real + 1.0
  }

  /** The four zones, in the fixed order in which they are tried. */
  function Zones(h: nat): (zs: seq<Zone>)
    ensures |zs| == 4
    ensures zs[0].name == "Floor-Scan" && zs[1].name == "Anatomy-Scan"
    ensures zs[2].name == "Top-Anatomy" && zs[3].name == "Global-Scan"
    ensures IsFloorOf(zs[0].y1, 0.4 * h as real) && zs[0].y2 == h
    ensures IsFloorOf(zs[1].y1, 0.2 * h as real) && IsFloorOf(zs[1].y2, 0.8 * h as real)
    ensures zs[2].y1 == 0 && IsFloorOf(zs[2].y2, 0.6 * h as real)
    ensures zs[3].y1 == 0 && zs[3].y2 == h
    ensures forall i :: 0 <= i < 4 ==> 0 <= zs[i].y1 <= zs[i].y2 <= h
  {
    [ Zone("Floor-Scan", Trunc(h as real * 0.4), h),
      Zone("Anatomy-Scan", Trunc(h as real * 0.2), Trunc(h as real * 0.8)),
      Zone("Top-Anatomy", 0, Trunc(h as real * 0.6)),
      Zone("Global-Scan", 0, h) ]
  }

  /** The crop box for a zone: the zone's rows, and a width of 192/256 of its
      height, centred horizontally and clipped to the image. */
  function CropBox(z: Zone, imgW: nat): (b: Box)
    ensures b.y1 == z.y1 as real && b.y2 == z.y2 as real
    ensures z.y1 <= z.y2 ==> 0.0 <= b.x1 <= b.x2 <= imgW as real
    ensures z.y1 <= z.y2 ==> b.x1 + b.x2 == imgW as real
    ensures z.y1 <= z.y2 ==> b.x2 - b.x1 == Min(imgW as real, (z.y2 - z.y1) as real * ModelRatio)
  {
    var zh := z.y2 - z.y1;
    var zw := zh as real * ModelRatio;
    var x1 := Max(0.0, (imgW as real - zw) / 2.0);
    var x2 := Min(imgW as real, x1 + zw);
    Box(x1, z.y1 as real, x2, z.y2 as real)
  }

  /** `np.mean(scores)` over the four keypoint scores. */
  function MeanScore(s: Scores): (m: real)
    ensures m == Stats.Mean(s)
    ensures Stats.MinOf(s) <= m <= Stats.MaxOf(s)
  {
    assert Stats.Sum(s) == s[0] + s[1] + s[2] + s[3] by {
      assert s[1..][1..] == s[2..] && s[2..][1..] == s[3..] && s[3..][1..] == [];
      assert Stats.Sum(s[3..]) == s[3];
      assert Stats.Sum(s[2..]) == s[2] + s[3];
      assert Stats.Sum(s[1..]) == s[1] + s[2] + s[3];
    }
    Stats.MeanBetween(s);
    (s[0] + s[1] + s[2] + s[3]) / 4.0
  }

  /** The sanity check: the pastern top must sit at least 10 pixel rows above
      the hoof-wall top (y grows downwards). */
  predicate IsSane(d: Detection): (ok: bool)
    ensures ok <==> d.keypoints.pasternTop.y + 10.0 <= d.keypoints.hoofTop.y
  {
    !(d.keypoints.pasternTop.y > d.keypoints.hoofTop.y - 10.0)
  }

  /** The aggregate quality of one zone's detection: ten times the mean score,
      less 8 when the detection fails the sanity check. */
  function ZoneQuality(d: Detection): (q: real)
    ensures IsSane(d) ==> q == 10.0 * MeanScore(d.scores)
    ensures !IsSane(d) ==> q == 10.0 * MeanScore(d.scores) - 8.0
  {
    var agg := MeanScore(d.scores) * 10.0;
    if !IsSane(d) then agg - 8.0 else agg
  }

  /** The zone selection loop: the first candidate is always taken and a later one
      replaces the current best only when its quality is strictly higher. */
  function SelectBest(qs: seq<real>): (k: nat)
    requires |qs| > 0
    ensures k < |qs|
    ensures forall j :: 0 <= j < |qs| ==> qs[j] <= qs[k]
    ensures forall j :: 0 <= j < k ==> qs[j] < qs[k]
  {
    if |qs| == 1 then 0
    else
      var k := SelectBest(qs[..|qs| - 1]);
      if qs[|qs| - 1] > qs[k] then |qs| - 1 else k
  }

  /** k holds a maximal quality and no earlier index holds as much. */
  predicate IsFirstMaximum(qs: seq<real>, k: nat) {
    && k < |qs|
    && (forall j :: 0 <= j < |qs| ==> qs[j] <= qs[k])
    && (forall j :: 0 <= j < k ==> qs[j] < qs[k])
  }

  /** The selection is exactly the earliest index of maximal quality: ties go to
      the zone tried first. */
  lemma SelectBestIsFirstMaximum(qs: seq<real>, k: nat)
    requires |qs| > 0
    ensures IsFirstMaximum(qs, k) <==> k == SelectBest(qs)
  {
  }

  /** One evaluated zone. */
  datatype Candidate = Candidate(zone: Zone, detection: Detection, quality: real)

  /** Runs the network once per zone, in zone order. */
  function EvaluateZones(img: Image, infer: KeypointOracle): (cs: seq<Candidate>)
    ensures |cs| == 4
    ensures forall i :: 0 <= i < 4 ==>
              && cs[i].zone == Zones(img.height)[i]
              && cs[i].detection == infer(img, CropBox(cs[i].zone, img.width))
              && cs[i].quality == ZoneQuality(cs[i].detection)
  {
    var zs := Zones(img.height);
    seq(4, i requires 0 <= i < 4 =>
      var d := infer(img, CropBox(zs[i], img.width));
      Candidate(zs[i], d, ZoneQuality(d)))
  }

  function Qualities(cs: seq<Candidate>): (qs: seq<real>)
    ensures |qs| == |cs|
    ensures forall i :: 0 <= i < |cs| ==> qs[i] == cs[i].quality
  {
    seq(|cs|, i requires 0 <= i < |cs| => cs[i].quality)
  }

  /** The confidence gate: every keypoint scores above 0.10. */
  predicate PassesConfidenceGate(s: Scores): (ok: bool)
    ensures ok <==> Stats.MinOf(s) > 0.10
  {
    forall i :: 0 <= i < 4 ==> s[i] > 0.10
  }

  /** The keypoints the angles are measured on: offset first (it needs the
      facing direction before mirroring), then mirrored into canonical orientation. */
  function CorrectKeypoints(q: Quad, imgW: int): (r: Quad)
    ensures r.pasternTop.x <= r.toe.x
    ensures r.pasternTop.y == q.pasternTop.y && r.pasternBottom.y == q.pasternBottom.y
    ensures r.hoofTop.y == q.hoofTop.y && r.toe.y == q.toe.y
  {
    NormalizeDirection(ApplyAnatomicalOffset(q, imgW))
  }

  /** Pastern angle, hoof angle and their absolute difference. */
  datatype HpaAngles = HpaAngles(pastern: real, hoof: real, deviation: real)

  /** The API's geometry: pastern vector top minus bottom, hoof vector wall top
      minus toe, both folded to clinical angles. */
  function ApiAngles(q: Quad, atan2: Atan2Degrees): (a: HpaAngles)
    ensures 0.0 <= a.pastern <= 90.0 && 0.0 <= a.hoof <= 90.0
    ensures a.deviation == Abs(a.pastern - a.hoof) && a.deviation <= 90.0
    ensures a.pastern == ClinicalAngle(AngleFromVertical(Vector(q.pasternBottom, q.pasternTop), atan2))
    ensures a.hoof == ClinicalAngle(AngleFromVertical(Vector(q.toe, q.hoofTop), atan2))
  {
    var vP := Point(q.pasternTop.x - q.pasternBottom.x, q.pasternTop.y - q.pasternBottom.y);
    var vH := Point(q.hoofTop.x - q.toe.x, q.hoofTop.y - q.toe.y);
    var p := ClinicalAngle(AngleFromVertical(vP, atan2));
    var h := ClinicalAngle(AngleFromVertical(vH, atan2));
    HpaAngles(p, h, Abs(p - h))
  }

  /** The metrics `predict` returns; the annotated image is not modelled. */
  datatype Prediction =
    | Rejected(bestZone: string)
    | Measured(bestZone: string, pasternAngle: real, hoofAngle: real, hpaDev: real, modelConfidence: real)
  {
    predicate Success() { Measured? }
  }

  /** `predict` on a decoded image. */
  function PredictImage(img: Image, infer: KeypointOracle, atan2: Atan2Degrees): (p: Prediction)
    ensures var cs := EvaluateZones(img, infer);
            var k := SelectBest(Qualities(cs));
            && IsFirstMaximum(Qualities(cs), k)
            && p.bestZone == cs[k].zone.name
            && (p.Measured? <==> PassesConfidenceGate(cs[k].detection.scores))
            && (p.Measured? ==>
                  var a := ApiAngles(CorrectKeypoints(cs[k].detection.keypoints, img.width), atan2);
                  && p.pasternAngle == RoundHundredths(a.pastern)
                  && p.hoofAngle == RoundHundredths(a.hoof)
                  && p.hpaDev == RoundHundredths(a.deviation)
                  && p.modelConfidence == RoundHundredths(MeanScore(cs[k].detection.scores)))
    ensures p.Measured? ==> 0.0 <= p.pasternAngle <= 90.0 && 0.0 <= p.hoofAngle <= 90.0
    ensures p.Measured? ==> 0.0 <= p.hpaDev <= 90.0
  {
    var cs := EvaluateZones(img, infer);
    var k := SelectBest(Qualities(cs));
    SelectBestIsFirstMaximum(Qualities(cs), k);
    var best := cs[k];
    if PassesConfidenceGate(best.detection.scores) then
      var a := ApiAngles(CorrectKeypoints(best.detection.keypoints, img.width), atan2);
      RoundHundredthsWithin(a.pastern, 0, 90);
      RoundHundredthsWithin(a.hoof, 0, 90);
      RoundHundredthsWithin(a.deviation, 0, 90);
      Measured(best.zone.name, RoundHundredths(a.pastern), RoundHundredths(a.hoof),
               RoundHundredths(a.deviation), RoundHundredths(MeanScore(best.detection.scores)))
    else
      Rejected(best.zone.name)
  }

  /** `predict(img_bytes)`: an empty buffer and an undecodable one are errors. */
  function Predict(buffer: seq<bv8>, decode: Decoder, infer: KeypointOracle, atan2: Atan2Degrees)
    : (r: Result<Prediction, string>)
    ensures |buffer| == 0 ==> r == Failure("Empty image buffer provided")
    ensures |buffer| > 0 && decode(buffer).None? ==> r == Failure("Could not decode image")
    ensures |buffer| > 0 && decode(buffer).Some? ==> r == Success(PredictImage(decode(buffer).value, infer, atan2))
  {
    if |buffer| == 0 then Failure("Empty image buffer provided")
    else match decode(buffer)
      case None => Failure("Could not decode image")
      case Some(img) => Success(PredictImage(img, infer, atan2))
  }
}

=== FILE: quality.dfy ===
/** `map_quality(confidence)`: the model confidence scaled to a whole grade
    from 1 to 10. */
module Quality {
  import opened Numerics

  /** `max(1, min(10, round(confidence * 10)))`: the grade in [1, 10] nearest to
      ten times the confidence. */
  function MapQuality(confidence: real): (q: int)
    ensures 1 <= q <= 10
    ensures 1 <= RoundHalfEven(confidence * 10.0) <= 10 ==> q == RoundHalfEven(confidence * 10.0)
    ensures confidence * 10.0 <= 1.0 ==> q == 1
    ensures confidence * 10.0 >= 10.0 ==> q == 10
  {
    var quality := RoundHalfEven(confidence * 10.0);
    var capped := if quality < 10 then quality else 10;
    if capped > 1 then capped else 1
  }

  /** No grade from 1 to 10 lies nearer to ten times the confidence. */
  lemma MapQualityNearest(confidence: real, n: int)
    requires 1 <= n <= 10
    ensures Abs(MapQuality(confidence) as real - confidence * 10.0) <= Abs(n as real - confidence * 10.0)
  {
  }

  /** A higher confidence never gets a lower grade. */
  lemma MapQualityMonotone(c: real, d: real)
    requires c <= d
    ensures MapQuality(c) <= MapQuality(d)
  {
    RoundHalfEvenMonotone(c * 10.0, d * 10.0);
  }

  /** Full confidence grades 10, none grades 1, and 2.5 rounds to the even 2. */
  lemma MapQualityExamples()
    ensures MapQuality(1.0) == 10
    ensures MapQuality(0.0) == 1
    ensures MapQuality(0.25) == 2
    ensures MapQuality(0.35) == 4
  {
    RoundHalfEvenUnique(2.5, 2);
    RoundHalfEvenUnique(3.5, 4);
  }
}

=== FILE: routes.dfy ===
/** The v2 `/analyze` endpoint after its transport is peeled off: for each of the
    four legs, the outcome of fetching and analysing its image is merged into a
    five-field report, and the legs that were scored are aggregated. Fetching
    (`get_image_bytes`) and inference (`run_leg_inference`) are parameters; an
    exception either raises becomes a `Failure` carrying its message. */
module Routes {
  import opened Wrappers
  import opened Numerics
  import opened Stats
  import opened Geometry
  import opened Predictor
  import opened Scoring
  import opened Clinical
  import opened Quality
  import opened Aggregator

  datatype Leg = FrontLeft | FrontRight | BackLeft | BackRight

  /** The four legs in the order the request lists them. */
  const Legs: seq<Leg> := [FrontLeft, FrontRight, BackLeft, BackRight]

  /** The request body: an optional image input (URL or base64 text) per leg. */
  datatype ScanRequest = ScanRequest(
    frontLeft: Option<string>, frontRight: Option<string>,
    backLeft: Option<string>, backRight: Option<string>)
  {
    function Input(leg: Leg): Option<string> {
      match leg
      case FrontLeft => frontLeft
      case FrontRight => frontRight
      case BackLeft => backLeft
      case BackRight => backRight
    }
  }

  /** The five per-leg fields of the response. */
  datatype LegReport = LegReport(
    scanScore: Option<real>, notes: Option<string>, condition: Option<string>,
    recommendation: Option<string>, quality: Option<int>)

  /** The response: one report per leg and the aggregate over the scored legs. */
  datatype ScanResponse = ScanResponse(
    frontLeft: LegReport, frontRight: LegReport, backLeft: LegReport, backRight: LegReport,
    scanScore: Option<real>, notes: string, quality: int)
  {
    function Report(leg: Leg): LegReport {
      match leg
      case FrontLeft => frontLeft
      case FrontRight => frontRight
      case BackLeft => backLeft
      case BackRight => backRight
    }

    /** The four reports in leg order. */
    function Reports(): (rs: seq<LegReport>)
      ensures |rs| == 4 && forall i :: 0 <= i < 4 ==> rs[i] == Report(Legs[i])
    {
      [frontLeft, frontRight, backLeft, backRight]
    }
  }

  datatype HttpError = HttpError(status: int, detail: string)

  /** `get_image_bytes(image_input)`: the bytes, or the text of the exception raised. */
  type Fetcher = string -> Result<seq<bv8>, string>

  /** `run_leg_inference(predictor, bytes)`: the prediction, or the text of the
      exception raised. */
  type LegInference = seq<bv8> -> Result<Prediction, string>

  /** What happened to one leg. `error` is the prediction's "error" entry, which
      a rejected prediction does not have. */
  datatype LegOutcome =
    | NoInput
    | DownloadFailed(message: string)
    | InferenceFailed(error: Option<string>)
    | Analysed(pasternAngle: real, hoofAngle: real, confidence: real)

  /** An input is present when it is neither None nor the empty string. */
  predicate HasInput(input: Option<string>) {
    input.Some? && input.value != ""
  }

  /** The steps one leg goes through, each ending the leg's processing on failure. */
  function Outcome(input: Option<string>, fetch: Fetcher, infer: LegInference): (o: LegOutcome)
    ensures o.NoInput? <==> !HasInput(input)
    ensures o.DownloadFailed? <==> HasInput(input) && fetch(input.value).Failure?
    ensures o.DownloadFailed? ==> o.message == fetch(input.value).error
    ensures o.InferenceFailed? ==>
              var outcome := infer(fetch(input.value).value);
              o.error == if outcome.Failure? then Some(outcome.error) else None
    ensures o.Analysed? <==>
              && HasInput(input) && fetch(input.value).Success?
              && infer(fetch(input.value).value).Success?
              && infer(fetch(input.value).value).value.Measured?
    ensures o.Analysed? ==>
              var p := infer(fetch(input.value).value).value;
              o == Analysed(p.pasternAngle, p.hoofAngle, p.modelConfidence)
  {
    if input.None? || input.value == "" then NoInput
    else match fetch(input.value)
      case Failure(e) => DownloadFailed(e)
      case Success(bytes) =>
        match infer(bytes)
        case Failure(e) => InferenceFailed(Some(e))
        case Success(Rejected(_)) => InferenceFailed(None)
        case Success(Measured(_, p, h, _, c)) => Analysed(p, h, c)
  }

  /** Python's `str` of an optional text, as an f-string renders it. */
  function ShowOption(e: Option<string>): string {
    match e
    case Some(s) => s
    case None => "None"
  }

  /** The note of a leg whose download failed. */
  function DownloadNote(message: string): string {
    "Download failed: " + message
  }

  /** The note of a leg whose inference raised or found no hoof. */
  function InferenceNote(error: Option<string>): string {
    "Inference failed: " + ShowOption(error)
  }

  /** The five fields a leg's outcome produces: nothing for a missing input, a
      failure note alone for a failed leg, and for an analysed leg its score, the
      clinical texts of that score's band and the quality grade of the model's
      confidence. */
  function Report(o: LegOutcome): (r: LegReport)
    ensures r.notes.None? <==> o.NoInput?
    ensures r.scanScore.Some? <==> o.Analysed?
    ensures r.condition.Some? <==> o.Analysed?
    ensures r.recommendation.Some? <==> o.Analysed?
    ensures r.quality.Some? <==> o.Analysed?
    ensures o.DownloadFailed? ==> r.notes == Some(DownloadNote(o.message))
    ensures o.InferenceFailed? ==> r.notes == Some(InferenceNote(o.error))
    ensures o.Analysed? ==>
              var score := LegScore(o.pasternAngle, o.hoofAngle);
              && r.scanScore == Some(score)
              && 1.0 <= score <= 10.0
              && r.notes == Some(NotesText(BandOf(score)))
              && r.condition == Some(ConditionText(BandOf(score)))
              && r.recommendation == Some(RecommendationText(BandOf(score)))
              && r.quality == Some(MapQuality(o.confidence))
  {
    match o
    case NoInput => LegReport(None, None, None, None, None)
    case DownloadFailed(m) => LegReport(None, Some(DownloadNote(m)), None, None, None)
    case InferenceFailed(e) => LegReport(None, Some(InferenceNote(e)), None, None, None)
    case Analysed(p, h, c) =>
      var score := LegScore(p, h);
      LegReport(Some(score), MapClinicalNotes(Some(score)), MapCondition(Some(score)),
                MapRecommendation(Some(score)), Some(MapQuality(c)))
  }

  /** The scores the reports carry, in leg order: the list that is aggregated. */
  function ReportedScores(rs: seq<LegReport>): (s: seq<real>)
    ensures |s| <= |rs|
    ensures forall i :: 0 <= i < |rs| && rs[i].scanScore.Some? ==> rs[i].scanScore.value in s
    ensures forall x :: x in s ==> exists i :: 0 <= i < |rs| && rs[i].scanScore == Some(x)
  {
    if |rs| == 0 then []
    else
      var rest := ReportedScores(rs[1..]);
      assert forall i :: 1 <= i < |rs| ==> rs[i] == rs[1..][i - 1];
      (if rs[0].scanScore.Some? then [rs[0].scanScore.value] else []) + rest
  }

  lemma {:induction false} ReportedScoresConcat(xs: seq<LegReport>, ys: seq<LegReport>)
    ensures ReportedScores(xs + ys) == ReportedScores(xs) + ReportedScores(ys)
  {
    if |xs| > 0 {
      assert (xs + ys)[1..] == xs[1..] + ys;
      ReportedScoresConcat(xs[1..], ys);
    } else {
      assert xs + ys == ys;
    }
  }

  /** The legs whose report carries the score x. */
  function LegsScoring(rs: seq<LegReport>, x: real): set<int> {
    set i | 0 <= i < |rs| && rs[i].scanScore == Some(x)
  }

  /** Each score occurs in the aggregated list once per leg that reports
      it, so a score two legs share counts twice in the mean. */
  lemma {:induction false} ReportedScoresMultiplicity(rs: seq<LegReport>, x: real)
    ensures multiset(ReportedScores(rs))[x] == |LegsScoring(rs, x)|
  {
    if |rs| == 0 {
      assert LegsScoring(rs, x) == {};
    } else {
      var init := rs[..|rs| - 1];
      var last := rs[|rs| - 1];
      assert rs == init + [last];
      ReportedScoresConcat(init, [last]);
      ReportedScoresMultiplicity(init, x);
      var tail := ReportedScores([last]);
      assert tail == if last.scanScore.Some? then [last.scanScore.value] else [] by {
        assert [last][1..] == [];
      }
      assert multiset(ReportedScores(rs))[x] == multiset(ReportedScores(init))[x] + multiset(tail)[x];
      LegsScoringSnoc(init, last, x);
    }
  }

  lemma LegsScoringSnoc(init: seq<LegReport>, last: LegReport, x: real)
    ensures LegsScoring(init + [last], x) ==
              LegsScoring(init, x) + (if last.scanScore == Some(x) then {|init|} else {})
    ensures |init| !in LegsScoring(init, x)
  {
    var rs := init + [last];
    assert forall i :: 0 <= i < |init| ==> rs[i] == init[i];
  }

  /** `analyze_v2(request)`: 503 while no model is loaded; otherwise every leg's
      report, the aggregate over the legs that carry a score, and a constant
      top-level quality of 1. */
  function AnalyzeV2(ready: bool, request: ScanRequest, fetch: Fetcher, infer: LegInference)
    : (r: Result<ScanResponse, HttpError>)
    ensures r.Failure? <==> !ready
    ensures r.Failure? ==> r.error == HttpError(503, "Model not initialized")
    ensures r.Success? ==>
              && (forall leg: Leg :: r.value.Report(leg) == Report(Outcome(request.Input(leg), fetch, infer)))
              && r.value.scanScore == AggregateScan(ReportedScores(r.value.Reports())).scanScore
              && r.value.notes == AggregateScan(ReportedScores(r.value.Reports())).notes
              && r.value.quality == 1
  {
    if !ready then Failure(HttpError(503, "Model not initialized"))
    else
      var fl := Report(Outcome(request.frontLeft, fetch, infer));
      var fr := Report(Outcome(request.frontRight, fetch, infer));
      var bl := Report(Outcome(request.backLeft, fetch, infer));
      var br := Report(Outcome(request.backRight, fetch, infer));
      var legScores := ReportedScores([fl, fr, bl, br]);
      var aggregation := AggregateScan(legScores);
      Success(ScanResponse(fl, fr, bl, br, aggregation.scanScore, aggregation.notes, 1))
  }

  /** A leg's report depends on that leg's input alone: what happens to the other
      legs, failures included, never changes it. */
  lemma LegIsolation(r1: ScanRequest, r2: ScanRequest, fetch: Fetcher, infer: LegInference, leg: Leg)
    requires r1.Input(leg) == r2.Input(leg)
    ensures AnalyzeV2(true, r1, fetch, infer).value.Report(leg) == AnalyzeV2(true, r2, fetch, infer).value.Report(leg)
  {
  }

  /** No leg scored means no overall score, and the "No legs analyzed." note. */
  lemma NothingScoredNothingAggregated(request: ScanRequest, fetch: Fetcher, infer: LegInference)
    requires forall leg: Leg :: !Outcome(request.Input(leg), fetch, infer).Analysed?
    ensures AnalyzeV2(true, request, fetch, infer).value.scanScore.None?
    ensures AnalyzeV2(true, request, fetch, infer).value.notes == NoLegsNotes
  {
    var r := AnalyzeV2(true, request, fetch, infer).value;
    var rs := r.Reports();
    assert forall i :: 0 <= i < 4 ==> rs[i].scanScore.None?;
  }

  /** Every score a report carries is at least 1, as every leg score is. */
  predicate ScoresAtLeastOne(rs: seq<LegReport>) {
    forall i :: 0 <= i < |rs| && rs[i].scanScore.Some? ==> rs[i].scanScore.value >= 1.0
  }

  /** Over reports whose scores are at least 1, the aggregate narrative is the
      severe one exactly when some report carries a score of 1. */
  lemma ReportedNarrative(rs: seq<LegReport>)
    requires ScoresAtLeastOne(rs)
    requires exists i :: 0 <= i < |rs| && rs[i].scanScore.Some?
    ensures |ReportedScores(rs)| > 0
    ensures OutlookOf(MinOf(ReportedScores(rs))) == Severe
            <==> exists i :: 0 <= i < |rs| && rs[i].scanScore == Some(1.0)
  {
    var s := ReportedScores(rs);
    var j :| 0 <= j < |rs| && rs[j].scanScore.Some?;
    assert rs[j].scanScore.value in s;
    forall k | 0 <= k < |s|
      ensures s[k] >= 1.0
    {
      assert s[k] in s;
      var i :| 0 <= i < |rs| && rs[i].scanScore == Some(s[k]);
    }
    AggregateNarrative(s);
    if exists i :: 0 <= i < |rs| && rs[i].scanScore == Some(1.0) {
      var i :| 0 <= i < |rs| && rs[i].scanScore == Some(1.0);
      assert 1.0 in s;
    }
    if exists k :: 0 <= k < |s| && s[k] == 1.0 {
      var k :| 0 <= k < |s| && s[k] == 1.0;
      assert s[k] in s;
    }
  }

  /** When at least one leg is analysed, the response's narrative is the one of
      the worst reported score. */
  lemma ResponseNarrative(request: ScanRequest, fetch: Fetcher, infer: LegInference)
    requires exists leg: Leg :: Outcome(request.Input(leg), fetch, infer).Analysed?
    ensures var r := AnalyzeV2(true, request, fetch, infer).value;
            && |ReportedScores(r.Reports())| > 0
            && r.notes == OutlookText(OutlookOf(MinOf(ReportedScores(r.Reports()))))
  {
    var r := AnalyzeV2(true, request, fetch, infer).value;
    var rs := r.Reports();
    var leg :| Outcome(request.Input(leg), fetch, infer).Analysed?;
    var j := match leg case FrontLeft => 0 case FrontRight => 1 case BackLeft => 2 case BackRight => 3;
    assert rs[j] == r.Report(leg);
    assert rs[j].scanScore.value in ReportedScores(rs);
  }

  /** End to end: when at least one leg is analysed, the response's narrative is
      the severe one exactly when some leg scored the minimum of 1. */
  lemma SevereIffSomeLegAtMinimum(request: ScanRequest, fetch: Fetcher, infer: LegInference)
    requires exists leg: Leg :: Outcome(request.Input(leg), fetch, infer).Analysed?
    ensures var r := AnalyzeV2(true, request, fetch, infer).value;
            && |ReportedScores(r.Reports())| > 0
            && (OutlookOf(MinOf(ReportedScores(r.Reports()))) == Severe
                <==> exists i :: 0 <= i < 4 && r.Reports()[i].scanScore == Some(1.0))
  {
    var r := AnalyzeV2(true, request, fetch, infer).value;
    var rs := r.Reports();
    var leg :| Outcome(request.Input(leg), fetch, infer).Analysed?;
    var j := match leg case FrontLeft => 0 case FrontRight => 1 case BackLeft => 2 case BackRight => 3;
    assert rs[j] == r.Report(leg);
    assert ScoresAtLeastOne(rs);
    ReportedNarrative(rs);
  }

  /** A downloaded but empty image, run through `predict`, is reported as an
      inference failure carrying predict's own message. */
  lemma EmptyImageReport(input: string, fetch: Fetcher, infer: LegInference,
                         decode: Decoder, net: KeypointOracle, atan2: Atan2Degrees)
    requires forall bytes :: infer(bytes) == Predict(bytes, decode, net, atan2)
    requires input != "" && fetch(input) == Success([])
    ensures Report(Outcome(Some(input), fetch, infer)).notes == Some(InferenceNote(Some("Empty image buffer provided")))
  {
    assert infer([]) == Failure("Empty image buffer provided");
  }
}

=== FILE: scoring.dfy ===
/** The per-leg score of the v2 API: ten points less half a point per penalty
    step, a step being one degree when the pastern is steeper than the hoof and
    1.5 degrees the other way, quantised to half points with Python's `round`
    and clamped to [1, 10]. */
module Scoring {
  import opened Numerics

  /** The penalty steps for a signed deviation `pastern - hoof`. */
  function PenaltySteps(diff: real): (s: real)
    ensures s >= 0.0
    ensures diff >= 0.0 ==> s == diff
    ensures diff < 0.0 ==> s * 1.5 == -diff
  {
    if diff >= 0.0 then diff / 1.0 else Abs(diff) / 1.5
  }

  /** The score before quantisation and clamping: full marks for aligned
      angles, half a point lost per degree of steeper pastern and per 1.5
      degrees of steeper hoof. */
  function RawScore(pastern: real, hoof: real): (r: real)
    ensures r <= 10.0
    ensures r == 10.0 <==> pastern == hoof
    ensures pastern >= hoof ==> (10.0 - r) * 2.0 == pastern - hoof
    ensures pastern < hoof ==> (10.0 - r) * 3.0 == hoof - pastern
  {
    10.0 - PenaltySteps(pastern - hoof) * 0.5
  }

  /** A value that is a whole number of half points. */
  predicate IsHalfStep(r: real) {
    (r * 2.0).Floor as real == r * 2.0
  }

  predicate IsWhole(r: real) {
    r.Floor as real == r
  }

  lemma HalfOfEvenIsWhole(n: int)
    ensures n % 2 == 0 ==> IsWhole(n as real / 2.0)
  {
    if n % 2 == 0 {
      var k := n / 2;
      assert n == 2 * k;
      assert n as real / 2.0 == k as real;
    }
  }

  /** `calculate_leg_score(pastern_angle, hoof_angle)`: the half point nearest
      the raw score (a whole point on a tie), never below 1; the raw score is
      never above 10, so the upper clamp never binds. */
  function LegScore(pastern: real, hoof: real): (r: real)
    ensures 1.0 <= r <= 10.0
    ensures IsHalfStep(r)
    ensures Abs(r - Max(1.0, RawScore(pastern, hoof))) <= 0.25
    ensures RawScore(pastern, hoof) >= 1.0 && Abs(r - RawScore(pastern, hoof)) == 0.25 ==> IsWhole(r)
  {
    var diff := pastern - hoof;
    var steps := if diff >= 0.0 then diff / 1.0 else Abs(diff) / 1.5;
    var score := 10.0 - steps * 0.5;
    var n := RoundHalfEven(score * 2.0);
    var q := n as real / 2.0;
    HalfOfEvenIsWhole(n);
    Max(1.0, Min(10.0, q))
  }

  /** Equal pastern and hoof angles score full marks. */
  lemma LegScoreAligned(a: real)
    ensures LegScore(a, a) == 10.0
  {
    RoundHalfEvenOfInt(20);
  }

  /** The worked values: +2 degrees costs a point; -2 degrees costs 2/3 of a
      point and rounds to 9.5; +0.5 and +1.5 land on ties and round to the even
      number of half points. */
  lemma LegScoreExamples(h: real)
    ensures LegScore(h + 2.0, h) == 9.0
    ensures LegScore(h - 2.0, h) == 9.5
    ensures LegScore(h + 0.5, h) == 10.0
    ensures LegScore(h + 1.5, h) == 9.0
  {
    RoundHalfEvenOfInt(18);
    RoundHalfEvenUnique(56.0 / 3.0, 19);
    RoundHalfEvenUnique(19.5, 20);
    RoundHalfEvenUnique(18.5, 18);
  }

  /** A hoof steeper than the pastern by 1.5k degrees costs the same as a pastern
      steeper than the hoof by k degrees. */
  lemma LegScoreAsymmetry(p1: real, h1: real, p2: real, h2: real)
    requires p1 - h1 >= 0.0
    requires p2 - h2 == -1.5 * (p1 - h1)
    ensures LegScore(p2, h2) == LegScore(p1, h1)
  {
    if p1 - h1 > 0.0 {
      assert PenaltySteps(p2 - h2) == p1 - h1;
    }
  }

  /** More penalty steps never score higher. */
  lemma LegScoreMonotone(p1: real, h1: real, p2: real, h2: real)
    requires PenaltySteps(p1 - h1) <= PenaltySteps(p2 - h2)
    ensures LegScore(p2, h2) <= LegScore(p1, h1)
  {
    RoundHalfEvenMonotone(RawScore(p2, h2) * 2.0, RawScore(p1, h1) * 2.0);
  }

  /** From 18 degrees one way, or 27 the other, every leg scores the minimum. */
  lemma LegScoreFloor(pastern: real, hoof: real)
    requires pastern - hoof >= 18.0 || pastern - hoof <= -27.0
    ensures LegScore(pastern, hoof) == 1.0
  {
    RoundHalfEvenOfInt(2);
    RoundHalfEvenMonotone(RawScore(pastern, hoof) * 2.0, 2.0);
  }
}

=== FILE: split_dataset.dfy ===
/** `split_dataset`: the images of one annotation file are shuffled and cut
    into a training and a validation file, each carrying the annotations of
    its own images. The shuffle is an input: the order it produces is given
    as a permutation of the image positions. */
module SplitDataset {
  import opened Wrappers
  import opened Numerics
  import opened Coco

  /** `perm` reorders `n` items: it lists each of 0 .. n-1 exactly once. */
  predicate IsPermutation(perm: seq<nat>, n: nat) {
    && |perm| == n
    && (forall p :: 0 <= p < n ==> perm[p] < n)
    && (forall p, q :: 0 <= p < q < n ==> perm[p] != perm[q])
    && (forall j :: 0 <= j < n ==> j in perm)
  }

  /** The images at the given positions, in the order given. */
  function Pick(images: seq<Image>, idx: seq<nat>): (s: seq<Image>)
    requires forall p :: 0 <= p < |idx| ==> idx[p] < |images|
    ensures |s| == |idx|
    ensures forall p :: 0 <= p < |idx| ==> s[p] == images[idx[p]]
  {
    if |idx| == 0 then [] else [images[idx[0]]] + Pick(images, idx[1..])
  }

  /** `random.shuffle(images)` drawing the order `perm`: the p-th image
      afterwards is the perm[p]-th before, and every image is still there. */
  function Shuffle(images: seq<Image>, perm: seq<nat>): (s: seq<Image>)
    requires IsPermutation(perm, |images|)
    ensures |s| == |images|
    ensures forall j :: 0 <= j < |images| ==> images[j] in s
  {
    var s := Pick(images, perm);
    assert forall j :: 0 <= j < |images| ==> images[j] in s by {
      forall j | 0 <= j < |images|
        ensures images[j] in s
      {
        assert j in perm;
        var p :| 0 <= p < |perm| && perm[p] == j;
        assert s[p] == images[j];
      }
    }
    s
  }

  /** The bound `k` of the slices `xs[:k]` and `xs[k:]` on a list of length
      `n`, as Python reads it: a negative bound counts from the end, and any
      bound is cut to 0 .. n. */
  function SliceIndex(k: int, n: nat): (i: nat)
    ensures i <= n
    ensures 0 <= k <= n ==> i == k
    ensures k > n ==> i == n
    ensures k < 0 && n + k >= 0 ==> i == n + k
    ensures n + k < 0 ==> i == 0
  {
    if k < 0 then (if n + k < 0 then 0 else n + k)
    else if k > n then n
    else k
  }

  /** `n * x`, as n copies of x added up. */
  function Scale(n: nat, x: real): (y: real)
    ensures 0.0 <= x ==> 0.0 <= y
    ensures x <= 1.0 ==> y <= n as real
  {
    if n == 0 then 0.0 else Scale(n - 1, x) + x
  }

  lemma {:induction false} ScaleIsProduct(n: nat, x: real)
    ensures Scale(n, x) == n as real * x
  {
    if n > 0 {
      ScaleIsProduct(n - 1, x);
      assert (n - 1) as real * x + x == n as real * x;
    }
  }

  /** `int(total_images * split_ratio)` read as a slice bound. */
  function SplitPoint(n: nat, ratio: real): (k: nat)
    ensures k <= n
  {
    SliceIndex(Trunc(Scale(n, ratio)), n)
  }

  /** `img_to_anns[img_id]`: the annotations of one image, in file order. */
  function AnnotationsOf(anns: seq<Annotation>, id: int): (r: seq<Annotation>)
    ensures forall a :: a in r <==> a in anns && a.imageId == id
    ensures |r| <= |anns|
  {
    if |anns| == 0 then []
    else (if anns[0].imageId == id then [anns[0]] else []) + AnnotationsOf(anns[1..], id)
  }

  /** Collecting from two runs of annotations one after the other keeps
      their order: the file order of the appends. */
  lemma {:induction false} AnnotationsOfConcat(xs: seq<Annotation>, ys: seq<Annotation>, id: int)
    ensures AnnotationsOf(xs + ys, id) == AnnotationsOf(xs, id) + AnnotationsOf(ys, id)
  {
    if |xs| > 0 {
      assert (xs + ys)[1..] == xs[1..] + ys;
      AnnotationsOfConcat(xs[1..], ys, id);
    } else {
      assert xs + ys == ys;
    }
  }

  /** The annotations `build_dataset(img_list)` collects: those of each image
      in turn, in image order. */
  function BuildAnnotations(anns: seq<Annotation>, imgs: seq<Image>): (r: seq<Annotation>)
    ensures forall i :: 0 <= i < |r| ==> r[i] in anns && r[i].imageId in ImageIds(imgs)
  {
    if |imgs| == 0 then []
    else BuildAnnotations(anns, imgs[..|imgs| - 1]) + AnnotationsOf(anns, imgs[|imgs| - 1].id)
  }

  /** They are exactly the annotations of the listed images. */
  lemma {:induction false} BuildAnnotationsMembers(anns: seq<Annotation>, imgs: seq<Image>, a: Annotation)
    ensures a in BuildAnnotations(anns, imgs) <==> a in anns && a.imageId in ImageIds(imgs)
  {
    if |imgs| > 0 {
      var init := imgs[..|imgs| - 1];
      assert imgs == init + [imgs[|imgs| - 1]];
      BuildAnnotationsMembers(anns, init, a);
      assert ImageIds(imgs) == ImageIds(init) + {imgs[|imgs| - 1].id};
    }
  }

  /** Collecting over two lists of images one after the other is collecting
      over their concatenation. */
  lemma {:induction false} BuildAnnotationsConcat(anns: seq<Annotation>, xs: seq<Image>, ys: seq<Image>)
    ensures BuildAnnotations(anns, xs + ys) == BuildAnnotations(anns, xs) + BuildAnnotations(anns, ys)
  {
    if |ys| > 0 {
      var zs := xs + ys;
      var yInit := ys[..|ys| - 1];
      assert zs[..|zs| - 1] == xs + yInit;
      assert zs[|zs| - 1] == ys[|ys| - 1];
      BuildAnnotationsConcat(anns, xs, yInit);
    } else {
      assert xs + ys == xs;
    }
  }

  /** One output file of `build_dataset(img_list)`. */
  function BuildDataset(info: Json, categories: Json, anns: seq<Annotation>, imgs: seq<Image>): (r: CocoFile)
    ensures r.info == Some(info) && r.categories == Some(categories) && r.images == Some(imgs)
    ensures r.annotations.Some?
    ensures forall a :: a in r.annotations.value <==> a in anns && a.imageId in ImageIds(imgs)
  {
    forall a ensures a in BuildAnnotations(anns, imgs) <==> a in anns && a.imageId in ImageIds(imgs) {
      BuildAnnotationsMembers(anns, imgs, a);
    }
    CocoFile(Some(info), Some(categories), Some(imgs), Some(BuildAnnotations(anns, imgs)))
  }

  /** How the script ends: both files written, or the abort on image ids that
      land in both halves. */
  datatype SplitOutcome =
    | Split(train: CocoFile, val: CocoFile)
    | Overlapping(ids: set<int>)

  /** Two positions of the list hold images with the same id. */
  predicate HasDuplicateIds(images: seq<Image>) {
    exists p, q :: 0 <= p < q < |images| && images[p].id == images[q].id
  }

  /** The cut at `k` of the shuffled images and the safety check on it. */
  function SplitAt(info: Json, categories: Json, anns: seq<Annotation>, shuffled: seq<Image>, k: nat): (r: SplitOutcome)
    requires k <= |shuffled|
    ensures r.Overlapping? <==> ImageIds(shuffled[..k]) * ImageIds(shuffled[k..]) != {}
    ensures r.Overlapping? ==> r.ids == ImageIds(shuffled[..k]) * ImageIds(shuffled[k..])
    ensures r.Split? ==> r.train.images == Some(shuffled[..k]) && r.val.images == Some(shuffled[k..])
    ensures r.Split? ==> r.train.annotations == Some(BuildAnnotations(anns, shuffled[..k]))
                         && r.val.annotations == Some(BuildAnnotations(anns, shuffled[k..]))
    ensures r.Overlapping? ==> r.ids != {} && HasDuplicateIds(shuffled)
  {
    var train := shuffled[..k];
    var val := shuffled[k..];
    var overlap := ImageIds(train) * ImageIds(val);
    if overlap != {} then
      var id :| id in overlap;
      var p :| 0 <= p < |train| && train[p].id == id;
      var q :| 0 <= q < |val| && val[q].id == id;
      assert shuffled[p].id == shuffled[k + q].id;
      Overlapping(overlap)
    else Split(BuildDataset(info, categories, anns, train), BuildDataset(info, categories, anns, val))
  }

  /** `split_dataset(all_data_path, train_path, val_path, split_ratio)` on the
      loaded file, with the shuffle's order given. */
  function SplitData(data: CocoFile, perm: seq<nat>, ratio: real): (r: Result<SplitOutcome, CocoError>)
    requires IsPermutation(perm, |data.images.GetOr([])|)
    ensures data.images.None? ==> r == Failure(MissingKey("images"))
    ensures data.images.Some? && data.annotations.None? ==> r == Failure(MissingKey("annotations"))
    ensures data.images.Some? && data.annotations.Some? ==> (r.Failure? <==> |data.images.value| == 0)
    ensures r.Failure? && data.images.Some? && data.annotations.Some? ==> r.error == ZeroDivision
    ensures r.Success? && r.value.Split? ==>
              r.value.train.images.Some? && r.value.val.images.Some?
    ensures r.Success? && r.value.Split? ==>
              var train := r.value.train.images.value;
              var val := r.value.val.images.value;
              && train + val == Shuffle(data.images.value, perm)
              && |train| == SplitPoint(|data.images.value|, ratio)
    ensures r.Success? && r.value.Split? ==>
              && r.value.train.info == r.value.val.info == Some(data.info.GetOr(EmptyObject))
              && r.value.train.categories == r.value.val.categories == Some(data.categories.GetOr(EmptyList))
              && r.value.train.annotations == Some(BuildAnnotations(data.annotations.value, r.value.train.images.value))
              && r.value.val.annotations == Some(BuildAnnotations(data.annotations.value, r.value.val.images.value))
    ensures r.Success? && r.value.Overlapping? ==> r.value.ids != {}
    ensures r.Success? ==>
              var shuffled := Shuffle(data.images.value, perm);
              var k := SplitPoint(|shuffled|, ratio);
              var overlap := ImageIds(shuffled[..k]) * ImageIds(shuffled[k..]);
              && (r.value.Overlapping? <==> overlap != {})
              && (r.value.Overlapping? ==> r.value.ids == overlap)
  {
    if data.images.None? then Failure(MissingKey("images"))
    else if data.annotations.None? then Failure(MissingKey("annotations"))
    else if |data.images.value| == 0 then Failure(ZeroDivision)
    else
      var shuffled := Shuffle(data.images.value, perm);
      var k := SplitPoint(|shuffled|, ratio);
      assert shuffled[..k] + shuffled[k..] == shuffled;
      Success(SplitAt(data.info.GetOr(EmptyObject), data.categories.GetOr(EmptyList), data.annotations.value, shuffled, k))
  }

  /** The abort fires exactly when some image before the cut and some image
      after it share an id; a repeated id within one half does not abort. */
  lemma SplitAbortsIffIdCrossesCut(info: Json, categories: Json, anns: seq<Annotation>, shuffled: seq<Image>, k: nat)
    requires k <= |shuffled|
    ensures SplitAt(info, categories, anns, shuffled, k).Overlapping? <==>
              exists p, q :: 0 <= p < k <= q < |shuffled| && shuffled[p].id == shuffled[q].id
  {
    var train, val := shuffled[..k], shuffled[k..];
    if SplitAt(info, categories, anns, shuffled, k).Overlapping? {
      var id :| id in ImageIds(train) * ImageIds(val);
      var p :| 0 <= p < |train| && train[p].id == id;
      var q :| 0 <= q < |val| && val[q].id == id;
      assert shuffled[p].id == shuffled[k + q].id;
    }
    forall p, q | 0 <= p < k <= q < |shuffled| && shuffled[p].id == shuffled[q].id
      ensures shuffled[p].id in ImageIds(train) * ImageIds(val)
    {
      assert train[p] == shuffled[p] && val[q - k] == shuffled[q];
    }
  }

  /** Reordering by a permutation neither creates nor removes a repeated id. */
  lemma ShuffleKeepsDuplicates(images: seq<Image>, perm: seq<nat>)
    requires IsPermutation(perm, |images|)
    ensures HasDuplicateIds(Shuffle(images, perm)) ==> HasDuplicateIds(images)
  {
    var s := Shuffle(images, perm);
    if HasDuplicateIds(s) {
      var p, q :| 0 <= p < q < |s| && s[p].id == s[q].id;
      assert s[p] == images[perm[p]] && s[q] == images[perm[q]];
      if perm[p] < perm[q] {
        assert images[perm[p]].id == images[perm[q]].id;
      } else {
        assert images[perm[q]].id == images[perm[p]].id;
      }
    }
  }

  /** The abort fires only when two images of the input share an id. */
  lemma SplitAbortsOnlyOnDuplicateIds(data: CocoFile, perm: seq<nat>, ratio: real)
    requires IsPermutation(perm, |data.images.GetOr([])|)
    requires SplitData(data, perm, ratio).Success? && SplitData(data, perm, ratio).value.Overlapping?
    ensures HasDuplicateIds(data.images.value)
  {
    ShuffleKeepsDuplicates(data.images.value, perm);
  }

  /** When the ratio lies in [0, 1] the training half is the first
      int(n * ratio) shuffled images. */
  lemma SplitSizes(n: nat, ratio: real)
    requires 0.0 <= ratio <= 1.0
    ensures SplitPoint(n, ratio) == (n as real * ratio).Floor
  {
    ScaleIsProduct(n, ratio);
  }

  /** A negative ratio still trains on the first images: with ten images and
      ratio -0.5 the bound is -5, which Python reads as 5. */
  lemma NegativeRatioExample()
    ensures SplitPoint(10, -0.5) == 5
  {
    ScaleIsProduct(10, -0.5);
  }

  /** On a cut list without repeated ids, each annotation of a listed image
      goes to exactly the half holding its image, and annotations of unlisted
      images go nowhere. */
  lemma SplitAtPartitions(info: Json, categories: Json, anns: seq<Annotation>, shuffled: seq<Image>, k: nat, a: Annotation)
    requires k <= |shuffled| && !HasDuplicateIds(shuffled)
    ensures SplitAt(info, categories, anns, shuffled, k).Split?
    ensures var out := SplitAt(info, categories, anns, shuffled, k);
            var inTrain := a in out.train.annotations.value;
            var inVal := a in out.val.annotations.value;
            && (a in anns && a.imageId in ImageIds(shuffled) <==> inTrain || inVal)
            && !(inTrain && inVal)
  {
    var train := shuffled[..k];
    var val := shuffled[k..];
    assert shuffled == train + val;
    BuildAnnotationsMembers(anns, train, a);
    BuildAnnotationsMembers(anns, val, a);
    assert ImageIds(shuffled) == ImageIds(train) + ImageIds(val);
  }

  /** With distinct image ids the split is clean: nothing aborts, and each
      annotation of a listed image lands in exactly one of the two files,
      while annotations of unlisted images land in neither. */
  lemma SplitPartitions(data: CocoFile, perm: seq<nat>, ratio: real, a: Annotation)
    requires IsPermutation(perm, |data.images.GetOr([])|)
    requires data.images.Some? && data.annotations.Some? && |data.images.value| > 0
    requires !HasDuplicateIds(data.images.value)
    ensures SplitData(data, perm, ratio).Success? && SplitData(data, perm, ratio).value.Split?
    ensures var out := SplitData(data, perm, ratio).value;
            var inTrain := a in out.train.annotations.value;
            var inVal := a in out.val.annotations.value;
            && (a in data.annotations.value && a.imageId in ImageIds(data.images.value) <==> inTrain || inVal)
            && !(inTrain && inVal)
  {
    var images := data.images.value;
    var shuffled := Shuffle(images, perm);
    ShuffleKeepsDuplicates(images, perm);
    var k := SplitPoint(|shuffled|, ratio);
    SplitAtPartitions(data.info.GetOr(EmptyObject), data.categories.GetOr(EmptyList), data.annotations.value, shuffled, k, a);
    forall id | id in ImageIds(images)
      ensures id in ImageIds(shuffled)
    {
      var j :| 0 <= j < |images| && images[j].id == id;
      assert images[j] in shuffled;
    }
    forall id | id in ImageIds(shuffled)
      ensures id in ImageIds(images)
    {
      var p :| 0 <= p < |shuffled| && shuffled[p].id == id;
      assert shuffled[p] == images[perm[p]];
    }
  }
}

=== FILE: stats.dfy ===
/** Python's `sum`, `min` and `max` over a list of numbers, and the facts the
    aggregators need about them: they ignore the order of the list. */
module Stats {

  function Sum(s: seq<real>): real {
    if |s| == 0 then 0.0 else s[0] + Sum(s[1..])
  }


  /** `min(s)`: an element of the list no larger than any other. */
  function MinOf(s: seq<real>): (m: real)
    requires |s| > 0
    ensures m in s
    ensures forall i :: 0 <= i < |s| ==> m <= s[i]
  {
    if |s| == 1 then s[0]
    else
      var rest := MinOf(s[1..]);
      if s[0] <= rest then s[0] else rest
  }

  /** `max(s)`: an element of the list no smaller than any other. */
  function MaxOf(s: seq<real>): (m: real)
    requires |s| > 0
    ensures m in s
    ensures forall i :: 0 <= i < |s| ==> s[i] <= m
  {
    if |s| == 1 then s[0]
    else
      var rest := MaxOf(s[1..]);
      if s[0] >= rest then s[0] else rest
  }

  /** `sum(s) / len(s)`: the value that, taken once per element, adds up to
      the sum. */
  function Mean(s: seq<real>): (m: real)
    requires |s| > 0
    ensures m * |s| as real == Sum(s)
  {
    var m := Sum(s) / |s| as real;
    assert m * |s| as real == Sum(s);
    m
  }

  /** The mean lies between the smallest and the largest element. */
  lemma {:induction false} MeanBetween(s: seq<real>)
    requires |s| > 0
    ensures MinOf(s) <= Mean(s) <= MaxOf(s)
  {
    var lo, hi := MinOf(s), MaxOf(s);
    SumAtLeast(s, lo);
    SumAtMost(s, hi);
    FactorBetween(Mean(s), |s| as real, Sum(s), lo, hi);
  }

  lemma {:induction false} SumAtLeast(s: seq<real>, lo: real)
    requires forall i :: 0 <= i < |s| ==> lo <= s[i]
    ensures Sum(s) >= |s| as real * lo
  {
    if |s| > 0 {
      SumAtLeast(s[1..], lo);
      assert |s| as real * lo == lo + (|s| - 1) as real * lo;
    }
  }

  lemma {:induction false} SumAtMost(s: seq<real>, hi: real)
    requires forall i :: 0 <= i < |s| ==> s[i] <= hi
    ensures Sum(s) <= |s| as real * hi
  {
    if |s| > 0 {
      SumAtMost(s[1..], hi);
      assert |s| as real * hi == hi + (|s| - 1) as real * hi;
    }
  }

  /** A number that n > 0 copies of make x lies between any lo and hi that
      n copies of bound x. */
  lemma FactorBetween(m: real, n: real, x: real, lo: real, hi: real)
    requires n > 0.0 && m * n == x && n * lo <= x <= n * hi
    ensures lo <= m <= hi
  {
  }

  lemma {:induction false} SumConcat(a: seq<real>, b: seq<real>)
    ensures Sum(a + b) == Sum(a) + Sum(b)
  {
    if |a| == 0 {
      assert a + b == b;
    } else {
      assert (a + b)[1..] == a[1..] + b;
      SumConcat(a[1..], b);
    }
  }

  /** Taking one element out of the list takes exactly its value out of the sum. */
  lemma SumRemove(t: seq<real>, i: nat)
    requires i < |t|
    ensures Sum(t) == t[i] + Sum(t[..i] + t[i + 1..])
  {
    assert t == t[..i] + t[i..];
    SumConcat(t[..i], t[i..]);
    SumConcat(t[..i], t[i + 1..]);
    assert t[i..][1..] == t[i + 1..];
  }

  /** The sum does not depend on the order of the list. */
  lemma {:induction false} SumPermutation(s: seq<real>, t: seq<real>)
    requires multiset(s) == multiset(t)
    ensures Sum(s) == Sum(t)
  {
    if |s| == 0 {
      assert |t| == |multiset(t)| == 0;
    } else {
      var i := RemovalPoint(s, t);
      var rest := t[..i] + t[i + 1..];
      SumPermutation(s[1..], rest);
      SumRemove(t, i);
    }
  }

  /** Where the head of s sits in a permutation t of s, and the fact that t
      without it is a permutation of the tail of s. */
  lemma RemovalPoint(s: seq<real>, t: seq<real>) returns (i: nat)
    requires |s| > 0
    requires multiset(s) == multiset(t)
    ensures i < |t| && t[i] == s[0]
    ensures multiset(s[1..]) == multiset(t[..i] + t[i + 1..])
  {
    assert s[0] in multiset(t);
    i :| 0 <= i < |t| && t[i] == s[0];
    MultisetWithout(t, i);
    MultisetWithout(s, 0);
    assert s[..0] + s[1..] == s[1..];
  }

  /** Deleting the element at i takes one copy of it out of the multiset. */
  lemma MultisetWithout(t: seq<real>, i: nat)
    requires i < |t|
    ensures multiset(t[..i] + t[i + 1..]) == multiset(t) - multiset{t[i]}
  {
    assert t == t[..i] + [t[i]] + t[i + 1..];
    assert multiset(t) == multiset(t[..i]) + multiset{t[i]} + multiset(t[i + 1..]);
  }

  /** The minimum does not depend on the order of the list. */
  lemma MinPermutation(s: seq<real>, t: seq<real>)
    requires |s| > 0
    requires multiset(s) == multiset(t)
    ensures |t| == |s|
    ensures MinOf(s) == MinOf(t)
  {
    assert |t| == |multiset(t)| == |multiset(s)| == |s|;
    var ms, mt := MinOf(s), MinOf(t);
    assert ms in multiset(t);
    assert mt in multiset(s);
  }
}

=== FILE: sync_annotations.dfy ===
/** `sync_annotations`: a target annotation file drops the annotations of
    images it does not list, and each remaining annotation whose image has a
    refined annotation in the source takes the refined geometry. */
module SyncAnnotations {
  import opened Wrappers
  import opened Coco

  /** The annotations whose image id is in `ids`, in their original order. */
  function KeepListed(anns: seq<Annotation>, ids: set<int>): (r: seq<Annotation>)
    ensures forall a :: a in r <==> a in anns && a.imageId in ids
    ensures |r| <= |anns|
  {
    if |anns| == 0 then []
    else (if anns[0].imageId in ids then [anns[0]] else []) + KeepListed(anns[1..], ids)
  }

  /** Filtering a concatenation filters each part: the kept annotations keep
      their relative order. */
  lemma {:induction false} KeepListedConcat(xs: seq<Annotation>, ys: seq<Annotation>, ids: set<int>)
    ensures KeepListed(xs + ys, ids) == KeepListed(xs, ids) + KeepListed(ys, ids)
  {
    if |xs| > 0 {
      assert (xs + ys)[1..] == xs[1..] + ys;
      KeepListedConcat(xs[1..], ys, ids);
    } else {
      assert xs + ys == ys;
    }
  }

  /** When every annotation is listed, the filter keeps them all. */
  lemma {:induction false} KeepListedAll(anns: seq<Annotation>, ids: set<int>)
    requires forall i :: 0 <= i < |anns| ==> anns[i].imageId in ids
    ensures KeepListed(anns, ids) == anns
  {
    if |anns| > 0 {
      KeepListedAll(anns[1..], ids);
      assert [anns[0]] + anns[1..] == anns;
    }
  }

  /** `source_ann.get(key, ann[key])`: the source's value when it has one,
      otherwise the target's own, which must then exist; the target's value
      is looked up first either way, so a target without the key raises even
      when the source has it. */
  function Take<T>(key: string, source: Option<T>, target: Option<T>): (r: Result<Option<T>, CocoError>)
    ensures target.None? <==> r.Failure?
    ensures r.Failure? ==> r.error == MissingKey(key)
    ensures r.Success? ==> r.value.Some? && (r.value == if source.Some? then source else target)
  {
    if target.None? then Failure(MissingKey(key))
    else if source.Some? then Success(source)
    else Success(target)
  }

  /** The fields the merge copies; a target lacking one of them raises. */
  predicate HasMergedFields(ann: Annotation) {
    ann.area.Some? && ann.bbox.Some? && ann.keypoints.Some? && ann.numKeypoints.Some? && ann.segmentation.Some?
  }

  /** The first merged field the target lacks, in the order the merge reads
      them. */
  function FirstMissing(ann: Annotation): string
    requires !HasMergedFields(ann)
  {
    if ann.area.None? then "area"
    else if ann.bbox.None? then "bbox"
    else if ann.keypoints.None? then "keypoints"
    else if ann.numKeypoints.None? then "num_keypoints"
    else "segmentation"
  }

  /** The merge of one matched target annotation with its source annotation.
      The five geometry fields prefer the source's value, `attributes` is
      replaced only when the source has it, and nothing else changes. */
  function Merge(target: Annotation, source: Annotation): (r: Result<Annotation, CocoError>)
    ensures r.Failure? <==> !HasMergedFields(target)
    ensures r.Failure? ==> r.error == MissingKey(FirstMissing(target))
    ensures r.Success? ==>
              var m := r.value;
              && m.area == (if source.area.Some? then source.area else target.area)
              && m.bbox == (if source.bbox.Some? then source.bbox else target.bbox)
              && m.keypoints == (if source.keypoints.Some? then source.keypoints else target.keypoints)
              && m.numKeypoints == (if source.numKeypoints.Some? then source.numKeypoints else target.numKeypoints)
              && m.segmentation == (if source.segmentation.Some? then source.segmentation else target.segmentation)
              && m.attributes == (if source.attributes.Some? then source.attributes else target.attributes)
              && m.(area := target.area, bbox := target.bbox, keypoints := target.keypoints,
                    numKeypoints := target.numKeypoints, segmentation := target.segmentation,
                    attributes := target.attributes) == target
  {
    var area :- Take("area", source.area, target.area);
    var bbox :- Take("bbox", source.bbox, target.bbox);
    var keypoints :- Take("keypoints", source.keypoints, target.keypoints);
    var numKeypoints :- Take("num_keypoints", source.numKeypoints, target.numKeypoints);
    var segmentation :- Take("segmentation", source.segmentation, target.segmentation);
    var merged := target.(area := area, bbox := bbox, keypoints := keypoints,
                          numKeypoints := numKeypoints, segmentation := segmentation);
    Success(if source.attributes.Some? then merged.(attributes := source.attributes) else merged)
  }

  /** A target annotation after the loop: merged when its image has a refined
      annotation, untouched otherwise. */
  function SyncOne(refined: map<int, Annotation>, ann: Annotation): Result<Annotation, CocoError> {
    if ann.imageId in refined then Merge(ann, refined[ann.imageId]) else Success(ann)
  }

  /** An annotation whose image has no refined annotation passes untouched;
      one that has fails exactly when it lacks a field the merge reads; a
      synced annotation keeps its own id and image. */
  lemma SyncOneCases(refined: map<int, Annotation>, ann: Annotation)
    ensures ann.imageId !in refined ==> SyncOne(refined, ann) == Success(ann)
    ensures SyncOne(refined, ann).Failure? <==> ann.imageId in refined && !HasMergedFields(ann)
    ensures SyncOne(refined, ann).Success? ==>
              SyncOne(refined, ann).value.id == ann.id && SyncOne(refined, ann).value.imageId == ann.imageId
  {
  }

  /** The merged annotations and `match_count`. */
  datatype Merged = Merged(annotations: seq<Annotation>, matched: nat)

  /** The merge loop over the kept annotations, in order; the first one that
      raises ends it. */
  function SyncAll(refined: map<int, Annotation>, anns: seq<Annotation>): (r: Result<Merged, CocoError>)
    ensures r.Failure? <==> exists i :: 0 <= i < |anns| && SyncOne(refined, anns[i]).Failure?
    ensures r.Success? ==> |r.value.annotations| == |anns|
    ensures r.Success? ==> forall i :: 0 <= i < |anns| ==> r.value.annotations[i] == SyncOne(refined, anns[i]).value
    ensures r.Success? ==> r.value.matched == |KeepListed(anns, refined.Keys)|
  {
    if |anns| == 0 then Success(Merged([], 0))
    else
      var init := anns[..|anns| - 1];
      var ann := anns[|anns| - 1];
      assert anns == init + [ann];
      assert forall i :: 0 <= i < |init| ==> init[i] == anns[i];
      KeepListedConcat(init, [ann], refined.Keys);
      var prev :- SyncAll(refined, init);
      var out :- SyncOne(refined, ann);
      Success(Merged(prev.annotations + [out], if ann.imageId in refined then prev.matched + 1 else prev.matched))
  }

  /** The error is that of the first annotation that raises. */
  lemma {:induction false} SyncAllFirstError(refined: map<int, Annotation>, anns: seq<Annotation>, i: nat)
    requires i < |anns| && SyncOne(refined, anns[i]).Failure?
    requires forall j :: 0 <= j < i ==> SyncOne(refined, anns[j]).Success?
    ensures SyncAll(refined, anns) == Failure(SyncOne(refined, anns[i]).error)
  {
    var init := anns[..|anns| - 1];
    if i < |anns| - 1 {
      assert init[i] == anns[i];
      assert forall j :: 0 <= j < i ==> init[j] == anns[j];
      SyncAllFirstError(refined, init, i);
    } else {
      assert forall j :: 0 <= j < |init| ==> init[j] == anns[j];
    }
  }

  /** What the script ends with: the rewritten target and its two counts. */
  datatype SyncReport = SyncReport(target: CocoFile, removed: nat, matched: nat)

  /** `sync_annotations(source_path, target_path)` on the two loaded files.
      The images of the target are untouched; its annotations are the listed
      ones, merged, in their original order. */
  function Sync(source: CocoFile, target: CocoFile): (r: Result<SyncReport, CocoError>)
    ensures source.annotations.None? ==> r == Failure(MissingKey("annotations"))
    ensures source.annotations.Some? && target.images.None? ==> r == Failure(MissingKey("images"))
    ensures source.annotations.Some? && target.images.Some? && target.annotations.None? ==>
              r == Failure(MissingKey("annotations"))
    ensures r.Success? ==>
              && target.annotations.Some? && target.images.Some?
              && r.value.target == target.(annotations := r.value.target.annotations)
              && r.value.target.annotations.Some?
    ensures r.Success? ==>
              var kept := KeepListed(target.annotations.value, ImageIds(target.images.value));
              var refined := IndexBy(source.annotations.value, AnnotationImageId);
              && r.value.removed == |target.annotations.value| - |kept|
              && |r.value.target.annotations.value| == |kept|
              && (forall i :: 0 <= i < |kept| ==> SyncOne(refined, kept[i]) == Success(r.value.target.annotations.value[i]))
              && r.value.matched == |KeepListed(kept, refined.Keys)|
  {
    if source.annotations.None? then Failure(MissingKey("annotations"))
    else if target.images.None? then Failure(MissingKey("images"))
    else if target.annotations.None? then Failure(MissingKey("annotations"))
    else
      var refined := IndexBy(source.annotations.value, AnnotationImageId);
      var kept := KeepListed(target.annotations.value, ImageIds(target.images.value));
      var merged :- SyncAll(refined, kept);
      Success(SyncReport(target.(annotations := Some(merged.annotations)), |target.annotations.value| - |kept|, merged.matched))
  }

  /** Several source annotations for one image: the last of them is the one
      merged in. */
  lemma SyncUsesLastSourceAnnotation(source: seq<Annotation>, target: Annotation, i: nat)
    requires i < |source| && source[i].imageId == target.imageId
    requires forall j :: i < j < |source| ==> source[j].imageId != target.imageId
    ensures SyncOne(IndexBy(source, AnnotationImageId), target) == Merge(target, source[i])
  {
    IndexByLastWins(source, AnnotationImageId, i);
  }

  /** Merging the same source annotation twice changes nothing more. */
  lemma MergeIdempotent(target: Annotation, source: Annotation)
    requires Merge(target, source).Success?
    ensures Merge(Merge(target, source).value, source) == Merge(target, source)
  {
  }

  /** A second run of the merge loop over its own output changes nothing. */
  lemma {:induction false} SyncAllIdempotent(refined: map<int, Annotation>, anns: seq<Annotation>)
    requires SyncAll(refined, anns).Success?
    ensures SyncAll(refined, SyncAll(refined, anns).value.annotations) == SyncAll(refined, anns)
  {
    if |anns| > 0 {
      var init := anns[..|anns| - 1];
      var ann := anns[|anns| - 1];
      assert forall i :: 0 <= i < |init| ==> init[i] == anns[i];
      SyncAllIdempotent(refined, init);
      var out := SyncAll(refined, anns).value.annotations;
      assert out[..|out| - 1] == SyncAll(refined, init).value.annotations;
      if ann.imageId in refined {
        MergeIdempotent(ann, refined[ann.imageId]);
      }
    }
  }

  /** Running the script a second time with the same source changes nothing:
      no annotation is removed and the same ones match. */
  lemma SyncIdempotent(source: CocoFile, target: CocoFile)
    requires Sync(source, target).Success?
    ensures var first := Sync(source, target).value;
            Sync(source, first.target) == Success(SyncReport(first.target, 0, first.matched))
  {
    var first := Sync(source, target).value;
    var refined := IndexBy(source.annotations.value, AnnotationImageId);
    var ids := ImageIds(target.images.value);
    var kept := KeepListed(target.annotations.value, ids);
    var out := first.target.annotations.value;
    assert out == SyncAll(refined, kept).value.annotations;
    forall i | 0 <= i < |out|
      ensures out[i].imageId in ids
    {
      assert kept[i] in kept;
    }
    KeepListedAll(out, ids);
    SyncAllIdempotent(refined, kept);
  }
}

=== FILE: wrappers.dfy ===
/** Optional values and success-or-error results, used wherever the Python code
    returns None, raises an exception or reads a key that may be absent. */
module Wrappers {

  datatype Option<+T> = None | Some(value: T) {
    /** `d.get(key, default)`: the value if present, the default otherwise. */
    function GetOr(default: T): T {
      match this
      case Some(v) => v
      case None => default
    }
  }

  datatype Result<+R, +E> = Success(value: R) | Failure(error: E) {
    predicate IsFailure() {
      Failure?
    }

    function PropagateFailure<U>(): Result<U, E>
      requires Failure?
    {
      Failure(error)
    }

    function Extract(): R
      requires Success?
    {
      value
    }
  }
}
